=== FILE: README.md ===
# Nautilus controller — a Dafny model of its decision logic

The Nautilus controller drives a small robot from a browser. There are three parts:

- a joystick;
- movement buttons and keyboard shortcuts;
- camera panels with optional depth and object-detection overlays.

Two small Python web servers keep the robot's state. This project models the sequential decision code of both sides as immutable records and pure step functions, and proves what each step promises.

- **Joystick** (`JoystickGeometry`, `Joystick`): the radial clamp of the knob and the dead zone. Also the integer intensity, the half-open sector table that names a direction, and the start / stop / emergency-stop machine that issues move and stop commands. Both copies of the controller share one machine, selected by a `Variant`:
  - the eight-way one in `web-client/joystick-controller.js`;
  - the four-way one with a 16 ms throttle in `web-client/static/joystick-controller.js`.
- **Page controller** (`PageController`, `Session`): the movement guards of `web-client/script.js`, and the key maps. Also the highlighted button, fullscreen, and stopping when the page is hidden. `Session` feeds the joystick's command trace into it: each handler's requests are decided on the page state from before the handler, and the replies are applied afterwards.
- **Robot servers** (`RobotServer`): the handlers of `main.py` (simulated position) and `web-client/backend.py` (GPS position), and the GPS fix rule.
- **Fleet page** (`Fleet`): battery and status badges, and the single highlighted row.
- **Object detection** (`AiDetectionService`, `AiDetectionController`): the threshold clamp and the enable/disable flags. Also the frame guard, the detection record and the summary. On the browser side: the on/off switch, the frame gate that sends every second eligible tick, and the class colours.
- **Depth camera** (`DepthCameraService`, `DepthCameraController`): the service's lifecycle and its keep-latest queues of size 2. Also the colormap cycle and the `data:` URL prefix. On the browser side: the switch, the frame gate that sends every third eligible tick, and the reading of replies into the status line.
- **Camera panel and depth overlay** (`CameraController`, `DepthController`): the camera error messages, switching between front and back cameras, fullscreen, and the overlay that stops when the camera does.
- **Depth processor** (`DepthProcessor`): which model loads, the encoder chosen from the checkpoint name, the `None` guards of the pipeline, and `get_depth_info`.

`FrameGate` holds the interval callback that both frame-gated controllers share. `Common` holds the optional value and the JavaScript/Python number conversions, spelled out:
- `Math.round` is `Floor(x + 0.5)`;
- `int()` truncates;
- `% 360` is the floored remainder;
- JavaScript's integer `%` is the truncating remainder.

How the outside world enters the model:
- Requests are single steps with their outcome as an input.
- A frame in flight is the pair `Tick` / `FrameDone`.
- Timers are tick events.
- Foreign calls are function parameters whose results the model does not constrain: `sqrt`/`atan2` measurements, image decoding, rendering, JPEG encoding, inference and resizing.

## Model

| member | source | states |
|---|---|---|
| Common.Round | web-client/joystick-controller.js:221 | `Math.round` gives the integer r with r - 0.5 ≤ x < r + 0.5, so halves round up |
| Common.Trunc | web-client/ai_detection_service.py:132-133 | Python `int()` truncates towards zero: no larger in magnitude, less than one unit away, sign kept |
| Common.Mod360 | web-client/joystick-controller.js:235 | `% 360` on an angle lands in [0, 360) and differs from it by whole turns |
| Common.JsRem | web-client/ai-detection-controller.js:358 | JavaScript's `%` keeps the dividend's sign, stays below the divisor in magnitude and differs from the dividend by a multiple of the divisor |
| JoystickGeometry.Clamp | web-client/joystick-controller.js:126-137 | the knob ends within `maxDistance`; an offset already inside is kept; one outside lands on the circle on the same ray (collinear, same orientation) |
| JoystickGeometry.ScaledLength | web-client/joystick-controller.js:130-133 | scaling an offset by a positive factor scales its length and keeps its ray |
| JoystickGeometry.IntensityMonotone | web-client/static/joystick-controller.js:244-254 | in both copies a larger deflection never gives a smaller intensity |
| JoystickGeometry.EightWayIntensityRange | web-client/joystick-controller.js:221 | outside the 15% dead zone and inside the clamp, `min(round(n*100),100)` lies in [15,100], so it is never 0 |
| JoystickGeometry.FourWayIntensityRange | web-client/static/joystick-controller.js:252-254 | the remapped intensity lies in [0,100], is 0 at the 10% dead-zone edge and 100 at full deflection |
| JoystickGeometry.Intensity | web-client/joystick-controller.js:220-221 | the integer intensity of each copy; IntensityMonotone, EightWayIntensityRange and FourWayIntensityRange show it never falls as the stick moves out and lies in [15,100] (eight-way) or [0,100] (four-way) |
| JoystickGeometry.FirstMatch | web-client/joystick-controller.js:250-256 | the scan's row holds the angle, and no row holds it when the scan finds nothing |
| JoystickGeometry.NormalizeAngle | web-client/joystick-controller.js:236-237 | `(atan2deg + 360) % 360` maps [-180,180] into [0,360), keeping non-negative headings |
| JoystickGeometry.Compass | web-client/joystick-controller.js:238-248 | reference definition: the rose split into equal sectors, the first centred on 0°; always one of the table's names |
| JoystickGeometry.EightWayPartition | web-client/joystick-controller.js:238-256 | every angle in [0,360) lies in exactly one of the eight half-open rows, and that row is the compass sector |
| JoystickGeometry.FourWayPartition | web-client/static/joystick-controller.js:271-289 | every angle in [0,360) lies in exactly one four-way row ([315,360)∪[0,45) right, …), the compass quadrant |
| JoystickGeometry.TableCovers | web-client/joystick-controller.js:250-256 | the scan stops at a row for every angle in [0,360) |
| JoystickGeometry.TableDisjoint | web-client/joystick-controller.js:238-248 | the rows of both tables are pairwise disjoint |
| JoystickGeometry.SectorIndex | web-client/joystick-controller.js:250-256 | the index the scan stops at holds the angle and no earlier row does |
| JoystickGeometry.CalculateDirection | web-client/joystick-controller.js:233-262 | the first table row holding the normalised heading, or the center/stop fallback; DirectionTotal shows the fallback is unreachable and the name is the compass sector of the heading |
| JoystickGeometry.DirectionTotal | web-client/joystick-controller.js:233-261 | the `center`/`stop` fallback is unreachable: the name is the compass sector of the normalised heading, the code equals the name, the angle is the normalised heading |
| JoystickGeometry.EightWayBoundaries | web-client/joystick-controller.js:250-256 | sector edges belong to the sector above: 22.5° → forward-right, -22.5° (337.5°) → right, -67.5° → backward-right |
| JoystickGeometry.FourWayAxes | web-client/static/joystick-controller.js:271-289 | 0/90/180/270° give right/forward/left/backward; 45° is forward and 315° right |
| JoystickGeometry.DirectionClass | web-client/joystick-controller.js:312-324 | `getDirectionClass` of each copy; DirectionClassTable pairs the i-th name with the i-th compass class and sends other own names to `n` |
| JoystickGeometry.DirectionClassTable | web-client/joystick-controller.js:312-324 | the i-th direction name maps to the i-th compass class, the classes are distinct (injective), any other name that is not an `Object.prototype` member maps to `n` |
| JoystickGeometry.DirectionNamesAreOwnKeys | web-client/joystick-controller.js:304 | no table name is an inherited `Object.prototype` member, so the name the indicator passes always meets the table or the `n` fallback |
| JoystickGeometry.CompassEight | web-client/joystick-controller.js:238-248 | any eight-way row holding the angle (in particular the one the scan stops at) names its compass sector |
| JoystickGeometry.CompassFour | web-client/static/joystick-controller.js:271-289 | any four-way row holding the angle (in particular the one the scan stops at) names its compass quadrant |
| Joystick.Init | web-client/joystick-controller.js:98-106 | a fresh controller is centred, idle, in joystick mode, with `maxDistance = width/2 - 40` |
| Joystick.StopMovement | web-client/joystick-controller.js:346-359 | no timer, no direction, intensity 0, exactly one call of the page controller's stop; knob and metrics untouched |
| Joystick.StartMovement | web-client/joystick-controller.js:326-344 | at most one move request; the timer runs exactly when one was sent; no direction or zero intensity sends nothing |
| Joystick.Tick | web-client/joystick-controller.js:336-343 | a firing without a running timer does nothing |
| Joystick.ReturnToCenter | web-client/joystick-controller.js:192-205 | knob at the centre, movement stopped with one stop call |
| Joystick.UpdateMovementData | web-client/joystick-controller.js:207-231 | recomputing the movement data keeps the controller invariant and the knob |
| Joystick.IntensityInRange | web-client/joystick-controller.js:221 | intensity in [0,100], and at least 15 for the eight-way copy |
| Joystick.DirectionFromTable | web-client/joystick-controller.js:233-261 | every computed direction is a row of the variant's table |
| Joystick.Drag | web-client/joystick-controller.js:115-142 | ignored outside a drag; otherwise the knob is the clamped sample |
| Joystick.StartDrag | web-client/joystick-controller.js:108-113 | a drag is in progress with re-measured `maxDistance` |
| Joystick.StopDrag | web-client/joystick-controller.js:144-152 | ends a drag with the knob centred and one stop call; nothing outside a drag |
| Joystick.MoveKnobToPosition | web-client/joystick-controller.js:154-186 | a click outside a drag places the clamped knob; during a drag it is ignored |
| Joystick.AutoReturn | web-client/joystick-controller.js:181-185 | the delayed callback centres the knob and stops, unless a drag is in progress |
| Joystick.Resize | web-client/joystick-controller.js:98-106 | the window resize re-derives `maxDistance` and sends nothing |
| Joystick.ToggleControlMode | web-client/joystick-controller.js:394-421 | the mode flips, two stop calls are issued, knob centred, no timer |
| Joystick.EmergencyStop | web-client/joystick-controller.js:423-441 | an emergency stop keeps the controller invariant |
| Joystick.Handle | web-client/joystick-controller.js:44-96 | every wired event keeps the controller invariant |
| Joystick.TickPreservesInv | web-client/joystick-controller.js:336-343 | a timer firing keeps the invariant |
| Joystick.RunPreservesInv | web-client/joystick-controller.js:64-96 | any sequence of events keeps the invariant |
| Joystick.TickAlwaysMoves | web-client/joystick-controller.js:336-343 | the timer's `else stopMovement()` branch is dead: every firing sends the same move request and changes nothing |
| Joystick.TicksRepeat | web-client/joystick-controller.js:336-343 | k firings send k identical move requests while running, nothing otherwise |
| Joystick.DeadZoneStops | web-client/joystick-controller.js:212-218 | inside the dead zone: intensity 0, no direction, no timer and exactly one stop call |
| Joystick.LiveSampleMoves | web-client/joystick-controller.js:219-230 | outside the dead zone: the compass direction, the variant's intensity, one move request with the normalised angle when it is positive (always for eight-way), none at 0 |
| Joystick.ThrottledSampleIgnored | web-client/static/joystick-controller.js:234-238 | a sample within 16 ms of the last accepted one moves the knob only: direction, intensity, timer and clock unchanged, nothing sent |
| Joystick.EmergencyStopEffect | web-client/joystick-controller.js:423-430 | three stop calls, knob centred, no timer, no direction, intensity 0, drag not ended |
| Joystick.SilentAfterEmergencyStop | web-client/static/joystick-controller.js:448-454 | after an emergency stop the timer sends nothing |
| PageController.StartMovement | web-client/script.js:59-82 | silent when already moving that way; else one move request, and only success records the direction |
| PageController.StopMovement | web-client/script.js:84-106 | silent when not moving; else one stop request, and success records "stopped" |
| PageController.SimpleRequest | web-client/script.js:108-169 | speed, camera and servo requests are sent once and never touch the movement state |
| PageController.PollStatus | web-client/script.js:171-183 | success marks connected, a network error disconnected, an HTTP error changes nothing |
| PageController.ActiveButton | web-client/script.js:227-240 | a button is highlighted iff moving in a direction other than "stopped" that has a button, and it is that direction's |
| PageController.ToLower | web-client/script.js:243 | lower-casing keeps the length and lowers each character |
| PageController.LowerIdempotent | web-client/script.js:243 | lower-casing twice is lower-casing once |
| PageController.KeyDownAction | web-client/script.js:242-281 | the action of the key-down switch on the lower-cased key; KeyDownMatchesTable and SwitchMatchesTable show it equals the w/s/a/d/arrows/space/c/v/f table and unlisted keys do nothing |
| PageController.KeyUpAction | web-client/script.js:283-297 | stop for the movement keys, nothing otherwise; KeyUpStopsMovementKeys shows the keys that stop are exactly those that start a movement |
| PageController.KeyDownMatchesTable | web-client/script.js:242-281 | the key-down switch equals the w/s/a/d/arrows/space table on the lower-cased key, so case does not matter |
| PageController.SwitchMatchesTable | web-client/script.js:246-279 | the switch agrees with the table on every lower-case key, unlisted keys do nothing |
| PageController.KeyUpStopsMovementKeys | web-client/script.js:283-297 | a key-up stops iff that key starts a movement on key-down; every other key-up does nothing |
| PageController.KeyExamples | web-client/script.js:242-297 | "W" and "ArrowUp" go forward, releasing "S" stops |
| PageController.OtherKeysExamples | web-client/script.js:242-297 | "Enter" does nothing on press, releasing "c" does nothing |
| PageController.KeyDown | web-client/script.js:242-281 | a movement key is the page's start in that direction, space its stop, `c` and `v` send the camera and servo toggle requests; `f` and unlisted keys send nothing |
| PageController.KeyUp | web-client/script.js:283-297 | releasing a movement key is the page's `stopMovement`; every other key does nothing on release |
| PageController.PressThenRelease | web-client/script.js:242-297 | pressing a movement key (answered) and releasing it sends one stop, and a successful stop leaves the page stopped |
| PageController.VisibilityChange | web-client/script.js:381-388 | hiding the page while moving sends one stop request; otherwise nothing |
| PageController.SideRequestsKeepMovement | web-client/script.js:108-183 | speed, camera, servo and status requests keep the highlighted button and what a later start or stop sends; a successful poll restores the indicator |
| PageController.HideStopsOnce | web-client/script.js:381-388 | hiding is the page's `stopMovement`; after a successful hide a second one sends nothing; showing sends nothing |
| PageController.RepeatedStartIsSilent | web-client/script.js:59-65 | after a successful start, repeating the same direction sends nothing |
| PageController.RepeatedStopIsSilent | web-client/script.js:84-87 | after a successful stop, stopping again sends nothing |
| PageController.FailureKeepsBelief | web-client/script.js:59-106 | a failed start or stop leaves `isMoving` and `currentDirection` unchanged |
| PageController.HighlightFollowsMovement | web-client/script.js:227-240 | a successful start highlights its button; a successful stop while moving highlights none |
| PageController.ToggleFullscreenView | web-client/script.js:299-313 | the fullscreen class flips |
| PageController.ToggleFullscreenTwice | web-client/script.js:299-313 | toggling twice restores the class, and the whole view when icon and title matched |
| Session.Requests | web-client/joystick-controller.js:361-392 | before its first `await` a move command posts its payload unconditionally, and a stop posts exactly when the page believes it is moving |
| Session.Respond | web-client/script.js:95-105 | a successful move records the joystick's direction, a successful stop records the stop, a failure only touches the connection indicator |
| Session.Apply | web-client/joystick-controller.js:361-392 | a move command posts its payload and, on success, marks the page moving in that direction; a stop command is the page's guarded stop |
| Session.SingleCommand | web-client/joystick-controller.js:336-343 | a handler issuing one command behaves as that command on its own |
| Session.StopSends | web-client/script.js:84-85 | every stop call of one handler sees the pre-handler `isMoving`: all post when it was set, none otherwise |
| Session.StopReplies | web-client/script.js:95-99 | after the stop replies the page is moving iff it was and no reply succeeded; one success records the stop |
| Session.EmergencyStopRequests | web-client/joystick-controller.js:423-430 | all three stop requests leave the browser when the page believed it was moving, none otherwise; the stop is recorded iff some reply succeeds |
| Session.ToggleModeRequests | web-client/joystick-controller.js:400-421 | switching mode sends two stop requests while moving, none otherwise; still moving iff both fail |
| Session.TickMarksMoving | web-client/joystick-controller.js:336-343 | a firing answered successfully leaves the page moving in the joystick's direction |
| RobotServer.TurnLeft | main.py:66-67 | `(h - 5) % 360` stays in [0,360) and wraps below 5 |
| RobotServer.TurnRight | main.py:68-69 | `(h + 5) % 360` stays in [0,360) and wraps from 355 |
| RobotServer.SameTurn | main.py:66-69 | the floored remainder differs from its argument by 0 or ±360 |
| RobotServer.TurnsCancel | main.py:66-69 | left then right (and right then left) restores the heading |
| RobotServer.Stop | main.py:73-77 | not moving, direction "stopped", all else unchanged |
| RobotServer.ToggleServo | main.py:79-92 | 0 goes to 180, anything else to 0, nothing else changes |
| RobotServer.ToggleCamera | main.py:94-101 | the camera flag flips, nothing else changes |
| RobotServer.TogglesAreInvolutions | main.py:79-101 | the camera toggle is an involution, the servo toggle too on {0,180} |
| RobotServer.ClampSpeed | main.py:106 | `max(0, min(100, v))` lies in [0,100] and is the identity there |
| RobotServer.SetSpeed | main.py:103-108 | the stored speed lies in [0,100]; a value `int` rejects raises and changes nothing |
| RobotServer.SpeedFacts | main.py:103-108 | idempotent, exact on [0,100], 50 when absent, 42.9 → 42, -0.5 → 0, 250 → 100 |
| RobotServer.MoveCore | web-client/backend.py:114-129 | moving records the direction; left/right turn the heading by 5; any other direction leaves it |
| RobotServer.SimMove | main.py:48-71 | forward/backward change y and left/right change x by speed/100·0.5; other directions only set the movement flags |
| RobotServer.OppositeMovesCancel | main.py:54-69 | left then right, or forward then backward, returns to the starting position and heading |
| RobotServer.SimHandle | main.py:48-108 | every request keeps heading in [0,360), speed in [0,100] and servo at 0 or 180 |
| RobotServer.GpsReport | web-client/backend.py:68-73 | both coordinates present: stored and "active"; otherwise "no_fix" with the coordinates kept |
| RobotServer.GpsClosed | web-client/backend.py:79-82 | the reader ends "disconnected" with its coordinates kept |
| RobotServer.ErrorStatusOverwritten | web-client/backend.py:77-82 | a reader error is immediately overwritten by "disconnected" |
| RobotServer.GpsMove | web-client/backend.py:114-129 | a move touches only the heading and movement flags, never latitude, longitude or GPS status |
| RobotServer.GpsHandle | web-client/backend.py:114-166 | every request keeps the shared invariant and leaves the GPS fields alone |
| RobotServer.ServersAgree | web-client/backend.py:114-166 | both servers compute the same shared fields for every request |
| RobotServer.SimRun | main.py:48-108 | any request sequence keeps the shared invariant |
| RobotServer.InitialValid | main.py:28-37 | the initial state satisfies it |
| Fleet.BatteryClass | web-client/fleet.js:297-301 | the three battery bands at 70 and 30; BatteryMonotone, BatteryClassMatchesIcon and BatteryEdges show more charge never shows a lower class, the bands agree with the icons, and each edge belongs to the upper band |
| Fleet.BatteryIcon | web-client/fleet.js:304-310 | the five icon bands at 90, 70, 50 and 30; covered by the same three lemmas |
| Fleet.BatteryMonotone | web-client/fleet.js:297-310 | more charge never shows a lower class or an emptier icon |
| Fleet.BatteryClassMatchesIcon | web-client/fleet.js:297-310 | high ⇔ full or three-quarters, medium ⇔ half or quarter, low ⇔ empty |
| Fleet.BatteryEdges | web-client/fleet.js:297-310 | band edges (70, 30, 90, 50) belong to the upper band |
| Fleet.StatusClass | web-client/fleet.js:313-321 | `getStatusClass`; StatusBadgeConsistent shows the class is "status-" followed by the status shown, unknown statuses showing offline |
| Fleet.StatusIcon | web-client/fleet.js:324-332 | `getStatusIcon`; StatusBadgeConsistent shows the icon follows the status shown and the icons differ |
| Fleet.CanonicalStatus | web-client/fleet.js:313-332 | unknown statuses display as offline |
| Fleet.StatusBadgeConsistent | web-client/fleet.js:313-332 | class is "status-" plus the displayed status, the icon follows it, unknown statuses get the offline icon, distinct statuses get distinct badges |
| Fleet.Unhighlight | web-client/fleet.js:391-412 | clears the current id only when it is the one left; the row is unmarked |
| Fleet.HighlightRow | web-client/fleet.js:363-388 | the row becomes current and marked; a different previous row is unmarked |
| Fleet.HighlightKeepsSingle | web-client/fleet.js:363-412 | entering and leaving rows keeps at most one marked row, the current one |
| Fleet.EnterThenLeave | web-client/fleet.js:363-412 | leaving the row just entered clears the highlight |
| Fleet.LeaveOtherKeeps | web-client/fleet.js:391-412 | leaving a row that is not current changes nothing |
| AiDetectionService.Init | web-client/ai_detection_service.py:23-38 | starts disabled, idle, threshold 0.5 |
| AiDetectionService.ClampThreshold | web-client/ai_detection_service.py:63 | `max(0, min(1, t))` lies in [0,1] and is exact there |
| AiDetectionService.SetConfidenceThreshold | web-client/ai_detection_service.py:56-64 | only the threshold changes, to the clamped value |
| AiDetectionService.ThresholdFacts | test_ai_detection.py:94-102 | clamping is idempotent; 0.3/0.5/0.7 are kept, 1.5 → 1, -0.2 → 0 |
| AiDetectionService.EnableDetection | web-client/ai_detection_service.py:66-79 | succeeds iff a model is loaded; without one nothing changes |
| AiDetectionService.DisableDetection | web-client/ai_detection_service.py:81-85 | both flags cleared, nothing else |
| AiDetectionService.DisableIdempotent | web-client/ai_detection_service.py:66-85 | disabling twice is disabling once; enabling afterwards succeeds iff a model is loaded |
| AiDetectionService.NatToString | web-client/ai_detection_service.py:125 | a class id prints as a non-empty string of digits |
| AiDetectionService.NatToStringRoundTrip | web-client/ai_detection_service.py:125 | reading back the printed id gives the id |
| AiDetectionService.ClassName | web-client/ai_detection_service.py:125 | a known id gets its name; an id past the list gets "Class_" followed by the id |
| AiDetectionService.MakeDetection | web-client/ai_detection_service.py:121-135 | the record carries id, name, confidence, the truncated box, and a centre inside the box |
| AiDetectionService.Midpoint | web-client/ai_detection_service.py:133 | the truncated midpoint lies between its ends |
| AiDetectionService.ProcessFrame | web-client/ai_detection_service.py:87-173 | disabled or modelless returns the frame and no detections; otherwise one record per box, processing cleared, even on an exception |
| AiDetectionService.ProcessFrameGuard | web-client/ai_detection_service.py:97-98 | a disabled service returns the input frame and an empty list |
| AiDetectionService.GetStatus | web-client/ai_detection_service.py:233-248 | the reported flags and threshold are the service's; classes only with a model |
| AiDetectionService.StatusReportsChanges | web-client/ai_detection_service.py:233-248 | the status after enable, disable or a threshold change shows that change, the class list unchanged |
| AiDetectionService.Keys | web-client/ai_detection_service.py:262-266 | the keys of a count table, in order |
| AiDetectionService.KeyIndex | web-client/ai_detection_service.py:262-266 | the slot of a class in the table, or past the end when it is absent |
| AiDetectionService.CountClasses | web-client/ai_detection_service.py:262-266 | keys in order of first appearance, each count is that class's number of occurrences, counts sum to the input length |
| AiDetectionService.AppearsIffOccurs | web-client/ai_detection_service.py:262-266 | a class is a key iff it occurs |
| AiDetectionService.DistinctAppearances | web-client/ai_detection_service.py:262-266 | the keys are distinct |
| AiDetectionService.MaxConfidence | web-client/ai_detection_service.py:268 | the maximum confidence bounds every detection and is attained |
| AiDetectionService.ClassNames | web-client/ai_detection_service.py:262-266 | the class names of the detections, in order |
| AiDetectionService.DetectionSummary | web-client/ai_detection_service.py:250-273 | empty input gives total 0 and no classes; otherwise total = length, counts as above summing to it, highest confidence the attained maximum |
| AiDetectionController.ToggleButton | web-client/ai-detection-controller.js:412-434 | disabled iff starting or stopping; a state outside the four that is not an `Object.prototype` member uses the inactive class and no icon |
| AiDetectionController.ButtonStatesAreOwnKeys | web-client/ai-detection-controller.js:123-183 | the four states the controller passes are not inherited members, and each has an icon |
| AiDetectionController.ButtonLooks | web-client/ai-detection-controller.js:416-432 | starting and stopping look alike; active, inactive and busy look different |
| AiDetectionController.StartFrameProcessing | web-client/ai-detection-controller.js:187-200 | the interval runs and the counter is kept |
| AiDetectionController.StopFrameProcessing | web-client/ai-detection-controller.js:202-208 | the interval is cleared and the counter reset to 0 |
| AiDetectionController.HandleDetectionError | web-client/ai-detection-controller.js:457-464 | disabled, no interval, counter 0, a non-empty message (the given one when non-empty) |
| AiDetectionController.StartDetection | web-client/ai-detection-controller.js:121-155 | with the camera off only the message and the inactive toggle button change; otherwise enabled iff the server accepts |
| AiDetectionController.StopDetection | web-client/ai-detection-controller.js:157-185 | an accepted stop disables, clears the interval and counter, and empties the detections; a refused one only resets the button |
| AiDetectionController.ClearDetections | web-client/ai-detection-controller.js:389-398 | only the detections are emptied |
| AiDetectionController.SetConfidenceThreshold | web-client/ai-detection-controller.js:361-387 | the local threshold follows only an accepted request |
| AiDetectionController.Tick | web-client/ai-detection-controller.js:192-199 | counts only when enabled and idle, and sends iff the count is even and the video is ready |
| AiDetectionController.FrameDone | web-client/ai-detection-controller.js:210-251 | the in-flight flag drops; the detections are replaced only by a reply that carries them |
| AiDetectionController.HalfTheTicks | web-client/ai-detection-controller.js:192-199 | 2k eligible ticks send exactly k frames from any starting count; the first tick sends nothing |
| AiDetectionController.ClassColor | web-client/ai-detection-controller.js:352-359 | a non-negative id gets `palette[id % 10]`; a negative id with a non-zero remainder gets none |
| AiDetectionController.ColorPeriodic | web-client/ai-detection-controller.js:352-359 | colours repeat every 10 ids and differ within a period |
| AiDetectionController.HandleKeepsInv | web-client/ai-detection-controller.js:113-208 | an interval only runs while enabled; only an accepted start with the camera on enables; ticks do nothing while disabled |
| CameraController.Flip | web-client/camera-controller.js:284 | the facing mode always changes |
| CameraController.FlipInvolution | web-client/camera-controller.js:284-300 | flipping twice restores the mode (the failure revert) |
| CameraController.ToggleButton | web-client/camera-controller.js:315-340 | disabled iff starting or stopping; unknown states keep only the base style |
| CameraController.ButtonStylesDistinct | web-client/camera-controller.js:321-338 | the four states have four different styles |
| CameraController.ErrorMessage | web-client/camera-controller.js:419-433 | the message for an `error.name`; GroupMessage, UnknownNameDefault and MessagesDistinct show each of the 11 names gets its group's message, every other name the default, and the messages differ |
| CameraController.GroupMessage | web-client/camera-controller.js:413-438 | each of the 11 error names gets its group's message |
| CameraController.UnknownNameDefault | web-client/camera-controller.js:413-438 | any other name gets "Unable to access camera" |
| CameraController.MessagesDistinct | web-client/camera-controller.js:413-438 | the six group messages differ from each other and from the default |
| CameraController.HandleCameraError | web-client/camera-controller.js:413-439 | always ends inactive with the mapped message; the depth overlay is stopped when on |
| CameraController.StartCamera | web-client/camera-controller.js:90-128 | active iff the stream is acquired; a failure shows its message and stops the depth overlay |
| CameraController.StopCamera | web-client/camera-controller.js:130-172 | no stream, inactive, fullscreen off, inactive button; the depth overlay is stopped when on |
| CameraController.SwitchCamera | web-client/camera-controller.js:280-304 | no-op when inactive; success flips the facing mode; failure keeps it (flipped back) |
| CameraController.EnterFullscreen | web-client/camera-controller.js:203-248 | fullscreen only with an active camera |
| CameraController.ExitFullscreen | web-client/camera-controller.js:250-278 | fullscreen off, nothing else |
| CameraController.ToggleFullscreen | web-client/camera-controller.js:195-201 | turns fullscreen off when on, on when off and active |
| CameraController.ToggleFullscreenTwice | web-client/camera-controller.js:195-201 | toggling twice on an active camera restores it |
| CameraController.Destroy | web-client/camera-controller.js:462-475 | no stream, inactive, fullscreen off |
| CameraController.ActiveOnlyAfterAcquire | web-client/camera-controller.js:96-118 | the camera becomes active only by a successful acquisition; an active one stays active only under switch, zoom, escape and a successful retry |
| CameraController.ToggleOffStopsDepth | web-client/camera-controller.js:150-163 | turning the camera off stops a running depth overlay and drops the stream |
| FrameGate.Tick | web-client/depth-camera-controller.js:253-260 | counts only when enabled and idle, and fires iff the new count is a multiple of the rate |
| FrameGate.EligibleCounts | web-client/ai-detection-controller.js:192-199 | k eligible ticks advance the counter by k and fire at most k times |
| FrameGate.EligibleSplit | web-client/ai-detection-controller.js:192-199 | a run of eligible ticks can be split at any point |
| DepthCameraService.Init | web-client/depth_camera_service.py:33-47 | starts disabled with empty queues and colormap 0; available iff the import and model load succeed |
| DepthCameraService.Start | web-client/depth_camera_service.py:68-90 | errors with the state unchanged when unavailable or running; otherwise sets enabled and processing |
| DepthCameraService.Stop | web-client/depth_camera_service.py:92-111 | clears both flags and both queues, keeps availability and colormap |
| DepthCameraService.StopIdempotent | web-client/depth_camera_service.py:92-111 | stopping twice is stopping once; a start afterwards succeeds iff available |
| DepthCameraService.StartKeepsInv | web-client/depth_camera_service.py:68-90 | start keeps the service invariant |
| DepthCameraService.PutLatest | web-client/depth_camera_service.py:141-149 | put with maxsize 2 drops the oldest when full: length ≤ 2 and the result is the newest suffix of queue + item |
| DepthCameraService.Newest | web-client/depth_camera_service.py:41-42 | the last two elements (or fewer) |
| DepthCameraService.PutEachKeepsNewest | web-client/depth_camera_service.py:141-149 | any sequence of puts leaves the two newest items |
| DepthCameraService.PutIsNewest | web-client/depth_camera_service.py:141-149 | one put leaves the two newest items |
| DepthCameraService.DrainLatest | web-client/depth_camera_service.py:152-157 | draining empties the queue and returns its last element, or none when empty |
| DepthCameraService.IndexOf | web-client/depth_camera_service.py:243-244 | the first comma, or the end when there is none |
| DepthCameraService.StripDataUrl | web-client/depth_camera_service.py:239-259 | data without the `data:image` prefix is kept; a prefixed payload loses everything up to its first comma; no comma fails |
| DepthCameraService.EncodeFrame | web-client/depth_camera_service.py:261-274 | a JPEG result gets the `data:image/jpeg;base64,` prefix; a failed encode gives none |
| DepthCameraService.StripAfterEncode | web-client/depth_camera_service.py:243-270 | stripping the prefix that encoding adds returns a comma-free payload |
| DepthCameraService.DecodeFrame | web-client/depth_camera_service.py:239-259 | decoding sees exactly the stripped payload |
| DepthCameraService.ProcessFrame | web-client/depth_camera_service.py:121-170 | disabled or undecodable: error and no change; otherwise the frame is the newest in the queue, the depth queue drained, the reply its last frame with the colormap name, or "processing" |
| DepthCameraService.WorkerStep | web-client/depth_camera_service.py:172-208 | the worker takes the oldest frame and puts its encoded rendering last in the depth queue |
| DepthCameraService.WorkerThenProcess | web-client/depth_camera_service.py:121-208 | a frame rendered by the worker is what the next request receives, with the current colormap's name |
| DepthCameraService.ChangeColormap | web-client/depth_camera_service.py:210-226 | index becomes (i+1) mod 9 and the reply names it; unavailable is an error |
| DepthCameraService.ChangeColormapTimes | web-client/depth_camera_service.py:210-226 | any number of changes keeps the invariant |
| DepthCameraService.ColormapAfter | web-client/depth_camera_service.py:216 | n changes move the index to (i+n) mod 9 |
| DepthCameraService.FullCycle | config/camera_config.py:62-72 | a multiple of nine changes returns to the starting colormap |
| DepthCameraService.GetStatus | web-client/depth_camera_service.py:228-237 | flags as held; colormap name, index and list only when available |
| DepthCameraService.StatusReportsChanges | web-client/depth_camera_service.py:228-237 | after a start the status is enabled iff the service is usable, after a stop both switches are off, after a colormap change it shows the name and index replied |
| DepthCameraController.UpdateToggleButton | web-client/depth-camera-controller.js:391-416 | starting/stopping disable, active/inactive enable; any other state leaves `disabled` and text |
| DepthCameraController.HandleError | web-client/depth-camera-controller.js:461-465 | disabled with the message, interval left running |
| DepthCameraController.StartDepthCamera | web-client/depth-camera-controller.js:90-125 | with the camera off only the message and the inactive toggle button change; otherwise enabled iff accepted, and an accepted start shows the rebuilt overlay's "Processing..." status |
| DepthCameraController.RestartShowsProcessing | web-client/depth-camera-controller.js:107-113 | an accepted stop and start leave the controller on with status "Processing...", whatever the last frame showed |
| DepthCameraController.StopDepthCamera | web-client/depth-camera-controller.js:127-155 | an accepted stop disables and clears the interval but keeps the counter |
| DepthCameraController.Toggle | web-client/depth-camera-controller.js:82-88 | stop while on, start while off |
| DepthCameraController.ToggleButtonFollowsState | web-client/depth-camera-controller.js:90-155 | after a click the button is usable, offers the stop only while on, offers it after every accepted start; a refused stop leaves depth on with the start offered |
| DepthCameraController.Tick | web-client/depth-camera-controller.js:253-260 | counts only when enabled and idle, sends on every third count with the video ready |
| DepthCameraController.StatusFor | web-client/depth-camera-controller.js:302-315 | the status line for a frame reply; FrameDone states Active iff success with a truthy frame, Processing... iff processing, Error otherwise |
| DepthCameraController.FrameDone | web-client/depth-camera-controller.js:302-319 | success with a frame → "Active", "processing" → "Processing...", else "Error"; colormap falls back to the current one; in-flight flag drops |
| DepthCameraController.ChangeColormap | web-client/depth-camera-controller.js:353-375 | ignored while off or on failure; otherwise the new name |
| DepthCameraController.ThirdOfTheTicks | web-client/depth-camera-controller.js:253-260 | 3k eligible ticks send exactly k frames from any starting count |
| DepthCameraController.ErrorSilencesTicks | web-client/depth-camera-controller.js:461-465 | after an error the still-running interval sends nothing and colormap changes are ignored |
| DepthCameraController.Encode | web-client/depth_camera_service.py:121-170 | every service reply is a JSON reply |
| DepthCameraController.ServiceReplyShown | web-client/depth-camera-controller.js:302-312 | a rendered frame shows "Active" with the service's colormap; a queued one "Processing..."; an error "Error" |
| DepthCameraController.ProcessThroughService | web-client/depth-camera-controller.js:270-320 | the status line shows what the service's frame handler answers |
| DepthController.UpdateDepthButton | web-client/depth-controller.js:272-297 | disabled iff starting or stopping; unknown states keep only the base class |
| DepthController.StartDepth | web-client/depth-controller.js:73-93 | ends enabled with the interval running and the button showing "Stop Depth" |
| DepthController.StopDepth | web-client/depth-controller.js:95-114 | ends disabled with no interval and no frame in flight |
| DepthController.AutoStopDepth | web-client/depth-controller.js:117-138 | no-op when off; otherwise exactly a stop |
| DepthController.ToggleDepth | web-client/depth-controller.js:60-71 | with the camera off only the message changes; otherwise on and off swap |
| DepthController.Tick | web-client/depth-controller.js:140-168 | a frame goes out only when enabled, idle and the video exists |
| DepthController.FrameDone | web-client/depth-controller.js:200-209 | the in-flight flag drops and nothing else changes |
| DepthController.ButtonFollowsState | web-client/depth-controller.js:60-132 | the button offers "Stop Depth" exactly while depth is on and is never left disabled, from the constructor through every step |
| DepthController.DepthSteps | web-client/depth-controller.js:145-158 | every step keeps "interval iff enabled", a busy tick sends nothing, auto-stop is idempotent, the period is 500 ms |
| DepthController.CameraEvent | web-client/camera-controller.js:150-163 | a camera event moves the camera as the camera panel does |
| DepthController.DepthFollowsCamera | web-client/depth-controller.js:117-138 | depth runs only while the camera does, under every camera event but teardown and every depth step |
| DepthController.TeardownKeepsDepth | web-client/camera-controller.js:462-475 | tearing down the camera panel leaves a running overlay running |
| DepthProcessor.Init | utils/depth_processor.py:30-44 | nothing loaded, colormap plasma |
| DepthProcessor.ConfigFor | utils/depth_processor.py:91-108 | each encoder's features and four output channels |
| DepthProcessor.SelectEncoder | utils/depth_processor.py:91-105 | the `in` tests for vitb, vits, vitl in that order, vitb by default; EncoderChoice characterises the choice and EncoderExamples pins path instances |
| DepthProcessor.MissingCharNotContained | utils/depth_processor.py:91-102 | a name with a character the path lacks is not in the path |
| DepthProcessor.EncoderChoice | utils/depth_processor.py:91-108 | the chosen encoder is named in the path (vitb when none is); a path naming one encoder gets it; "vitb" wins over the others |
| DepthProcessor.EncoderExamples | utils/depth_processor.py:91-108 | "…_vits.pth" gives vits; a name with both vits and vitb gives vitb |
| DepthProcessor.LoadLocal | utils/depth_processor.py:78-137 | missing architecture: False, nothing changes; otherwise the chosen configuration, loaded in local mode iff the checkpoint reads |
| DepthProcessor.LoadModel | utils/depth_processor.py:46-76 | the local checkpoint when one is named and exists, otherwise the hub pipeline; LoadModelOutcome and FailedReloadUnloads state the outcome of each route |
| DepthProcessor.LoadModelOutcome | utils/depth_processor.py:46-76 | an existing checkpoint is the only route tried, so its failure is final and the hub's answer is irrelevant; otherwise the hub decides |
| DepthProcessor.FailedReloadUnloads | utils/depth_processor.py:73-76 | a failed hub load leaves the processor unloaded |
| DepthProcessor.EstimateDepth | utils/depth_processor.py:139-160 | None until loaded; then the local model or the hub pipeline by mode |
| DepthProcessor.SetColormap | utils/depth_processor.py:205-212 | only the colormap changes |
| DepthProcessor.VisualizeDepth | utils/depth_processor.py:214-245 | None in, None out; the default colormap is the current one |
| DepthProcessor.SetColormapColorsLaterFrames | utils/depth_processor.py:205-245 | a set colormap colours later frames until the next set; an explicit argument wins; estimation ignores it |
| DepthProcessor.ZerosLike | utils/depth_processor.py:261 | a black picture of the frame's size |
| DepthProcessor.ProcessFrame | utils/depth_processor.py:247-277 | a black frame of the input's size on failure; otherwise the target size, or the frame's size without one |
| DepthProcessor.UnloadedGivesBlack | utils/depth_processor.py:149-150 | before loading every processed frame is black at the frame's size, whatever the target |
| DepthProcessor.RowMin | utils/depth_processor.py:294 | the least value bounds the row and is attained |
| DepthProcessor.RowMax | utils/depth_processor.py:295 | the greatest value bounds the row and is attained |
| DepthProcessor.GridMin | utils/depth_processor.py:294 | `np.min` bounds every cell and is attained |
| DepthProcessor.GridMax | utils/depth_processor.py:295 | `np.max` bounds every cell and is attained |
| DepthProcessor.GetDepthInfo | utils/depth_processor.py:279-307 | None → None; the point depth is set iff 0 ≤ x < width and 0 ≤ y < height, the key only when a point is given; every cell lies between the reported min and max, and some cell holds each of them |
| DepthProcessor.PointWithinRange | utils/depth_processor.py:302-303 | an in-bounds point reads row y, column x, between the reported min and max |

## Left out

- DOM, CSS classes beyond the button state, icons, canvas drawing, the Leaflet map, vibration and animations: presentation only.
- `fetch`, HTTP and JSON parsing: each request is one step with an outcome. The route layer that turns the depth camera service's dictionaries into JSON is not part of this model, so `DepthCameraController.Encode` assumes the dictionary keys pass through unchanged.
- Timing of `setInterval`/`setTimeout`: timers are tick events. Within one joystick handler every request leaves before any reply is read, which `Session` models; interleavings of separate handlers are not modelled. In particular, a stop that clears the depth overlay's in-flight flag while a request is still pending is not modelled.
- Threads and blocking queues in the depth camera service: the worker is one atomic `WorkerStep`. A thread that fails to start, exceptions inside `process_frame` beyond decoding, and the `last_*` frame fields (never read) are left out.
- WebRTC acquisition, `cv2` encode/decode, base64, JPEG, YOLO and Depth-Anything inference, OpenCV colouring and resizing: foreign calls passed in as functions.
- `sqrt`, `atan2` and IEEE float rounding: the length and heading of a sample are host measurements (`Sample`). `Math.round` is `Floor(x + 0.5)` on reals.
- The AI service's base64 frame decoding, its drawing and its class-colour table for boxes (float numerics and OpenCV).
- The pause/resume of camera tracks, `checkServiceAvailability`, `getAvailableDevices`, and the status polling of the depth and AI panels: they only feed the display.
- GPIO servo hardware, the gpsd socket loop, the fleet page's random battery and temperature simulation, and model download scripts.
- JoystickGeometry.DirectionClassTable, AiDetectionController.ToggleButton: the fallback clause excludes keys that are own properties of `Object.prototype` ("constructor", "toString" and the like). For those, `table[key] || fallback` keeps the inherited function in the source, and the model does not represent function values. Every call site passes a table name or one of the four literal states, and DirectionNamesAreOwnKeys and ButtonStatesAreOwnKeys show none of those is inherited.
- Joystick.Init: requires a base width above 80 px; a narrower base gives a non-positive `maxDistance` and NaN or negated scaling in the source.
- Joystick.StartDrag, Joystick.Resize, Joystick.Handle, Joystick.RunPreservesInv: a press or a window resize is modelled only for a base wider than 80 px, because the invariant and the clamp need a positive `maxDistance`. The source re-measures on every resize, including while the panel is hidden by the mode switch (width 0), and the next knob placement then clamps with that `maxDistance`.
- PageController.ToLower: lowers ASCII letters only. Every key name the handlers test is ASCII, and no other character lowers to an ASCII letter except U+212A KELVIN SIGN, which no shortcut uses.
- AiDetectionService.ClassName: class ids are natural numbers; YOLO does not produce negative class ids.
- DepthProcessor.LoadLocal: a failure while building the network counts as a failed checkpoint read; either way the configuration is recorded and `False` returned.
- DepthProcessor.GetDepthInfo: requires a non-empty rectangular map, since `np.min` raises on an empty array; `mean_depth` is not modelled (float averaging).
- DepthController.Tick: the frame upload and its reply handling (blob, fetch, overlay drawing) are folded into `Tick`/`FrameDone`.
- `handleDepthError` of the depth overlay: nothing in `startDepth` can raise once the page exists, so the handler is unreachable and not modelled.

=== FILE: ai_detection_controller.dfy ===
/** The browser side of object detection
    (web-client/ai-detection-controller.js): the on/off switch, which needs
    the camera and the server's consent, the frame-gating interval that
    sends every second eligible frame, the toggle button, and the colour
    palette for class boxes.

    Requests are single steps with their reply as an input; a frame sent
    for detection is in flight between `Tick` and `FrameDone`. */
module AiDetectionController {
  import opened Common
  import FrameGate
  import AiDetectionService

  /** `processFrameRate`: every second eligible tick sends a frame. */
  const ProcessFrameRate: nat := 2

  /** A reply to a toggle request: `response.ok && data.status ===
      'success'`, any other JSON reply with its `message` ("" when absent),
      or a request that threw with its error message. */
  datatype Reply = Accepted | Refused(message: string) | Unreachable(message: string)

  /** What `updateToggleButton` leaves on the button. `icon` is `None` for
      a state missing from the icon map, where the markup shows
      `undefined`. */
  datatype Button = Button(disabled: bool, className: string, icon: Option<string>, text: string)

  datatype Controller = Controller(
    isEnabled: bool,
    isProcessing: bool,
    interval: bool,
    frameCounter: nat,
    confidenceThreshold: real,
    lastDetections: seq<AiDetectionService.Detection>,
    button: Button,
    error: Option<string>)

  const InactiveClass := "btn btn-success btn-sm rounded-pill"

  /** `updateToggleButton(state, text)`. A state outside the four, and not
      an inherited `Object.prototype` member, falls back to the inactive
      class with no icon. */
  function ToggleButton(state: string, text: string): (b: Button)
    ensures b.disabled <==> state == "starting" || state == "stopping"
    ensures state !in {"inactive", "active", "starting", "stopping"} && !InheritedKey(state) ==>
      b.className == InactiveClass && b.icon.None?
    ensures state in {"inactive", "active", "starting", "stopping"} ==> b.icon.Some?
    ensures b.text == text
  {
    var cls :=
      if state == "inactive" then InactiveClass
      else if state == "active" then "btn btn-danger btn-sm rounded-pill"
      else if state == "starting" || state == "stopping" then "btn btn-warning btn-sm rounded-pill"
      else InactiveClass;
    var icon :=
      if state == "inactive" || state == "active" then Some("fas fa-robot")
      else if state == "starting" || state == "stopping" then Some("fas fa-spinner fa-spin")
      else None;
    Button(state == "starting" || state == "stopping", cls, icon, text)
  }

  /** Starting and stopping look alike; on, off and busy look different. */
  lemma ButtonLooks()
    ensures ToggleButton("starting", "").className == ToggleButton("stopping", "").className
    ensures ToggleButton("active", "").className != ToggleButton("inactive", "").className
    ensures ToggleButton("active", "").className != ToggleButton("starting", "").className
    ensures ToggleButton("inactive", "").className != ToggleButton("starting", "").className
  {
    assert ToggleButton("active", "").className[8] != ToggleButton("inactive", "").className[8];
    assert ToggleButton("active", "").className[8] != ToggleButton("starting", "").className[8];
    assert ToggleButton("inactive", "").className[8] != ToggleButton("starting", "").className[8];
  }

  /** Every caller passes one of the four literal states, none of which is
      an inherited member, so the fallback never meets one there. */
  lemma ButtonStatesAreOwnKeys(state: string)
    requires state in {"inactive", "active", "starting", "stopping"}
    ensures !InheritedKey(state)
    ensures ToggleButton(state, "").icon.Some?
  {
  }

  const InactiveButton := ToggleButton("inactive", "Start AI Detection")

  /** The constructor: off, threshold 0.5, counter 0. */
  const Initial := Controller(false, false, false, 0, 0.5, [], InactiveButton, None)

  // ---------------------------------------------------------------------
  // Switching on and off
  // ---------------------------------------------------------------------

  /** `startFrameProcessing`: replaces any interval; the counter is kept. */
  function StartFrameProcessing(c: Controller): (r: Controller)
    ensures r.interval && r.frameCounter == c.frameCounter
  {
    c.(interval := true)
  }

  /** `stopFrameProcessing`: no interval and the counter back at zero. */
  function StopFrameProcessing(c: Controller): (r: Controller)
    ensures !r.interval && r.frameCounter == 0
    ensures r.isEnabled == c.isEnabled && r.lastDetections == c.lastDetections
  {
    c.(interval := false, frameCounter := 0)
  }

  /** `handleDetectionError`: off, no interval, the message shown. */
  function HandleDetectionError(c: Controller, message: string): (r: Controller)
    ensures !r.isEnabled && !r.interval && r.frameCounter == 0
    ensures r.button == InactiveButton
    ensures r.error.Some? && r.error.value != ""
    ensures message != "" ==> r.error == Some(message)
  {
    StopFrameProcessing(c).(
      isEnabled := false,
      button := InactiveButton,
      error := Some(if message != "" then message else "AI detection error occurred"))
  }

  /** `startDetection`. */
  function StartDetection(c: Controller, cameraActive: bool, reply: Reply): (r: Controller)
    ensures cameraActive ==> (r.isEnabled <==> reply == Accepted)
    ensures !cameraActive ==>
      r == c.(error := Some("Camera must be active to start AI detection"), button := InactiveButton)
    ensures cameraActive && reply == Accepted ==>
      r.interval && r.button == ToggleButton("active", "Stop AI Detection")
    ensures cameraActive && reply.Refused? ==>
      !r.interval && r.frameCounter == 0 &&
      r.error == Some(if reply.message != "" then reply.message else "Failed to start AI detection")
    ensures cameraActive && reply.Unreachable? ==> !r.interval && r.frameCounter == 0
  {
    if !cameraActive then
      c.(error := Some("Camera must be active to start AI detection"), button := InactiveButton)
    else
      match reply
      case Accepted =>
        StartFrameProcessing(c.(isEnabled := true)).(button := ToggleButton("active", "Stop AI Detection"))
      case Refused(m) =>
        HandleDetectionError(c, if m != "" then m else "Failed to start AI detection")
      case Unreachable(m) => HandleDetectionError(c, m)
  }

  /** `stopDetection`. A refused stop only resets the button. */
  function StopDetection(c: Controller, reply: Reply): (r: Controller)
    ensures reply == Accepted ==>
      !r.isEnabled && !r.interval && r.frameCounter == 0 && r.lastDetections == []
    ensures reply != Accepted ==> r == c.(button := InactiveButton)
    ensures r.button == InactiveButton
  {
    if reply == Accepted then
      ClearDetections(StopFrameProcessing(c.(isEnabled := false))).(button := InactiveButton)
    else c.(button := InactiveButton)
  }

  /** `clearDetections`. */
  function ClearDetections(c: Controller): (r: Controller)
    ensures r.lastDetections == [] && r.(lastDetections := c.lastDetections) == c
  {
    c.(lastDetections := [])
  }

  /** `setConfidenceThreshold`: stored only when the server accepts it. */
  function SetConfidenceThreshold(c: Controller, t: real, reply: Reply): (r: Controller)
    ensures reply == Accepted ==> r.confidenceThreshold == t
    ensures reply != Accepted ==> r == c
  {
    if reply == Accepted then c.(confidenceThreshold := t) else c
  }

  // ---------------------------------------------------------------------
  // Frames
  // ---------------------------------------------------------------------

  /** The interval callback, when an interval exists. A frame is sent only
      when the camera shows a picture (`videoReady`); otherwise
      `processCurrentFrame` drops `isProcessing` again at once. */
  function Tick(c: Controller, videoReady: bool): (r: Controller)
    ensures !c.interval || !c.isEnabled || c.isProcessing ==> r == c
    ensures c.interval && c.isEnabled && !c.isProcessing ==> r.frameCounter == c.frameCounter + 1
    ensures r.isProcessing <==> (c.isProcessing ||
      (c.interval && c.isEnabled && videoReady && r.frameCounter % ProcessFrameRate == 0))
    ensures r.isEnabled == c.isEnabled && r.interval == c.interval && r.lastDetections == c.lastDetections
  {
    if !c.interval then c
    else
      var g := FrameGate.Tick(c.frameCounter, c.isEnabled, c.isProcessing, ProcessFrameRate);
      c.(frameCounter := g.counter, isProcessing := c.isProcessing || (g.fires && videoReady))
  }

  /** The reply to a frame: the detections of a successful one replace the
      last ones; `isProcessing` drops in any case. */
  function FrameDone(c: Controller, detections: Option<seq<AiDetectionService.Detection>>): (r: Controller)
    ensures !r.isProcessing
    ensures detections.Some? ==> r.lastDetections == detections.value
    ensures detections.None? ==> r.lastDetections == c.lastDetections
    ensures r.isEnabled == c.isEnabled && r.frameCounter == c.frameCounter
  {
    var c1 := c.(isProcessing := false);
    if detections.Some? then c1.(lastDetections := detections.value) else c1
  }

  /** Whatever the counter holds, every two eligible ticks send exactly
      one frame; from the zero a stop leaves, the second tick is the one. */
  lemma {:induction false} HalfTheTicks(counter: nat, k: nat)
    ensures FrameGate.Eligible(0, ProcessFrameRate, ProcessFrameRate) == (2, 1)
    ensures FrameGate.Tick(0, true, false, ProcessFrameRate) == FrameGate.Gated(1, false)
    ensures FrameGate.Eligible(counter, ProcessFrameRate * k, ProcessFrameRate).1 == k
    decreases k
  {
    if k > 0 {
      FrameGate.EligibleSplit(counter, ProcessFrameRate, ProcessFrameRate * (k - 1), ProcessFrameRate);
      HalfTheTicks(counter + ProcessFrameRate, k - 1);
      assert ProcessFrameRate * k == ProcessFrameRate + ProcessFrameRate * (k - 1);
      assert FrameGate.Eligible(counter + 2, 0, 2) == (counter + 2, 0);
      assert FrameGate.Eligible(counter + 1, 1, 2).1 == (if (counter + 2) % 2 == 0 then 1 else 0);
    }
  }

  // ---------------------------------------------------------------------
  // Colours
  // ---------------------------------------------------------------------

  const Palette := [
    "#FF6B6B", "#4ECDC4", "#45B7D1", "#F9CA24", "#F0932B",
    "#EB4D4B", "#6C5CE7", "#A29BFE", "#FD79A8", "#00B894"
  ]

  /** `colors[classId % colors.length]`: JavaScript's remainder keeps the
      sign of a negative id, and a negative index reads `undefined`. */
  function ClassColor(classId: int): (r: Option<string>)
    ensures classId >= 0 ==> r == Some(Palette[classId % |Palette|])
    ensures classId < 0 && JsRem(classId, |Palette|) != 0 ==> r.None?
  {
    var i := JsRem(classId, |Palette|);
    if 0 <= i < |Palette| then Some(Palette[i]) else None
  }

  /** The colour repeats every ten classes, and the first ten classes get
      ten different colours. */
  lemma ColorPeriodic(id: nat, a: nat, b: nat)
    requires a < b < |Palette|
    ensures ClassColor(id + |Palette|) == ClassColor(id)
    ensures ClassColor(a) != ClassColor(b)
  {
    ColorRepeats(id);
    ColorsDiffer(a, b);
    assert a % |Palette| == a && b % |Palette| == b;
  }

  lemma ColorRepeats(id: nat)
    ensures ClassColor(id + |Palette|) == ClassColor(id)
  {
    assert (id + 10) % 10 == id % 10;
  }

  lemma ColorsDiffer(a: nat, b: nat)
    requires a < b < |Palette|
    ensures Palette[a] != Palette[b]
  {
    PaletteSlot(a);
    PaletteSlot(b);
  }

  /** Each colour's first two hex digits tell which palette entry it is. */
  ghost function Slot(colour: string): int {
    if |colour| < 3 then -1
    else
      var (h, l) := (colour[1], colour[2]);
      if h == 'F' && l == 'F' then 0 else if h == '4' && l == 'E' then 1
      else if h == '4' && l == '5' then 2 else if h == 'F' && l == '9' then 3
      else if h == 'F' && l == '0' then 4 else if h == 'E' && l == 'B' then 5
      else if h == '6' && l == 'C' then 6 else if h == 'A' && l == '2' then 7
      else if h == 'F' && l == 'D' then 8 else if h == '0' && l == '0' then 9
      else -1
  }

  lemma PaletteSlot(i: nat)
    requires i < |Palette|
    ensures Slot(Palette[i]) == i
  {
    if i == 0 {
    } else if i == 1 {
    } else if i == 2 {
    } else if i == 3 {
    } else if i == 4 {
    } else if i == 5 {
    } else if i == 6 {
    } else if i == 7 {
    } else if i == 8 {
    } else {
    }
  }

  // ---------------------------------------------------------------------
  // Events
  // ---------------------------------------------------------------------

  datatype Event =
    | Toggle(cameraActive: bool, reply: Reply)
    | TimerTick(videoReady: bool)
    | Detected(detections: Option<seq<AiDetectionService.Detection>>)
    | Reset
    | Threshold(t: real, reply: Reply)
    | Teardown

  function Handle(c: Controller, e: Event): Controller {
    match e
    case Toggle(cam, reply) => if c.isEnabled then StopDetection(c, reply) else StartDetection(c, cam, reply)
    case TimerTick(ready) => Tick(c, ready)
    case Detected(ds) => FrameDone(c, ds)
    case Reset => ClearDetections(c)
    case Threshold(t, reply) => SetConfidenceThreshold(c, t, reply)
    case Teardown => StopFrameProcessing(c)
  }

  /** An interval runs only while detection is on. */
  predicate Inv(c: Controller) {
    c.interval ==> c.isEnabled
  }

  /** Every event keeps the invariant; detection can only be switched on
      with the camera active and the server's consent; once it is off, the
      timer sends nothing. */
  lemma HandleKeepsInv(c: Controller, e: Event)
    requires Inv(c)
    ensures Inv(Handle(c, e))
    ensures !c.isEnabled && Handle(c, e).isEnabled ==> e.Toggle? && e.cameraActive && e.reply == Accepted
    ensures !c.isEnabled && e.TimerTick? ==> Handle(c, e) == c
  {
  }
}

=== FILE: ai_detection_service.dfy ===
/** The object-detection service (web-client/ai_detection_service.py):
    its enable/disable switch and confidence threshold, the detection
    records it builds from the model's boxes, and the per-frame summary.
    The model itself (YOLO inference, drawing, timing) is an input: a
    frame's inference either raises or yields a list of raw boxes. */
module AiDetectionService {
  import opened Common

  /** `self.model` is set (the constructor's `load_model` succeeded) and
      the class names it carries; the switches; the threshold. */
  datatype Service = Service(
    modelLoaded: bool,
    modelNames: seq<string>,
    enabled: bool,
    processing: bool,
    threshold: real,
    lastDetectionTime: real)

  /** The constructor: threshold 0.5, disabled, with or without a model. */
  function Init(modelLoaded: bool, names: seq<string>): (s: Service)
    ensures !s.enabled && !s.processing && s.threshold == 0.5
  {
    Service(modelLoaded, names, false, false, 0.5, 0.0)
  }

  // ---------------------------------------------------------------------
  // Threshold and switches
  // ---------------------------------------------------------------------

  /** `max(0.0, min(1.0, threshold))`. */
  function ClampThreshold(t: real): (r: real)
    ensures 0.0 <= r <= 1.0
    ensures 0.0 <= t <= 1.0 ==> r == t
    ensures t < 0.0 ==> r == 0.0
    ensures t > 1.0 ==> r == 1.0
  {
    MaxReal(0.0, MinReal(1.0, t))
  }

  function SetConfidenceThreshold(s: Service, t: real): (r: Service)
    ensures r.threshold == ClampThreshold(t)
    ensures r.(threshold := s.threshold) == s
  {
    s.(threshold := ClampThreshold(t))
  }

  /** Clamping is idempotent, and the thresholds the service's test sets
      are stored exactly. */
  lemma ThresholdFacts(s: Service, t: real)
    ensures ClampThreshold(ClampThreshold(t)) == ClampThreshold(t)
    ensures SetConfidenceThreshold(s, 0.3).threshold == 0.3
    ensures SetConfidenceThreshold(s, 0.5).threshold == 0.5
    ensures SetConfidenceThreshold(s, 0.7).threshold == 0.7
    ensures SetConfidenceThreshold(s, 1.5).threshold == 1.0
    ensures SetConfidenceThreshold(s, -0.2).threshold == 0.0
  {
  }

  /** `enable_detection`: refused without a model. */
  function EnableDetection(s: Service): (r: (Service, bool))
    ensures r.1 <==> s.modelLoaded
    ensures !s.modelLoaded ==> r.0 == s
    ensures s.modelLoaded ==> r.0 == s.(enabled := true)
  {
    if !s.modelLoaded then (s, false) else (s.(enabled := true), true)
  }

  /** `disable_detection`: clears both switches. */
  function DisableDetection(s: Service): (r: Service)
    ensures !r.enabled && !r.processing
    ensures r.(enabled := s.enabled, processing := s.processing) == s
  {
    s.(enabled := false, processing := false)
  }

  lemma DisableIdempotent(s: Service)
    ensures DisableDetection(DisableDetection(s)) == DisableDetection(s)
    ensures EnableDetection(DisableDetection(s)).1 == s.modelLoaded
  {
  }

  // ---------------------------------------------------------------------
  // Detection records
  // ---------------------------------------------------------------------

  /** One box as the model reports it: float corners, confidence, class. */
  datatype RawBox = RawBox(x1: real, y1: real, x2: real, y2: real, confidence: real, classId: nat)

  datatype Detection = Detection(
    classId: nat,
    className: string,
    confidence: real,
    bbox: seq<int>,
    center: seq<int>)

  function DigitChar(d: nat): char
    requires d < 10
  {
    "0123456789"[d]
  }

  function DigitValue(c: char): nat {
    if '0' <= c <= '9' then (c as int - '0' as int) as nat else 0
  }

  /** Python's `str` of a non-negative integer. */
  function NatToString(n: nat): (r: string)
    ensures |r| > 0
    ensures forall i :: 0 <= i < |r| ==> '0' <= r[i] <= '9'
    decreases n
  {
    if n < 10 then [DigitChar(n)] else NatToString(n / 10) + [DigitChar(n % 10)]
  }

  /** The reading of a decimal digit string. */
  function ParseDigits(s: string): nat
    decreases |s|
  {
    if |s| == 0 then 0 else ParseDigits(s[..|s| - 1]) * 10 + DigitValue(s[|s| - 1])
  }

  /** The decimal text of a class id reads back as the id. */
  lemma {:induction false} NatToStringRoundTrip(n: nat)
    ensures ParseDigits(NatToString(n)) == n
    decreases n
  {
    var r := NatToString(n);
    if n >= 10 {
      NatToStringRoundTrip(n / 10);
      assert r[..|r| - 1] == NatToString(n / 10);
    }
  }

  /** The class name: the model's name when the id is in range, otherwise
      `Class_<id>`. */
  function ClassName(names: seq<string>, id: nat): (r: string)
    ensures id < |names| ==> r == names[id]
    ensures id >= |names| ==> StartsWith(r, "Class_") && ParseDigits(r[6..]) == id
  {
    if id < |names| then names[id]
    else
      NatToStringRoundTrip(id);
      var r := "Class_" + NatToString(id);
      assert r[6..] == NatToString(id);
      r
  }

  /** The record for one box: corners truncated by `astype(int)`, centre
      as `int((a + b) / 2)` of the truncated corners. */
  function MakeDetection(b: RawBox, names: seq<string>): (d: Detection)
    ensures d.classId == b.classId && d.className == ClassName(names, b.classId)
    ensures d.confidence == b.confidence
    ensures |d.bbox| == 4 && |d.center| == 2
    ensures d.bbox == [Trunc(b.x1), Trunc(b.y1), Trunc(b.x2), Trunc(b.y2)]
    ensures d.bbox[0] <= d.bbox[2] ==> d.bbox[0] <= d.center[0] <= d.bbox[2]
    ensures d.bbox[1] <= d.bbox[3] ==> d.bbox[1] <= d.center[1] <= d.bbox[3]
  {
    var x1, y1, x2, y2 := Trunc(b.x1), Trunc(b.y1), Trunc(b.x2), Trunc(b.y2);
    var cx := Midpoint(x1, x2);
    var cy := Midpoint(y1, y2);
    Detection(b.classId, ClassName(names, b.classId), b.confidence, [x1, y1, x2, y2], [cx, cy])
  }

  /** `int((a + b) / 2)`: true division, then truncation. */
  function Midpoint(a: int, b: int): (m: int)
    ensures a <= b ==> a <= m <= b
  {
    Trunc((a + b) as real / 2.0)
  }

  // ---------------------------------------------------------------------
  // Frames
  // ---------------------------------------------------------------------

  /** What the model does with one frame. */
  datatype Inference = Raised | NoResult | Boxes(boxes: seq<RawBox>)

  /** The returned pair: whether the frame comes back annotated (a copy
      with boxes and an FPS overlay) or as given, and the records. */
  datatype Processed = Processed(next: Service, annotated: bool, detections: seq<Detection>)

  /** `process_frame`, with the inference outcome and the start time as
      inputs. */
  function ProcessFrame(s: Service, inf: Inference, start: real): (r: Processed)
    ensures !s.enabled || !s.modelLoaded ==> r == Processed(s, false, [])
    ensures s.enabled && s.modelLoaded ==> !r.next.processing && r.next.enabled
    ensures inf == Raised ==> !r.annotated && r.detections == []
    ensures s.enabled && s.modelLoaded && inf.Boxes? ==>
      && r.annotated
      && |r.detections| == |inf.boxes|
      && (forall i :: 0 <= i < |inf.boxes| ==> r.detections[i] == MakeDetection(inf.boxes[i], s.modelNames))
      && r.next.lastDetectionTime == start
  {
    if !s.enabled || !s.modelLoaded then Processed(s, false, [])
    else
      match inf
      case Raised => Processed(s.(processing := false), false, [])
      case NoResult => Processed(s.(processing := false, lastDetectionTime := start), true, [])
      case Boxes(bs) =>
        var ds := seq(|bs|, i requires 0 <= i < |bs| => MakeDetection(bs[i], s.modelNames));
        Processed(s.(processing := false, lastDetectionTime := start), true, ds)
  }

  /** `processing` is raised only for the duration of a call, so callers
      never see it set by `process_frame`; nothing but `disable_detection`
      (and the model being absent) turns a frame away. */
  lemma ProcessFrameGuard(s: Service, inf: Inference, start: real)
    requires !s.processing
    ensures ProcessFrame(s, inf, start).next.enabled == s.enabled
    ensures !s.enabled ==> ProcessFrame(s, inf, start).detections == []
    ensures ProcessFrame(DisableDetection(s), inf, start) == Processed(DisableDetection(s), false, [])
  {
  }

  /** `get_status`, without the timing fields. */
  datatype Status = Status(
    enabled: bool, processing: bool, modelLoaded: bool, threshold: real,
    availableClasses: seq<string>)

  function GetStatus(s: Service): (st: Status)
    ensures st.availableClasses == (if s.modelLoaded then s.modelNames else [])
    ensures st.enabled == s.enabled && st.modelLoaded == s.modelLoaded && st.threshold == s.threshold
    ensures st.processing == s.processing
  {
    Status(s.enabled, s.processing, s.modelLoaded, s.threshold,
           if s.modelLoaded then s.modelNames else [])
  }

  /** The status reports each switch and threshold change: enabling shows
      as enabled exactly when a model is loaded (or it already was),
      disabling shows both switches off, and a new threshold shows
      clamped, with the class list untouched by all three. */
  lemma StatusReportsChanges(s: Service, t: real)
    ensures GetStatus(EnableDetection(s).0).enabled <==> s.enabled || s.modelLoaded
    ensures GetStatus(EnableDetection(s).0).availableClasses == GetStatus(s).availableClasses
    ensures var st := GetStatus(DisableDetection(s));
      !st.enabled && !st.processing && st.availableClasses == GetStatus(s).availableClasses
    ensures var st := GetStatus(SetConfidenceThreshold(s, t));
      st.threshold == ClampThreshold(t) && st.enabled == s.enabled
      && st.availableClasses == GetStatus(s).availableClasses
    ensures GetStatus(Init(true, s.modelNames)).availableClasses == s.modelNames
    ensures GetStatus(Init(false, s.modelNames)).availableClasses == []
  {
  }

  // ---------------------------------------------------------------------
  // Summary
  // ---------------------------------------------------------------------

  /** How often `x` occurs in `s`. */
  function Occurrences(s: seq<string>, x: string): nat
    decreases |s|
  {
    if |s| == 0 then 0
    else Occurrences(s[..|s| - 1], x) + (if s[|s| - 1] == x then 1 else 0)
  }

  /** The distinct elements of `s` in order of first appearance, which is
      the key order of a Python dict filled by scanning `s`. */
  function FirstAppearances(s: seq<string>): seq<string>
    decreases |s|
  {
    if |s| == 0 then []
    else
      var prefix := FirstAppearances(s[..|s| - 1]);
      if s[|s| - 1] in prefix then prefix else prefix + [s[|s| - 1]]
  }

  function Keys(counts: seq<(string, nat)>): (ks: seq<string>)
    ensures |ks| == |counts|
    ensures forall i :: 0 <= i < |counts| ==> ks[i] == counts[i].0
  {
    seq(|counts|, i requires 0 <= i < |counts| => counts[i].0)
  }

  function Total(counts: seq<(string, nat)>): nat
    decreases |counts|
  {
    if |counts| == 0 then 0 else counts[0].1 + Total(counts[1..])
  }

  /** Position of `key` among the keys, or |counts| if absent. */
  function KeyIndex(counts: seq<(string, nat)>, key: string): (i: nat)
    ensures i <= |counts|
    ensures i < |counts| ==> counts[i].0 == key
    ensures i == |counts| ==> key !in Keys(counts)
    decreases |counts|
  {
    if |counts| == 0 then 0
    else if counts[0].0 == key then 0
    else 1 + KeyIndex(counts[1..], key)
  }

  /** The class-count loop of `get_detection_summary`. */
  method CountClasses(names: seq<string>) returns (counts: seq<(string, nat)>)
    ensures Keys(counts) == FirstAppearances(names)
    ensures forall k :: 0 <= k < |counts| ==> counts[k].1 == Occurrences(names, counts[k].0)
    ensures Total(counts) == |names|
  {
    counts := [];
    var i := 0;
    while i < |names|
      invariant 0 <= i <= |names|
      invariant Keys(counts) == FirstAppearances(names[..i])
      invariant forall k :: 0 <= k < |counts| ==> counts[k].1 == Occurrences(names[..i], counts[k].0)
      invariant Total(counts) == i
    {
      var name := names[i];
      assert names[..i + 1][..i] == names[..i];
      var j := KeyIndex(counts, name);
      var prev := counts;
      DistinctAppearances(names[..i]);
      if j < |counts| {
        TotalBump(counts, j);
        assert Keys(prev)[j] == name;
        counts := counts[j := (name, counts[j].1 + 1)];
        assert Keys(counts) == Keys(prev);
      } else {
        TotalAppend(counts, name);
        AppearsIffOccurs(names[..i], name);
        counts := counts + [(name, 1)];
      }
      forall k | 0 <= k < |counts|
        ensures counts[k].1 == Occurrences(names[..i + 1], counts[k].0)
      {
        OccurrencesStep(names, i, counts[k].0);
        if k < |prev| {
          assert Keys(prev)[k] == prev[k].0;
          if k != j {
            assert counts[k] == prev[k];
            assert j < |prev| ==> Keys(prev)[j] != Keys(prev)[k];
          }
        }
      }
      i := i + 1;
    }
    assert names[..|names|] == names;
  }

  lemma OccurrencesStep(s: seq<string>, i: nat, x: string)
    requires i < |s|
    ensures Occurrences(s[..i + 1], x) == Occurrences(s[..i], x) + (if s[i] == x then 1 else 0)
  {
    assert s[..i + 1][..i] == s[..i];
  }

  /** `x` is among the first appearances exactly when it occurs at all. */
  lemma {:induction false} AppearsIffOccurs(s: seq<string>, x: string)
    ensures x in FirstAppearances(s) <==> x in s
    ensures x !in s ==> Occurrences(s, x) == 0
    decreases |s|
  {
    if |s| > 0 {
      var init := s[..|s| - 1];
      AppearsIffOccurs(init, x);
      assert s == init + [s[|s| - 1]];
    }
  }

  /** A key appears once among the first appearances. */
  lemma {:induction false} DistinctAppearances(s: seq<string>)
    ensures forall a, b :: 0 <= a < b < |FirstAppearances(s)| ==>
      FirstAppearances(s)[a] != FirstAppearances(s)[b]
    decreases |s|
  {
    if |s| > 0 {
      DistinctAppearances(s[..|s| - 1]);
    }
  }

  lemma {:induction false} TotalBump(counts: seq<(string, nat)>, j: nat)
    requires j < |counts|
    ensures Total(counts[j := (counts[j].0, counts[j].1 + 1)]) == Total(counts) + 1
    decreases |counts|
  {
    var c := counts[j := (counts[j].0, counts[j].1 + 1)];
    if j == 0 {
      assert c[1..] == counts[1..];
    } else {
      assert c[1..] == counts[1..][j - 1 := (counts[j].0, counts[j].1 + 1)];
      TotalBump(counts[1..], j - 1);
    }
  }

  lemma {:induction false} TotalAppend(counts: seq<(string, nat)>, name: string)
    ensures Total(counts + [(name, 1)]) == Total(counts) + 1
    decreases |counts|
  {
    if |counts| > 0 {
      assert (counts + [(name, 1)])[1..] == counts[1..] + [(name, 1)];
      TotalAppend(counts[1..], name);
    }
  }

  /** `get_detection_summary`. `highestConfidence` and `detectionTime` are
      absent for an empty list, as the dict has no such keys then. */
  datatype Summary = Summary(
    totalObjects: nat,
    classes: seq<(string, nat)>,
    highestConfidence: Option<real>,
    detectionTime: Option<real>)

  /** The largest confidence in a non-empty list (Python's `max`). */
  function MaxConfidence(ds: seq<Detection>): (m: real)
    requires |ds| > 0
    ensures forall i :: 0 <= i < |ds| ==> ds[i].confidence <= m
    ensures exists i :: 0 <= i < |ds| && ds[i].confidence == m
    decreases |ds|
  {
    if |ds| == 1 then ds[0].confidence
    else
      var rest := MaxConfidence(ds[1..]);
      assert forall i :: 1 <= i < |ds| ==> ds[i] == ds[1..][i - 1];
      if ds[0].confidence >= rest then ds[0].confidence else rest
  }

  function ClassNames(ds: seq<Detection>): (ns: seq<string>)
    ensures |ns| == |ds| && forall i :: 0 <= i < |ds| ==> ns[i] == ds[i].className
  {
    seq(|ds|, i requires 0 <= i < |ds| => ds[i].className)
  }

  method DetectionSummary(ds: seq<Detection>, now: real) returns (s: Summary)
    ensures |ds| == 0 ==> s == Summary(0, [], None, None)
    ensures s.totalObjects == |ds| && Total(s.classes) == |ds|
    ensures Keys(s.classes) == FirstAppearances(ClassNames(ds))
    ensures forall k :: 0 <= k < |s.classes| ==>
      s.classes[k].1 == Occurrences(ClassNames(ds), s.classes[k].0)
    ensures |ds| > 0 ==>
      && s.highestConfidence.Some?
      && (forall i :: 0 <= i < |ds| ==> ds[i].confidence <= s.highestConfidence.value)
      && (exists i :: 0 <= i < |ds| && ds[i].confidence == s.highestConfidence.value)
      && s.detectionTime == Some(now)
  {
    if |ds| == 0 {
      return Summary(0, [], None, None);
    }
    var counts := CountClasses(ClassNames(ds));
    s := Summary(|ds|, counts, Some(MaxConfidence(ds)), Some(now));
  }
}

=== FILE: camera_controller.dfy ===
/** The browser camera panel (web-client/camera-controller.js): starting
    and stopping the device camera, switching between the front and back
    camera, the zoom (fullscreen) view, the toggle button, and the error
    messages shown when the browser refuses the camera.

    Acquiring a stream is a foreign call; its outcome is an input. The
    depth overlay depends on the camera, so stopping the camera or failing
    to start it asks the depth controller to stop; that request is an
    output of the step (`stopsDepth`). */
module CameraController {
  import opened Common

  datatype FacingMode = User | Environment

  function Flip(m: FacingMode): (r: FacingMode)
    ensures r != m
  {
    if m == User then Environment else User
  }

  /** `this.stream`: none, live, or an object whose tracks were stopped. */
  datatype Stream = NoStream | Live | Ended

  /** What `getUserMedia` and the page give back when starting. The video
      element can be missing after the stream was obtained, which throws a
      plain `Error`. */
  datatype Acquire = Acquired | VideoMissing | Refused(errorName: string)

  /** The toggle button: the state passed to `updateToggleButton`, its text,
      and what that leaves on the element. */
  datatype Button = Button(disabled: bool, style: string, text: string)

  datatype Camera = Camera(
    stream: Stream,
    isActive: bool,
    isFullscreen: bool,
    facing: FacingMode,
    button: Button,
    error: Option<string>)

  /** The step result, with whether `depthController.autoStopDepth()` was
      called. */
  datatype Step = Step(next: Camera, stopsDepth: bool)

  const BaseStyle := "btn btn-sm rounded-pill camera-btn "

  /** `updateToggleButton(state, text)`. */
  function ToggleButton(state: string, text: string): (b: Button)
    ensures b.disabled <==> state == "starting" || state == "stopping"
    ensures b.text == text
    ensures StartsWith(b.style, BaseStyle)
    ensures state !in {"active", "inactive", "starting", "stopping"} ==> b.style == BaseStyle
  {
    var suffix :=
      if state == "active" then "btn-danger"
      else if state == "inactive" then "btn-success"
      else if state == "starting" then "btn-warning"
      else if state == "stopping" then "btn-secondary"
      else "";
    Button(state == "stopping" || state == "starting", BaseStyle + suffix, text)
  }

  /** The four button states get four different styles. */
  lemma ButtonStylesDistinct(a: string, b: string)
    requires a in {"active", "inactive", "starting", "stopping"}
    requires b in {"active", "inactive", "starting", "stopping"}
    requires a != b
    ensures ToggleButton(a, "").style != ToggleButton(b, "").style
  {
    var sa := ToggleButton(a, "").style;
    var sb := ToggleButton(b, "").style;
    assert sa[|BaseStyle|..] != sb[|BaseStyle|..];
  }

  const InactiveButton := ToggleButton("inactive", "Start Camera")

  const Initial := Camera(NoStream, false, false, User, InactiveButton, None)

  // ---------------------------------------------------------------------
  // Error messages
  // ---------------------------------------------------------------------

  const DefaultError := "Unable to access camera"

  /** `handleCameraError`'s if-chain from `error.name` to the message. */
  function ErrorMessage(name: string): string {
    if name == "NotAllowedError" || name == "PermissionDeniedError" then
      "Camera permission denied. Please allow camera access and try again."
    else if name == "NotFoundError" || name == "DevicesNotFoundError" then
      "No camera device found. Please connect a camera and try again."
    else if name == "NotReadableError" || name == "TrackStartError" then
      "Camera is already in use by another application."
    else if name == "OverconstrainedError" || name == "ConstraintNotSatisfiedError" then
      "Camera does not support the requested settings."
    else if name == "NotSupportedError" then
      "Camera is not supported in this browser."
    else if name == "TypeError" then
      "Invalid camera configuration."
    else DefaultError
  }

  /** The error names grouped by the message they share. */
  const ErrorGroups: seq<(seq<string>, string)> := [
    (["NotAllowedError", "PermissionDeniedError"],
     "Camera permission denied. Please allow camera access and try again."),
    (["NotFoundError", "DevicesNotFoundError"],
     "No camera device found. Please connect a camera and try again."),
    (["NotReadableError", "TrackStartError"],
     "Camera is already in use by another application."),
    (["OverconstrainedError", "ConstraintNotSatisfiedError"],
     "Camera does not support the requested settings."),
    (["NotSupportedError"], "Camera is not supported in this browser."),
    (["TypeError"], "Invalid camera configuration.")
  ]

  predicate Known(name: string) {
    exists g :: 0 <= g < |ErrorGroups| && name in ErrorGroups[g].0
  }

  /** Every name of a group gets the group's message. */
  lemma GroupMessage(g: nat, i: nat)
    requires g < |ErrorGroups| && i < |ErrorGroups[g].0|
    ensures ErrorMessage(ErrorGroups[g].0[i]) == ErrorGroups[g].1
  {
    if g == 0 {
      assert i == 0 || i == 1;
    } else if g == 1 {
      assert i == 0 || i == 1;
    } else if g == 2 {
      assert i == 0 || i == 1;
    } else if g == 3 {
      assert i == 0 || i == 1;
    } else if g == 4 {
      assert i == 0;
    } else {
      assert g == 5 && i == 0;
    }
  }

  /** Every other name gets the default message. */
  lemma UnknownNameDefault(name: string)
    requires !Known(name)
    ensures ErrorMessage(name) == DefaultError
  {
    assert name !in ErrorGroups[0].0 && name !in ErrorGroups[1].0 && name !in ErrorGroups[2].0;
    assert name !in ErrorGroups[3].0 && name !in ErrorGroups[4].0 && name !in ErrorGroups[5].0;
    assert ErrorGroups[0].0 == ["NotAllowedError", "PermissionDeniedError"];
    assert ErrorGroups[1].0 == ["NotFoundError", "DevicesNotFoundError"];
    assert ErrorGroups[2].0 == ["NotReadableError", "TrackStartError"];
    assert ErrorGroups[3].0 == ["OverconstrainedError", "ConstraintNotSatisfiedError"];
  }

  /** The six messages and the default are all different, so the message
      shown tells which group the error belongs to. */
  lemma MessagesDistinct(g: nat, h: nat)
    requires g < h < |ErrorGroups|
    ensures ErrorGroups[g].1 != ErrorGroups[h].1
    ensures ErrorGroups[g].1 != DefaultError && ErrorGroups[h].1 != DefaultError
  {
    assert |ErrorGroups[g].1| > |ErrorGroups[h].1| > |DefaultError|;
  }

  /** `handleCameraError`: stop the depth overlay if it runs, show the
      message, and leave the camera inactive. */
  function HandleCameraError(c: Camera, name: string, depthEnabled: bool): (r: Step)
    ensures !r.next.isActive && r.stopsDepth == depthEnabled
    ensures r.next.error == Some(ErrorMessage(name))
    ensures r.next.button == InactiveButton
    ensures r.next.stream == c.stream && r.next.facing == c.facing && r.next.isFullscreen == c.isFullscreen
  {
    Step(c.(error := Some(ErrorMessage(name)), button := InactiveButton, isActive := false), depthEnabled)
  }

  // ---------------------------------------------------------------------
  // Lifecycle
  // ---------------------------------------------------------------------

  /** `startCamera`. */
  function StartCamera(c: Camera, a: Acquire, depthEnabled: bool): (r: Step)
    ensures r.next.isActive <==> a == Acquired
    ensures a == Acquired ==>
      r.next.stream == Live && r.next.error.None? && !r.stopsDepth
      && r.next.button == ToggleButton("active", "Stop Camera")
    ensures a == VideoMissing ==> r.next.stream == Live && r.next.error == Some(DefaultError)
    ensures a.Refused? ==> r.next.stream == c.stream && r.next.error == Some(ErrorMessage(a.errorName))
    ensures a != Acquired ==> r.stopsDepth == depthEnabled && r.next.button == InactiveButton
    ensures r.next.facing == c.facing && r.next.isFullscreen == c.isFullscreen
  {
    match a
    case Acquired =>
      Step(c.(stream := Live, isActive := true, error := None,
              button := ToggleButton("active", "Stop Camera")), false)
    case VideoMissing => HandleCameraError(c.(stream := Live), "Error", depthEnabled)
    case Refused(name) => HandleCameraError(c, name, depthEnabled)
  }

  /** `stopCamera`. */
  function StopCamera(c: Camera, depthEnabled: bool): (r: Step)
    ensures r.next.stream == NoStream && !r.next.isActive && !r.next.isFullscreen
    ensures r.next.button == InactiveButton && r.next.error.None?
    ensures r.stopsDepth == depthEnabled
    ensures r.next.facing == c.facing
  {
    Step(c.(stream := NoStream, isFullscreen := false, button := InactiveButton,
            isActive := false, error := None), depthEnabled)
  }

  /** `switchCamera`: flip the facing mode and re-acquire; when that fails
      the mode flips back, but the old tracks stay stopped. */
  function SwitchCamera(c: Camera, ok: bool): (r: Camera)
    ensures !c.isActive ==> r == c
    ensures c.isActive && ok ==> r.facing == Flip(c.facing) && r.stream == Live
    ensures c.isActive && !ok ==> r.facing == c.facing
    ensures c.isActive && !ok && c.stream != NoStream ==> r.stream == Ended
    ensures r.isActive == c.isActive && r.isFullscreen == c.isFullscreen && r.button == c.button
  {
    if !c.isActive then c
    else
      var flipped := c.(facing := Flip(c.facing));
      var stopped := if c.stream == NoStream then flipped else flipped.(stream := Ended);
      if ok then stopped.(stream := Live)
      else stopped.(facing := Flip(flipped.facing))
  }

  /** Flipping twice is the identity, which is what restores the mode
      after a failed switch. */
  lemma FlipInvolution(m: FacingMode)
    ensures Flip(Flip(m)) == m
  {
  }

  /** `enterFullscreen` only zooms an active camera. */
  function EnterFullscreen(c: Camera): (r: Camera)
    ensures r.isFullscreen <==> c.isActive || c.isFullscreen
    ensures r == c.(isFullscreen := r.isFullscreen)
  {
    if !c.isActive then c else c.(isFullscreen := true)
  }

  function ExitFullscreen(c: Camera): (r: Camera)
    ensures !r.isFullscreen && r == c.(isFullscreen := false)
  {
    c.(isFullscreen := false)
  }

  /** `toggleFullscreen`. */
  function ToggleFullscreen(c: Camera): (r: Camera)
    ensures c.isFullscreen ==> !r.isFullscreen
    ensures !c.isFullscreen ==> (r.isFullscreen <==> c.isActive)
    ensures r.stream == c.stream && r.isActive == c.isActive
  {
    if c.isFullscreen then ExitFullscreen(c) else EnterFullscreen(c)
  }

  /** On an active camera, zooming in and out again restores the view. */
  lemma ToggleFullscreenTwice(c: Camera)
    requires c.isActive
    ensures ToggleFullscreen(ToggleFullscreen(c)) == c
  {
  }

  /** `destroy`. */
  function Destroy(c: Camera): (r: Camera)
    ensures r.stream == NoStream && !r.isActive && !r.isFullscreen
    ensures r.button == c.button && r.facing == c.facing
  {
    c.(stream := NoStream, isFullscreen := false, isActive := false)
  }

  // ---------------------------------------------------------------------
  // Events
  // ---------------------------------------------------------------------

  datatype Event =
    | Toggle(acquire: Acquire)
    | Retry(acquire: Acquire)
    | Switch(ok: bool)
    | ZoomToggle
    | Escape
    | Teardown

  /** One user or page event; `depthEnabled` is the depth controller's
      `isDepthEnabled` at that moment. */
  function Handle(c: Camera, e: Event, depthEnabled: bool): Step {
    match e
    case Toggle(a) => if c.isActive then StopCamera(c, depthEnabled) else StartCamera(c, a, depthEnabled)
    case Retry(a) => StartCamera(c.(error := None), a, depthEnabled)
    case Switch(ok) => Step(SwitchCamera(c, ok), false)
    case ZoomToggle => Step(ToggleFullscreen(c), false)
    case Escape => Step(if c.isFullscreen then ExitFullscreen(c) else c, false)
    case Teardown => Step(Destroy(c), false)
  }

  /** An active camera always holds a stream object. */
  predicate Inv(c: Camera) {
    c.isActive ==> c.stream != NoStream
  }

  /** The camera becomes active only through a successful acquisition and
      stays active exactly through switching and zooming; every event keeps
      the invariant. */
  lemma ActiveOnlyAfterAcquire(c: Camera, e: Event, depthEnabled: bool)
    requires Inv(c)
    ensures Inv(Handle(c, e, depthEnabled).next)
    ensures !c.isActive && Handle(c, e, depthEnabled).next.isActive ==>
      (e.Toggle? || e.Retry?) && e.acquire == Acquired
    ensures c.isActive ==>
      (Handle(c, e, depthEnabled).next.isActive <==>
        e.Switch? || e.ZoomToggle? || e.Escape? || e == Retry(Acquired))
  {
  }

  /** Turning the camera off also asks a running depth overlay to stop. */
  lemma ToggleOffStopsDepth(c: Camera, a: Acquire)
    requires c.isActive
    ensures Handle(c, Toggle(a), true).stopsDepth
    ensures Handle(c, Toggle(a), true).next.stream == NoStream
  {
  }
}

=== FILE: common.dfy ===
/** Small shared vocabulary: an optional value, and the integer/real
    conversions the JavaScript and Python sources rely on, written out
    exactly (Dafny's arithmetic is unbounded and its `/` and `%` are
    Euclidean, so each source operator is spelled explicitly). */
module Common {

  /** A value that may be missing: JavaScript's `null`/`undefined`,
      Python's `None`. */
  datatype Option<+T> = None | Some(value: T) {
    function GetOr(default: T): T {
      match this
      case Some(v) => v
      case None => default
    }
  }

  /** Truthiness of an optional string in both languages: JavaScript's
      `null`/`undefined` and Python's `None` are falsy, and so is "". */
  predicate Truthy(v: Option<string>) {
    v.Some? && v.value != ""
  }

  function Min(a: int, b: int): int { if a <= b then a else b }
  function Max(a: int, b: int): int { if a >= b then a else b }

  function MinReal(a: real, b: real): real { if a <= b then a else b }
  function MaxReal(a: real, b: real): real { if a >= b then a else b }

  /** JavaScript `Math.round`: rounds half-way cases towards +infinity. */
  function Round(x: real): (r: int)
    ensures r as real - 0.5 <= x < r as real + 0.5
  {
    (x + 0.5).Floor
  }

  /** Python `int(x)` on a float and `ndarray.astype(int)`: truncation
      towards zero. */
  function Trunc(x: real): (r: int)
    ensures 0.0 <= x ==> r >= 0 && r as real <= x < r as real + 1.0
    ensures x < 0.0 ==> r <= 0 && r as real - 1.0 < x <= r as real
  {
    if x >= 0.0 then x.Floor else -((-x).Floor)
  }

  /** Python's float `% 360` and JavaScript's `% 360` on a non-negative
      dividend: the remainder carrying the sign of the divisor, so every
      angle lands in [0, 360). */
  function Mod360(x: real): (r: real)
    ensures 0.0 <= r < 360.0
    ensures WholeTurns(x - r)
  {
    x - 360.0 * (x / 360.0).Floor as real
  }

  /** `d` is a whole number of full turns. */
  predicate WholeTurns(d: real) {
    d / 360.0 == (d / 360.0).Floor as real
  }

  /** JavaScript's integer `%`: truncating remainder, sign of the dividend;
      it differs from the dividend by a multiple of the divisor. */
  function JsRem(a: int, m: int): (r: int)
    requires m > 0
    ensures a >= 0 ==> 0 <= r < m && r == a % m
    ensures a < 0 ==> -m < r <= 0
    ensures (a - r) % m == 0
  {
    if a >= 0 then
      assert a - a % m == m * (a / m);
      MultipleMod(m, a / m);
      a % m
    else
      var q := (-a) / m;
      assert -a == m * q + (-a) % m;
      assert a + (-a) % m == m * (-q);
      MultipleMod(m, -q);
      -((-a) % m)
  }

  /** A multiple of `m` leaves no remainder. */
  lemma MultipleMod(m: int, k: int)
    requires m > 0
    ensures (m * k) % m == 0
  {
    var q := (m * k) / m;
    var r := (m * k) % m;
    assert m * k == m * q + r;
    assert m * (k - q) == r;
    if k - q >= 1 {
      MulAtLeast(m, k - q);
      assert false;
    } else if k - q <= -1 {
      MulAtLeast(m, q - k);
      assert false;
    }
  }

  lemma MulAtLeast(m: int, d: int)
    requires m > 0 && d >= 1
    ensures m * d >= m
  {
  }

  /** The own properties of JavaScript's `Object.prototype`. A lookup
      `table[key]` on an object literal finds one of these inherited
      members (truthy, so `table[key] || fallback` keeps it) when the
      key is one of these names and not a key of the literal. */
  predicate InheritedKey(k: string) {
    k in {"constructor", "hasOwnProperty", "isPrototypeOf", "propertyIsEnumerable",
          "toLocaleString", "toString", "valueOf", "__proto__",
          "__defineGetter__", "__defineSetter__", "__lookupGetter__", "__lookupSetter__"}
  }

  /** `needle` occurs somewhere in `s` (Python's `in` on strings). */
  predicate Contains(s: string, needle: string) {
    exists i :: 0 <= i <= |s| - |needle| && OccursAt(s, needle, i)
  }

  predicate OccursAt(s: string, needle: string, i: int)
    requires 0 <= i <= |s| - |needle|
  {
    s[i..i + |needle|] == needle
  }

  /** `s.startswith(p)` / `s.startsWith(p)`. */
  predicate StartsWith(s: string, p: string) {
    |p| <= |s| && s[..|p|] == p
  }
}

=== FILE: depth_camera_controller.dfy ===
/** The browser side of the depth camera
    (web-client/depth-camera-controller.js): the on/off switch, the
    frame-gating interval that sends every third eligible frame, the reading
    of the service's replies into the status line and colormap label, the
    colormap button and the toggle button.

    Requests are single steps with their reply as an input; a frame sent
    for depth estimation is in flight between `Tick` and `FrameDone`. */
module DepthCameraController {
  import opened Common
  import FrameGate
  import Service = DepthCameraService

  /** `frameProcessRate`: every third eligible tick sends a frame. */
  const FrameProcessRate: nat := 3

  /** A reply to a toggle request, as in the AI-detection controller:
      accepted, any other JSON reply with its `message` ("" when absent),
      or a request that threw with its error message. */
  datatype Reply = Accepted | Refused(message: string) | Unreachable(message: string)

  /** The reply to a frame: an HTTP error or unreadable body, or the JSON
      fields the controller reads. */
  datatype FrameReply =
    | Failed
    | Json(status: string, depthFrame: Option<string>, colormap: Option<string>)

  /** The reply to a colormap change: `status === 'success'` with the new
      name, or anything else. */
  datatype ColormapReply = ColormapOk(colormap: string) | ColormapFailed

  /** The toggle button: `disabled`, the one state class left after the
      others are removed, and the text. */
  datatype Button = Button(disabled: bool, stateClass: Option<string>, text: string)

  datatype Controller = Controller(
    isEnabled: bool,
    isProcessing: bool,
    interval: bool,
    frameCounter: nat,
    currentColormap: string,
    status: string,
    lastFrame: Option<string>,
    button: Button,
    error: Option<string>)

  /** The constructor: off, Plasma, counter 0. */
  const Initial := Controller(false, false, false, 0, "Plasma", "Processing...", None,
    Button(false, None, "Start Depth Camera"), None)

  /** `updateToggleButton(state, text)`: a state outside the switch only
      removes the state classes, leaving `disabled` and the text alone. */
  function UpdateToggleButton(b: Button, state: string, text: string): (r: Button)
    ensures state == "starting" || state == "stopping" ==> r.disabled
    ensures state == "active" || state == "inactive" ==> !r.disabled
    ensures state in {"starting", "stopping", "active", "inactive"} ==> r.stateClass.Some? && r.text == text
    ensures state !in {"starting", "stopping", "active", "inactive"} ==>
      r.disabled == b.disabled && r.text == b.text && r.stateClass.None?
  {
    if state == "starting" || state == "stopping" then Button(true, Some("btn-warning"), text)
    else if state == "active" then Button(false, Some("btn-danger"), text)
    else if state == "inactive" then Button(false, Some("btn-success"), text)
    else Button(b.disabled, None, b.text)
  }

  function Inactive(c: Controller): Button {
    UpdateToggleButton(c.button, "inactive", "Start Depth Camera")
  }

  // ---------------------------------------------------------------------
  // Switching on and off
  // ---------------------------------------------------------------------

  /** `handleDepthCameraError`: off, with the message shown; the interval
      is left running. */
  function HandleError(c: Controller, message: string): (r: Controller)
    ensures !r.isEnabled && r.interval == c.interval && r.frameCounter == c.frameCounter
    ensures r.error == Some(if message != "" then message else "Unknown error occurred")
    ensures !r.button.disabled
  {
    c.(isEnabled := false, button := Inactive(c),
       error := Some(if message != "" then message else "Unknown error occurred"))
  }

  /** `startDepthCamera`. An accepted start rebuilds the depth overlay
      (`enableSideBySideView`), whose status line reads "Processing..."
      again. */
  function StartDepthCamera(c: Controller, cameraActive: bool, reply: Reply): (r: Controller)
    ensures cameraActive ==> (r.isEnabled <==> reply == Accepted)
    ensures !cameraActive ==> r.isEnabled == c.isEnabled && r.interval == c.interval
    ensures !cameraActive ==> r.error == Some("Camera must be active to start depth detection")
    ensures cameraActive && reply == Accepted ==> r.interval && r.button.stateClass == Some("btn-danger")
    ensures cameraActive && reply == Accepted ==> r.status == "Processing..."
    ensures !cameraActive ==> r.button == Inactive(c) && r.status == c.status
    ensures cameraActive && reply != Accepted ==> r.interval == c.interval && r.error.Some?
  {
    if !cameraActive then
      c.(error := Some("Camera must be active to start depth detection"), button := Inactive(c))
    else
      match reply
      case Accepted =>
        c.(isEnabled := true, interval := true, status := "Processing...",
           button := UpdateToggleButton(c.button, "active", "Stop Depth Camera"))
      case Refused(m) => HandleError(c, if m != "" then m else "Failed to start depth camera")
      case Unreachable(m) => HandleError(c, m)
  }

  /** `stopDepthCamera`: `stopFrameProcessing` clears the interval but
      keeps the counter. A refused stop only resets the button. */
  function StopDepthCamera(c: Controller, reply: Reply): (r: Controller)
    ensures reply == Accepted ==> !r.isEnabled && !r.interval
    ensures r.frameCounter == c.frameCounter
    ensures reply != Accepted ==> r == c.(button := Inactive(c))
  {
    if reply == Accepted then c.(isEnabled := false, interval := false, button := Inactive(c))
    else c.(button := Inactive(c))
  }

  /** `toggleDepthCamera`: stop while on, start while off. */
  function Toggle(c: Controller, cameraActive: bool, reply: Reply): (r: Controller)
    ensures c.isEnabled ==> r == StopDepthCamera(c, reply)
    ensures !c.isEnabled ==> r == StartDepthCamera(c, cameraActive, reply)
  {
    if c.isEnabled then StopDepthCamera(c, reply) else StartDepthCamera(c, cameraActive, reply)
  }

  /** After a click the toggle button is usable again, and it offers
      "Stop Depth Camera" only when the camera's depth is on; an accepted
      start always offers the stop. A refused stop is the one step that
      leaves depth on while the button offers the start again. */
  lemma ToggleButtonFollowsState(c: Controller, cameraActive: bool, reply: Reply)
    ensures var r := Toggle(c, cameraActive, reply);
      && !r.button.disabled
      && (r.button.text == "Stop Depth Camera" ==> r.isEnabled)
      && (!r.isEnabled ==> r.button.text == "Start Depth Camera" && r.button.stateClass == Some("btn-success"))
      && (!c.isEnabled && r.isEnabled ==>
            r.button == Button(false, Some("btn-danger"), "Stop Depth Camera"))
    ensures c.isEnabled && reply != Accepted ==>
      var r := Toggle(c, cameraActive, reply);
      r.isEnabled && r.button.text == "Start Depth Camera"
  {
    assert "Stop Depth Camera"[2] != "Start Depth Camera"[2];
  }

  /** Switching off and on again, both accepted, leaves the controller on
      with a fresh "Processing..." status, whatever the last frame showed. */
  lemma RestartShowsProcessing(c: Controller)
    requires c.isEnabled
    ensures var r := Toggle(Toggle(c, true, Accepted), true, Accepted);
      r.isEnabled && r.interval && r.status == "Processing..."
  {
  }

  // ---------------------------------------------------------------------
  // Frames
  // ---------------------------------------------------------------------

  /** The interval callback, when an interval exists, and the guard at the
      top of `processCurrentFrame`: no frame is sent while the video has no
      width. */
  function Tick(c: Controller, videoReady: bool): (r: Controller)
    ensures !c.interval || !c.isEnabled || c.isProcessing ==> r == c
    ensures c.interval && c.isEnabled && !c.isProcessing ==> r.frameCounter == c.frameCounter + 1
    ensures r.isProcessing <==> (c.isProcessing ||
      (c.interval && c.isEnabled && videoReady && r.frameCounter % FrameProcessRate == 0))
    ensures r.isEnabled == c.isEnabled && r.interval == c.interval && r.status == c.status
  {
    if !c.interval then c
    else
      var g := FrameGate.Tick(c.frameCounter, c.isEnabled, c.isProcessing, FrameProcessRate);
      c.(frameCounter := g.counter, isProcessing := c.isProcessing || (g.fires && videoReady))
  }

  /** The status line a frame reply produces. */
  function StatusFor(reply: FrameReply): string {
    if reply.Json? && reply.status == "success" && Truthy(reply.depthFrame) then "Active"
    else if reply.Json? && reply.status == "processing" then "Processing..."
    else "Error"
  }

  /** The end of `processCurrentFrame`: show the frame and its colormap,
      or the processing/error status; `isProcessing` drops in any case. */
  function FrameDone(c: Controller, reply: FrameReply): (r: Controller)
    ensures !r.isProcessing
    ensures r.status in {"Active", "Processing...", "Error"}
    ensures r.status == "Active" <==>
      reply.Json? && reply.status == "success" && Truthy(reply.depthFrame)
    ensures r.status == "Processing..." <==> reply.Json? && reply.status == "processing"
    ensures r.status == "Active" ==> r.lastFrame == reply.depthFrame
    ensures r.status == "Active" ==>
      r.currentColormap == (if Truthy(reply.colormap) then reply.colormap.value else c.currentColormap)
    ensures r.status != "Active" ==> r.currentColormap == c.currentColormap && r.lastFrame == c.lastFrame
    ensures r.isEnabled == c.isEnabled && r.interval == c.interval && r.frameCounter == c.frameCounter
  {
    var st := StatusFor(reply);
    var c1 := c.(isProcessing := false, status := st);
    if st == "Active" then
      c1.(lastFrame := reply.depthFrame,
          currentColormap := if Truthy(reply.colormap) then reply.colormap.value else c.currentColormap)
    else c1
  }

  /** `changeColormap`: ignored while off. */
  function ChangeColormap(c: Controller, reply: ColormapReply): (r: Controller)
    ensures !c.isEnabled || reply.ColormapFailed? ==> r == c
    ensures c.isEnabled && reply.ColormapOk? ==> r == c.(currentColormap := reply.colormap)
  {
    if !c.isEnabled then c
    else match reply
      case ColormapOk(name) => c.(currentColormap := name)
      case ColormapFailed => c
  }

  // ---------------------------------------------------------------------
  // Properties
  // ---------------------------------------------------------------------

  /** Whatever the counter held when the interval (re)started, every three
      eligible ticks send exactly one frame. */
  lemma {:induction false} ThirdOfTheTicks(counter: nat, k: nat)
    ensures FrameGate.Eligible(counter, FrameProcessRate * k, FrameProcessRate).1 == k
    decreases k
  {
    if k > 0 {
      FrameGate.EligibleSplit(counter, FrameProcessRate, FrameProcessRate * (k - 1), FrameProcessRate);
      ThirdOfTheTicks(counter + FrameProcessRate, k - 1);
      assert FrameProcessRate * k == FrameProcessRate + FrameProcessRate * (k - 1);
      assert FrameGate.Eligible(counter + 3, 0, 3) == (counter + 3, 0);
      assert FrameGate.Eligible(counter + 2, 1, 3).1 == (if (counter + 3) % 3 == 0 then 1 else 0);
      assert FrameGate.Eligible(counter + 1, 2, 3).1 ==
        (if (counter + 2) % 3 == 0 then 1 else 0) + FrameGate.Eligible(counter + 2, 1, 3).1;
    }
  }

  /** After an error the interval keeps firing but sends nothing, and a
      colormap change is ignored. */
  lemma ErrorSilencesTicks(c: Controller, message: string, videoReady: bool, reply: ColormapReply)
    ensures Tick(HandleError(c, message), videoReady) == HandleError(c, message)
    ensures ChangeColormap(HandleError(c, message), reply) == HandleError(c, message)
    ensures HandleError(c, message).interval == c.interval
  {
  }

  /** The JSON the service's `process_frame` dict becomes. */
  function Encode(reply: Service.Reply): (r: FrameReply)
    ensures r.Json?
  {
    match reply
    case Error(_) => Json("error", None, None)
    case Success(_) => Json("success", None, None)
    case DepthFrame(f, cm) => Json("success", Some(f), Some(cm))
    case StillProcessing => Json("processing", None, None)
    case ColormapChanged(cm, _) => Json("success", None, Some(cm))
  }

  /** Reading the service's answer: a rendered frame shows as Active under
      the service's colormap name, a queued one as Processing..., and an
      error as Error. */
  lemma ServiceReplyShown(c: Controller, reply: Service.Reply)
    requires reply.DepthFrame? ==> reply.colormap in Service.ColormapNames
    ensures var r := FrameDone(c, Encode(reply));
      && (reply.DepthFrame? && reply.depthFrame != "" ==>
            r.status == "Active" && r.currentColormap == reply.colormap && r.lastFrame == Some(reply.depthFrame))
      && (reply.StillProcessing? ==> r.status == "Processing...")
      && (reply.Error? ==> r.status == "Error" && r.currentColormap == c.currentColormap)
  {
    if reply.DepthFrame? {
      assert reply.colormap != "";
    }
  }

  /** A processed service reply to a running controller: what the
      service's `ProcessFrame` answers is what the status line shows. */
  method ProcessThroughService(
    c: Controller, s: Service.Service, data: string, decode: string -> Option<Service.Image>)
    returns (next: Controller)
    requires Service.Inv(s) && c.isProcessing
    ensures !next.isProcessing
    ensures !s.enabled ==> next.status == "Error"
    ensures s.enabled && Service.DecodeFrame(data, decode).None? ==> next.status == "Error"
    ensures s.enabled && Service.DecodeFrame(data, decode).Some? && |s.depthQueue| == 0 ==>
      next.status == "Processing..."
    ensures s.enabled && Service.DecodeFrame(data, decode).Some? && |s.depthQueue| > 0 ==>
      (next.status == "Processing..." <==> !Truthy(s.depthQueue[|s.depthQueue| - 1]))
  {
    var s1, reply := Service.ProcessFrame(s, data, decode);
    if reply.DepthFrame? {
      assert reply.colormap == Service.ColormapNames[s.colormapIndex];
    }
    ServiceReplyShown(c, reply);
    next := FrameDone(c, Encode(reply));
  }
}

=== FILE: depth_camera_service.dfy ===
/** The depth camera web service (web-client/depth_camera_service.py): an
    enable/disable lifecycle, two keep-latest queues of capacity two
    between the request handler and the background worker, a cyclic
    colormap choice, and the data-URL framing of images.

    Image decoding, depth rendering and JPEG/base64 encoding are foreign
    calls; they enter as function parameters. The worker thread is a step
    function taking one frame off the queue. */
module DepthCameraService {
  import opened Common

  /** `CameraConfig.COLORMAP_NAMES`, parallel to `AVAILABLE_COLORMAPS`. */
  const ColormapNames: seq<string> :=
    ["Plasma", "Viridis", "Jet", "Hot", "Cool", "Spring", "Summer", "Autumn", "Winter"]

  const ColormapCount: nat := 9

  /** `queue.Queue(maxsize=2)` for both queues. */
  const QueueSize: nat := 2

  /** A decoded image, as numpy hands it around. */
  datatype Image = Image(pixels: seq<int>)

  /** `available` is `DEPTH_PROCESSOR_AVAILABLE and depth_processor is not
      None`, fixed at construction. The depth queue holds what
      `_encode_frame` returned, which is `None` when encoding failed. */
  datatype Service = Service(
    available: bool,
    enabled: bool,
    processing: bool,
    frameQueue: seq<Image>,
    depthQueue: seq<Option<string>>,
    colormapIndex: nat)

  datatype Reply =
    | Error(message: string)
    | Success(message: string)
    | DepthFrame(depthFrame: string, colormap: string)
    | StillProcessing
    | ColormapChanged(colormap: string, index: nat)

  predicate Inv(s: Service) {
    && |s.frameQueue| <= QueueSize
    && |s.depthQueue| <= QueueSize
    && s.colormapIndex < ColormapCount && |ColormapNames| == ColormapCount
    && s.processing == s.enabled
    && (s.enabled ==> s.available)
  }

  /** `__init__`: the processor is usable when the import succeeded and
      `load_model` returned True. */
  function Init(importOk: bool, modelLoaded: bool): (s: Service)
    ensures Inv(s) && !s.enabled
    ensures s.available <==> importOk && modelLoaded
    ensures s.frameQueue == [] && s.depthQueue == [] && s.colormapIndex == 0
  {
    Service(importOk && modelLoaded, false, false, [], [], 0)
  }

  // ---------------------------------------------------------------------
  // Lifecycle
  // ---------------------------------------------------------------------

  /** `start_depth_processing`. The worker thread is started in the
      success branch; its steps are `WorkerStep`. */
  function Start(s: Service): (r: (Service, Reply))
    ensures !s.available ==> r == (s, Error("Depth processing not available"))
    ensures s.available && s.enabled ==> r == (s, Error("Depth processing already running"))
    ensures s.available && !s.enabled ==>
      && r.1 == Success("Depth processing started")
      && r.0 == s.(enabled := true, processing := true)
    ensures r.1.Success? <==> s.available && !s.enabled
  {
    if !s.available then (s, Error("Depth processing not available"))
    else if s.enabled then (s, Error("Depth processing already running"))
    else (s.(enabled := true, processing := true), Success("Depth processing started"))
  }

  /** `stop_depth_processing`: always succeeds. */
  function Stop(s: Service): (r: (Service, Reply))
    ensures r.1 == Success("Depth processing stopped")
    ensures !r.0.enabled && !r.0.processing
    ensures r.0.frameQueue == [] && r.0.depthQueue == []
    ensures r.0.available == s.available && r.0.colormapIndex == s.colormapIndex
  {
    (s.(enabled := false, processing := false, frameQueue := [], depthQueue := []),
     Success("Depth processing stopped"))
  }

  /** Stopping twice is stopping once, and a stopped service can be
      started again exactly when it is available. */
  lemma StopIdempotent(s: Service)
    requires Inv(s)
    ensures Stop(Stop(s).0) == Stop(s)
    ensures Inv(Stop(s).0)
    ensures Start(Stop(s).0).1.Success? <==> s.available
  {
  }

  lemma StartKeepsInv(s: Service)
    requires Inv(s)
    ensures Inv(Start(s).0)
    ensures Start(s).0.enabled <==> s.enabled || s.available
  {
  }

  // ---------------------------------------------------------------------
  // Keep-latest queues
  // ---------------------------------------------------------------------

  /** A non-blocking `put`, and on `queue.Full` one `get` followed by the
      `put` again: the oldest element makes room for the new one. */
  function PutLatest<T>(q: seq<T>, x: T): (r: seq<T>)
    requires |q| <= QueueSize
    ensures |r| == Min(|q| + 1, QueueSize)
    ensures r == (q + [x])[|q| + 1 - |r|..]
    ensures r[|r| - 1] == x
  {
    if |q| < QueueSize then q + [x] else q[1..] + [x]
  }

  /** Putting the elements of `xs` one after another. */
  function PutEach<T>(q: seq<T>, xs: seq<T>): seq<T>
    requires |q| <= QueueSize
    decreases |xs|
  {
    if |xs| == 0 then q
    else
      var q1 := PutLatest(q, xs[0]);
      PutEach(q1, xs[1..])
  }

  /** The newest `QueueSize` elements of `s`, or all of them. */
  function Newest<T>(s: seq<T>): (r: seq<T>)
    ensures |r| == Min(|s|, QueueSize)
  {
    if |s| <= QueueSize then s else s[|s| - QueueSize..]
  }

  /** Whatever arrives, the queue holds exactly the newest elements of
      everything ever put into it, up to its capacity. */
  lemma {:induction false} PutEachKeepsNewest<T>(q: seq<T>, xs: seq<T>)
    requires |q| <= QueueSize
    ensures PutEach(q, xs) == Newest(q + xs)
    decreases |xs|
  {
    if |xs| == 0 {
      assert q + xs == q;
    } else {
      var head := q + [xs[0]];
      var q1 := PutLatest(q, xs[0]);
      calc {
        PutEach(q, xs);
        PutEach(q1, xs[1..]);
        { PutEachKeepsNewest(q1, xs[1..]); }
        Newest(q1 + xs[1..]);
        { PutIsNewest(q, xs[0]); }
        Newest(Newest(head) + xs[1..]);
        { NewestAppend(head, xs[1..]); }
        Newest(head + xs[1..]);
        { assert head + xs[1..] == q + xs; }
        Newest(q + xs);
      }
    }
  }

  lemma PutIsNewest<T>(q: seq<T>, x: T)
    requires |q| <= QueueSize
    ensures PutLatest(q, x) == Newest(q + [x])
  {
  }

  /** Trimming to the newest elements before appending more changes
      nothing once the result is trimmed again. */
  lemma NewestAppend<T>(a: seq<T>, b: seq<T>)
    ensures Newest(Newest(a) + b) == Newest(a + b)
  {
    if |a| > QueueSize {
      var na := a[|a| - QueueSize..];
      var l := Newest(na + b);
      var r := Newest(a + b);
      assert |l| == |r| == QueueSize;
      forall k | 0 <= k < QueueSize
        ensures l[k] == r[k]
      {
        if k + |b| < QueueSize {
          assert l[k] == na[|b| + k];
        } else {
          assert l[k] == b[k + |b| - QueueSize];
        }
      }
    }
  }

  /** The `while not q.empty(): v = q.get()` loop after `v = None`: the last
      element of the queue, which is left empty. */
  method DrainLatest(q: seq<Option<string>>) returns (latest: Option<string>, rest: seq<Option<string>>)
    ensures rest == []
    ensures |q| == 0 ==> latest == None
    ensures |q| > 0 ==> latest == q[|q| - 1]
  {
    latest := None;
    rest := q;
    while |rest| > 0
      invariant |rest| <= |q|
      invariant rest == q[|q| - |rest|..]
      invariant |rest| < |q| ==> latest == q[|q| - |rest| - 1]
      invariant |q| == 0 ==> latest == None
    {
      latest := rest[0];
      rest := rest[1..];
    }
  }

  // ---------------------------------------------------------------------
  // Frames
  // ---------------------------------------------------------------------

  /** Position of the first `c` in `s`, or |s| when there is none. */
  function IndexOf(s: string, c: char): (i: nat)
    ensures i <= |s|
    ensures i < |s| ==> s[i] == c
    ensures forall j :: 0 <= j < i ==> s[j] != c
    ensures c !in s ==> i == |s|
    decreases |s|
  {
    if |s| == 0 then 0
    else if s[0] == c then 0
    else 1 + IndexOf(s[1..], c)
  }

  /** `frame_data.split(',')[1]` when the data starts with "data:image":
      the text between the first comma and the next one. Without a comma
      the index raises, which `_decode_frame` turns into `None`. Other data
      is passed on as it is. */
  function StripDataUrl(data: string): (r: Option<string>)
    ensures !StartsWith(data, "data:image") ==> r == Some(data)
    ensures StartsWith(data, "data:image") && ',' !in data ==> r.None?
    ensures r.Some? ==> ',' !in r.value || r.value == data
  {
    if !StartsWith(data, "data:image") then Some(data)
    else
      var i := IndexOf(data, ',');
      if i == |data| then None
      else
        var rest := data[i + 1..];
        Some(rest[..IndexOf(rest, ',')])
  }

  const JpegPrefix := "data:image/jpeg;base64,"

  /** `_encode_frame`: the data URL around the base64 text of the JPEG,
      `None` when encoding failed. */
  function EncodeFrame(jpegBase64: Option<string>): (r: Option<string>)
    ensures r.Some? <==> jpegBase64.Some?
    ensures r.Some? ==> StartsWith(r.value, JpegPrefix) && r.value[|JpegPrefix|..] == jpegBase64.value
  {
    match jpegBase64
    case None => None
    case Some(b) => Some(JpegPrefix + b)
  }

  /** Stripping the prefix that encoding adds gives back the payload, for
      any payload without a comma (base64 text never has one). */
  lemma StripAfterEncode(payload: string)
    requires ',' !in payload
    ensures StripDataUrl(EncodeFrame(Some(payload)).value) == Some(payload)
  {
    var data := JpegPrefix + payload;
    assert StartsWith(data, "data:image") by {
      assert data[..10] == JpegPrefix[..10];
    }
    var i := IndexOf(data, ',');
    assert data[22] == ',';
    assert forall j :: 0 <= j < 22 ==> data[j] == JpegPrefix[j];
    assert forall j :: 0 <= j < 22 ==> JpegPrefix[j] != ',';
    assert i == 22;
    assert data[i + 1..] == payload;
    assert payload[..IndexOf(payload, ',')] == payload;
  }

  /** `_decode_frame`: strip the data-URL prefix, then decode with the
      image library, any failure giving `None`. */
  function DecodeFrame(data: string, decode: string -> Option<Image>): (r: Option<Image>)
    ensures StripDataUrl(data).None? ==> r.None?
    ensures StripDataUrl(data).Some? ==> r == decode(StripDataUrl(data).value)
  {
    match StripDataUrl(data)
    case None => None
    case Some(p) => decode(p)
  }

  /** `process_frame`: queue the decoded frame, keeping the two newest, and
      answer with the newest rendered depth frame if there is one. */
  method ProcessFrame(s: Service, data: string, decode: string -> Option<Image>)
    returns (next: Service, reply: Reply)
    requires Inv(s)
    ensures Inv(next)
    ensures !s.enabled || !s.available ==>
      next == s && reply == Error("Depth processing not enabled or available")
    ensures s.enabled && DecodeFrame(data, decode).None? ==>
      next == s && reply == Error("Failed to decode frame")
    ensures s.enabled && DecodeFrame(data, decode).Some? ==>
      && next == s.(frameQueue := PutLatest(s.frameQueue, DecodeFrame(data, decode).value), depthQueue := [])
      && next.frameQueue[|next.frameQueue| - 1] == DecodeFrame(data, decode).value
      && (|s.depthQueue| > 0 && Truthy(s.depthQueue[|s.depthQueue| - 1]) ==>
            reply == DepthFrame(s.depthQueue[|s.depthQueue| - 1].value, ColormapNames[s.colormapIndex]))
      && (|s.depthQueue| == 0 || !Truthy(s.depthQueue[|s.depthQueue| - 1]) ==> reply == StillProcessing)
  {
    if !s.enabled || !s.available {
      return s, Error("Depth processing not enabled or available");
    }
    var frame := DecodeFrame(data, decode);
    if frame.None? {
      return s, Error("Failed to decode frame");
    }
    var queued := PutLatest(s.frameQueue, frame.value);
    var latest, drained := DrainLatest(s.depthQueue);
    next := s.(frameQueue := queued, depthQueue := drained);
    assert drained == [] && |queued| <= QueueSize;
    var name := ColormapNames[s.colormapIndex];
    if Truthy(latest) {
      reply := DepthFrame(latest.value, name);
    } else {
      reply := StillProcessing;
    }
  }

  /** One pass of `_depth_processing_worker` while enabled: take the oldest
      queued frame, render it with the current colormap, and queue the
      encoded result, keeping the two newest. With nothing queued the pass
      does nothing; a frame the renderer rejects is dropped. */
  function WorkerStep(
    s: Service,
    render: (Image, nat) -> Option<Image>,
    jpeg: Image -> Option<string>): (r: Service)
    requires Inv(s)
    ensures Inv(r)
    ensures r.enabled == s.enabled && r.colormapIndex == s.colormapIndex
    ensures |s.frameQueue| == 0 || !s.enabled ==> r == s
    ensures s.enabled && |s.frameQueue| > 0 ==> r.frameQueue == s.frameQueue[1..]
    ensures s.enabled && |s.frameQueue| > 0 && render(s.frameQueue[0], s.colormapIndex).Some? ==>
      var out := EncodeFrame(jpeg(render(s.frameQueue[0], s.colormapIndex).value));
      |r.depthQueue| > 0 && r.depthQueue[|r.depthQueue| - 1] == out
    ensures s.enabled && |s.frameQueue| > 0 && render(s.frameQueue[0], s.colormapIndex).None? ==>
      r.depthQueue == s.depthQueue
  {
    if !s.enabled || |s.frameQueue| == 0 then s
    else
      var frame := s.frameQueue[0];
      var s1 := s.(frameQueue := s.frameQueue[1..]);
      var depth := render(frame, s.colormapIndex);
      if depth.None? then s1
      else s1.(depthQueue := PutLatest(s.depthQueue, EncodeFrame(jpeg(depth.value))))
  }

  /** A frame rendered and encoded by the worker is what the next request
      receives, labelled with the colormap it was rendered with. */
  method WorkerThenProcess(
    s: Service, render: (Image, nat) -> Option<Image>, jpeg: Image -> Option<string>,
    data: string, decode: string -> Option<Image>)
    returns (reply: Reply)
    requires Inv(s) && s.enabled && |s.frameQueue| > 0
    requires render(s.frameQueue[0], s.colormapIndex).Some?
    requires DecodeFrame(data, decode).Some?
    ensures var b64 := jpeg(render(s.frameQueue[0], s.colormapIndex).value);
      b64.Some? ==> reply == DepthFrame(JpegPrefix + b64.value, ColormapNames[s.colormapIndex])
    ensures jpeg(render(s.frameQueue[0], s.colormapIndex).value).None? ==> reply == StillProcessing
  {
    var w := WorkerStep(s, render, jpeg);
    var next;
    next, reply := ProcessFrame(w, data, decode);
  }

  // ---------------------------------------------------------------------
  // Colormap and status
  // ---------------------------------------------------------------------

  /** `change_colormap`: advance cyclically through the nine colormaps. */
  function ChangeColormap(s: Service): (r: (Service, Reply))
    requires Inv(s)
    ensures Inv(r.0)
    ensures !s.available ==> r == (s, Error("Depth processing not available"))
    ensures s.available ==>
      && r.0 == s.(colormapIndex := r.0.colormapIndex)
      && (s.colormapIndex + 1 - r.0.colormapIndex) % ColormapCount == 0
      && r.1 == ColormapChanged(ColormapNames[r.0.colormapIndex], r.0.colormapIndex)
  {
    if !s.available then (s, Error("Depth processing not available"))
    else
      var i := (s.colormapIndex + 1) % ColormapCount;
      (s.(colormapIndex := i), ColormapChanged(ColormapNames[i], i))
  }

  function ChangeColormapTimes(s: Service, n: nat): (r: Service)
    requires Inv(s)
    ensures Inv(r)
    decreases n
  {
    if n == 0 then s else ChangeColormapTimes(ChangeColormap(s).0, n - 1)
  }

  /** After `n` changes an available service shows colormap `(i + n) mod 9`. */
  lemma {:induction false} ColormapAfter(s: Service, n: nat)
    requires Inv(s) && s.available
    ensures ChangeColormapTimes(s, n) == s.(colormapIndex := (s.colormapIndex + n) % ColormapCount)
    decreases n
  {
    if n > 0 {
      var s1 := ChangeColormap(s).0;
      ColormapAfter(s1, n - 1);
      ModStep(s.colormapIndex, n - 1);
    }
  }

  lemma ModStep(i: nat, m: nat)
    requires i < ColormapCount
    ensures ((i + 1) % ColormapCount + m) % ColormapCount == (i + m + 1) % ColormapCount
  {
    if i + 1 < ColormapCount {
      assert (i + 1) % ColormapCount == i + 1;
    } else {
      assert (i + 1) % ColormapCount == 0;
      ModShift(m, 1);
    }
  }

  /** Adding whole turns of the colormap list changes nothing. */
  lemma ModShift(m: nat, k: nat)
    ensures (m + ColormapCount * k) % ColormapCount == m % ColormapCount
  {
    var q, r := m / ColormapCount, m % ColormapCount;
    assert m + ColormapCount * k == ColormapCount * (q + k) + r;
  }

  /** Nine changes, or any multiple of nine, bring the colormap back to
      where it was. */
  lemma FullCycle(s: Service, n: nat)
    requires Inv(s) && s.available && n % ColormapCount == 0
    ensures ChangeColormapTimes(s, n) == s
  {
    ColormapAfter(s, n);
    FullTurns(s.colormapIndex, n);
  }

  lemma FullTurns(i: nat, n: nat)
    requires i < ColormapCount && n % ColormapCount == 0
    ensures (i + n) % ColormapCount == i
  {
    var k := n / ColormapCount;
    assert n == ColormapCount * k;
    ModShift(i, k);
    assert i % ColormapCount == i;
  }

  datatype Status = Status(
    available: bool, enabled: bool, processing: bool,
    colormap: Option<string>, colormapIndex: Option<nat>, availableColormaps: seq<string>)

  /** `get_status`: the colormap fields are only reported when the
      processor is usable. */
  function GetStatus(s: Service): (st: Status)
    requires Inv(s)
    ensures st.available == s.available && st.enabled == s.enabled && st.processing == s.processing
    ensures st.colormap.Some? <==> s.available
    ensures st.colormapIndex.Some? <==> s.available
    ensures s.available ==>
      st.colormap == Some(ColormapNames[s.colormapIndex]) && st.colormapIndex == Some(s.colormapIndex)
      && st.availableColormaps == ColormapNames
    ensures !s.available ==> st.availableColormaps == []
  {
    if s.available then
      Status(true, s.enabled, s.processing, Some(ColormapNames[s.colormapIndex]),
             Some(s.colormapIndex), ColormapNames)
    else Status(false, s.enabled, s.processing, None, None, [])
  }

  /** The status follows the lifecycle and the colormap: after a start it
      shows enabled exactly when the service is usable, after a stop it
      shows both switches off, and after a colormap change it shows the
      name and index the change replied with. */
  lemma StatusReportsChanges(s: Service)
    requires Inv(s)
    ensures Inv(Start(s).0) && GetStatus(Start(s).0).enabled == (s.enabled || s.available)
    ensures Inv(Stop(s).0) && var st := GetStatus(Stop(s).0);
      !st.enabled && !st.processing && st.colormapIndex == GetStatus(s).colormapIndex
    ensures s.available ==> var (s1, reply) := ChangeColormap(s);
      GetStatus(s1).colormap == Some(reply.colormap) && GetStatus(s1).colormapIndex == Some(reply.index)
    ensures !s.available ==> GetStatus(ChangeColormap(s).0) == GetStatus(s)
  {
    StartKeepsInv(s);
  }
}

=== FILE: depth_controller.dfy ===
/** The depth overlay of the camera panel (web-client/depth-controller.js):
    switched on and off from its button while the camera runs, stopped
    automatically when the camera goes away, and sending one frame at a
    time every 500 ms while on. The last part of this module puts the
    overlay together with the camera panel
    (web-client/camera-controller.js), which calls `autoStopDepth`. */
module DepthController {
  import opened Common
  import Camera = CameraController

  /** `processingFPS`; the interval period is `1000 / processingFPS` ms. */
  const ProcessingFps: nat := 2
  const TickPeriodMs: nat := 1000 / ProcessingFps

  /** The depth button: disabled flag, class and text. */
  datatype Button = Button(disabled: bool, className: string, text: string)

  datatype Controller = Controller(
    isDepthEnabled: bool,
    processingFrame: bool,
    interval: bool,
    viewShown: bool,
    button: Button,
    error: Option<string>)

  const BaseClass := "btn btn-sm rounded-pill depth-btn "

  /** `updateDepthButton(state, text)`. */
  function UpdateDepthButton(state: string, text: string): (b: Button)
    ensures b.disabled <==> state == "starting" || state == "stopping"
    ensures StartsWith(b.className, BaseClass) && b.text == text
    ensures state !in {"active", "inactive", "starting", "stopping"} ==> b.className == BaseClass
  {
    var suffix :=
      if state == "active" then "btn-warning"
      else if state == "inactive" then "btn-info"
      else if state == "starting" || state == "stopping" then "btn-secondary"
      else "";
    Button(state == "starting" || state == "stopping", BaseClass + suffix, text)
  }

  const InactiveButton := UpdateDepthButton("inactive", "Start Depth")

  const Initial := Controller(false, false, false, false, InactiveButton, None)

  const CameraNeeded := "Camera must be active to use depth estimation. Please start the camera first."

  /** `startDepth`: view shown, interval running, enabled. */
  function StartDepth(c: Controller): (r: Controller)
    ensures r.isDepthEnabled && r.interval && r.viewShown
    ensures r.button == UpdateDepthButton("active", "Stop Depth") && !r.button.disabled
    ensures r.processingFrame == c.processingFrame
  {
    c.(viewShown := true, interval := true, isDepthEnabled := true,
       button := UpdateDepthButton("active", "Stop Depth"))
  }

  /** `stopDepth`: `stopDepthProcessing` clears the interval and the
      in-flight flag; view hidden; disabled. */
  function StopDepth(c: Controller): (r: Controller)
    ensures !r.isDepthEnabled && !r.interval && !r.processingFrame && !r.viewShown
    ensures r.button == InactiveButton && !r.button.disabled
    ensures r.error == c.error
  {
    c.(interval := false, processingFrame := false, viewShown := false,
       isDepthEnabled := false, button := InactiveButton)
  }

  /** `autoStopDepth`: nothing when already off, otherwise what a stop
      leaves behind. */
  function AutoStopDepth(c: Controller): (r: Controller)
    ensures !c.isDepthEnabled ==> r == c
    ensures c.isDepthEnabled ==> r == StopDepth(c)
    ensures r.isDepthEnabled == false
  {
    if !c.isDepthEnabled then c else StopDepth(c)
  }

  /** `toggleDepth`: refused, with a message and no other change, while the
      camera is off. */
  function ToggleDepth(c: Controller, cameraActive: bool): (r: Controller)
    ensures !cameraActive ==> r == c.(error := Some(CameraNeeded))
    ensures cameraActive ==> (r.isDepthEnabled <==> !c.isDepthEnabled)
    ensures cameraActive ==> (r.interval <==> r.isDepthEnabled)
  {
    if !cameraActive then c.(error := Some(CameraNeeded))
    else if c.isDepthEnabled then StopDepth(c)
    else StartDepth(c)
  }

  /** The interval callback and the guard of `processCurrentFrame`: one
      frame at a time, and only while a video element exists. */
  function Tick(c: Controller, videoPresent: bool): (r: Controller)
    ensures r.processingFrame <==>
      (c.processingFrame || (c.interval && c.isDepthEnabled && videoPresent))
    ensures r == c.(processingFrame := r.processingFrame)
  {
    if c.interval && c.isDepthEnabled && !c.processingFrame && videoPresent then
      c.(processingFrame := true)
    else c
  }

  /** The `finally` of the upload callback. */
  function FrameDone(c: Controller): (r: Controller)
    ensures !r.processingFrame && r == c.(processingFrame := false)
  {
    c.(processingFrame := false)
  }

  /** The interval runs exactly while depth is on, and a frame is only in
      flight while it is on. */
  predicate Inv(c: Controller) {
    && (c.interval <==> c.isDepthEnabled)
    && (c.processingFrame ==> c.isDepthEnabled)
  }

  /** Start ends on, stop and auto-stop end off, each with the button
      enabled again; a tick while a frame is in flight sends nothing. */
  lemma DepthSteps(c: Controller, cameraActive: bool, videoPresent: bool)
    requires Inv(c)
    ensures Inv(ToggleDepth(c, cameraActive)) && Inv(AutoStopDepth(c))
    ensures Inv(Tick(c, videoPresent)) && Inv(FrameDone(c))
    ensures c.processingFrame ==> Tick(c, videoPresent) == c
    ensures AutoStopDepth(AutoStopDepth(c)) == AutoStopDepth(c)
    ensures TickPeriodMs == 500
  {
  }

  /** The button offers the action the next click performs: "Stop Depth"
      while depth is on, "Start Depth" while it is off. */
  predicate ButtonShowsState(c: Controller) {
    c.button == (if c.isDepthEnabled then UpdateDepthButton("active", "Stop Depth") else InactiveButton)
  }

  /** The constructor's button agrees with its state, every step keeps
      the agreement, so the button's text always tells whether depth is on
      and the button is never left disabled. */
  lemma ButtonFollowsState(c: Controller, cameraActive: bool, videoPresent: bool)
    requires ButtonShowsState(c)
    ensures ButtonShowsState(Initial)
    ensures ButtonShowsState(ToggleDepth(c, cameraActive)) && ButtonShowsState(AutoStopDepth(c))
    ensures ButtonShowsState(Tick(c, videoPresent)) && ButtonShowsState(FrameDone(c))
    ensures c.isDepthEnabled <==> c.button.text == "Stop Depth"
    ensures !c.button.disabled
  {
    assert "Stop Depth"[2] != "Start Depth"[2];
  }

  // ---------------------------------------------------------------------
  // Together with the camera panel
  // ---------------------------------------------------------------------

  datatype Page = Page(camera: Camera.Camera, depth: Controller)

  /** A camera event, followed by `autoStopDepth` when the camera panel
      calls it. */
  function CameraEvent(p: Page, e: Camera.Event): (r: Page)
    ensures r.camera == Camera.Handle(p.camera, e, p.depth.isDepthEnabled).next
  {
    var step := Camera.Handle(p.camera, e, p.depth.isDepthEnabled);
    Page(step.next, if step.stopsDepth then AutoStopDepth(p.depth) else p.depth)
  }

  /** The depth button. */
  function DepthButton(p: Page): Page {
    p.(depth := ToggleDepth(p.depth, p.camera.isActive))
  }

  /** Depth runs only while the camera does. */
  predicate PageInv(p: Page) {
    && Camera.Inv(p.camera)
    && Inv(p.depth)
    && (p.depth.isDepthEnabled ==> p.camera.isActive)
  }

  /** Every camera event but teardown, the depth button, and the depth
      timer keep depth tied to the camera: stopping the camera, or failing
      to start it, stops depth too. */
  lemma DepthFollowsCamera(p: Page, e: Camera.Event, videoPresent: bool)
    requires PageInv(p)
    ensures !e.Teardown? ==> PageInv(CameraEvent(p, e))
    ensures PageInv(DepthButton(p))
    ensures PageInv(p.(depth := Tick(p.depth, videoPresent)))
    ensures PageInv(p.(depth := FrameDone(p.depth)))
  {
    Camera.ActiveOnlyAfterAcquire(p.camera, e, p.depth.isDepthEnabled);
  }

  /** `destroy` on the camera panel does not call `autoStopDepth`: depth
      stays on with the camera gone. */
  lemma TeardownKeepsDepth(p: Page)
    requires p.depth.isDepthEnabled
    ensures var r := CameraEvent(p, Camera.Teardown);
      r.depth == p.depth && !r.camera.isActive
  {
  }
}

=== FILE: depth_processor.dfy ===
/** The depth-estimation wrapper (utils/depth_processor.py): which model
    gets loaded, the choice of encoder from the checkpoint's file name, the
    `None` guards along the estimate → colour → resize pipeline, and the
    statistics and point lookup of `get_depth_info`.

    The network itself, OpenCV and the file system are not modelled: the
    outcome of each foreign step is a parameter (`LoadEnv`) or a function
    passed in (inference, colouring, resizing). A foreign step that raises
    and is caught in the source is one that yields `None` here. */
module DepthProcessor {
  import opened Common

  /** OpenCV's `COLORMAP_PLASMA`, the constructor's default colormap. */
  const ColormapPlasma: int := 15

  /** The three Depth-Anything-V2 encoders a checkpoint name can select. */
  datatype Encoder = Vitb | Vits | Vitl

  /** The arguments given to the `DepthAnythingV2` constructor. */
  datatype ModelConfig = ModelConfig(encoder: Encoder, features: nat, outChannels: seq<nat>)

  /** A raw depth map, row-major: `rows[y][x]` is `depth_array[y, x]`. */
  datatype DepthMap = DepthMap(rows: seq<seq<real>>)

  /** A camera frame or a coloured depth picture: its size and pixels. */
  datatype Picture = Picture(width: nat, height: nat, pixels: seq<int>)

  datatype Processor = Processor(
    modelName: string,
    localCheckpoint: Option<string>,
    pipelineReady: bool,
    model: Option<ModelConfig>,
    isLoaded: bool,
    useLocal: bool,
    currentColormap: int)

  /** What the outside world answers while loading: whether the checkpoint
      file exists, whether the local architecture could be imported,
      whether building the model and reading the checkpoint succeed, and
      whether the hub pipeline loads. */
  datatype LoadEnv = LoadEnv(pathExists: bool, archAvailable: bool, checkpointLoads: bool, hubLoads: bool)

  /** The constructor. */
  function Init(modelName: string, localCheckpoint: Option<string>): (p: Processor)
    ensures !p.isLoaded && !p.useLocal && p.model.None? && !p.pipelineReady
    ensures p.currentColormap == ColormapPlasma
  {
    Processor(modelName, localCheckpoint, false, None, false, false, ColormapPlasma)
  }

  // ---------------------------------------------------------------------
  // Encoder selection
  // ---------------------------------------------------------------------

  function EncoderName(e: Encoder): string {
    match e
    case Vitb => "vitb"
    case Vits => "vits"
    case Vitl => "vitl"
  }

  /** The configuration each encoder is built with. */
  function ConfigFor(e: Encoder): (c: ModelConfig)
    ensures c.encoder == e && |c.outChannels| == 4
    ensures c.features in {64, 128, 256}
  {
    match e
    case Vitb => ModelConfig(Vitb, 128, [96, 192, 384, 768])
    case Vits => ModelConfig(Vits, 64, [48, 96, 192, 384])
    case Vitl => ModelConfig(Vitl, 256, [256, 512, 1024, 1024])
  }

  /** The substring tests of `_load_local_model`, in their order, with
      vitb as the fallback. */
  function SelectEncoder(path: string): Encoder {
    if Contains(path, "vitb") then Vitb
    else if Contains(path, "vits") then Vits
    else if Contains(path, "vitl") then Vitl
    else Vitb
  }

  /** A name cannot occur in a string lacking one of its characters. */
  lemma MissingCharNotContained(s: string, needle: string, k: nat)
    requires k < |needle| && needle[k] !in s
    ensures !Contains(s, needle)
  {
    forall i | 0 <= i <= |s| - |needle| ensures !OccursAt(s, needle, i) {
      assert s[i..i + |needle|][k] == s[i + k];
    }
  }

  /** The encoder picked is one whose name the path contains, unless the
      path names none; a path naming exactly one encoder gets it; and vitb
      wins over any other name in the same path. */
  lemma EncoderChoice(path: string, e: Encoder)
    ensures var chosen := SelectEncoder(path);
      Contains(path, EncoderName(chosen)) ||
      (chosen == Vitb && forall f :: !Contains(path, EncoderName(f)))
    ensures (Contains(path, EncoderName(e)) &&
      forall f :: f != e ==> !Contains(path, EncoderName(f))) ==> SelectEncoder(path) == e
    ensures Contains(path, "vitb") ==> SelectEncoder(path) == Vitb
  {
    var chosen := SelectEncoder(path);
    if !Contains(path, EncoderName(chosen)) {
      forall f ensures !Contains(path, EncoderName(f)) {
        match f
        case Vitb =>
        case Vits =>
        case Vitl =>
      }
    }
    if Contains(path, EncoderName(e)) && (forall f :: f != e ==> !Contains(path, EncoderName(f))) {
      match e
      case Vitb =>
      case Vits => assert !Contains(path, EncoderName(Vitb));
      case Vitl =>
        assert !Contains(path, EncoderName(Vitb));
        assert !Contains(path, EncoderName(Vits));
    }
  }

  /** The small checkpoint's usual file name selects vits; a name carrying
      both vits and vitb selects vitb. */
  lemma EncoderExamples()
    ensures SelectEncoder("depth_anything_v2_vits.pth") == Vits
    ensures SelectEncoder("vits_vitb.pth") == Vitb
  {
    var small := "depth_anything_v2_vits.pth";
    MissingCharNotContained(small, "vitb", 3);
    assert OccursAt(small, "vits", 18);
    assert OccursAt("vits_vitb.pth", "vitb", 5);
  }

  // ---------------------------------------------------------------------
  // Loading
  // ---------------------------------------------------------------------

  /** `_load_local_model`: nothing changes when the architecture is
      missing; otherwise the model is built from the encoder chosen by the
      file name, and the processor is loaded in local mode when the
      checkpoint reads. Every failure inside is caught and answered with
      `False`. */
  function LoadLocal(p: Processor, path: string, env: LoadEnv): (r: (Processor, bool))
    ensures !env.archAvailable ==> r == (p, false)
    ensures r.1 <==> env.archAvailable && env.checkpointLoads
    ensures r.1 ==> r.0.isLoaded && r.0.useLocal && r.0.model == Some(ConfigFor(SelectEncoder(path)))
    ensures !r.1 ==> r.0.isLoaded == p.isLoaded && r.0.useLocal == p.useLocal
  {
    if !env.archAvailable then (p, false)
    else
      var built := p.(model := Some(ConfigFor(SelectEncoder(path))));
      if env.checkpointLoads then (built.(useLocal := true, isLoaded := true), true)
      else (built, false)
  }

  /** `load_model`: the local checkpoint when one is named and exists,
      otherwise the hub pipeline. */
  function LoadModel(p: Processor, env: LoadEnv): (r: (Processor, bool))
  {
    if Truthy(p.localCheckpoint) && env.pathExists then LoadLocal(p, p.localCheckpoint.value, env)
    else if env.hubLoads then (p.(pipelineReady := true, useLocal := false, isLoaded := true), true)
    else (p.(isLoaded := false), false)
  }

  /** A loaded processor has the back end its mode asks for. */
  predicate Inv(p: Processor) {
    p.isLoaded ==> (if p.useLocal then p.model.Some? else p.pipelineReady)
  }

  /** Loading succeeds exactly when the chosen route does. An existing
      local checkpoint is the only route tried: when it fails, the hub is
      not consulted (the exception handler that announces a fall-back in
      `load_model` is never reached, because `_load_local_model` catches
      its own errors). The result reports `is_loaded`, and loading keeps
      the invariant. */
  lemma LoadModelOutcome(p: Processor, env: LoadEnv)
    requires Inv(p)
    ensures var local := Truthy(p.localCheckpoint) && env.pathExists;
      var r := LoadModel(p, env);
      && (local ==> (r.1 <==> env.archAvailable && env.checkpointLoads))
      && (local ==> r == LoadModel(p, env.(hubLoads := !env.hubLoads)))
      && (!local ==> (r.1 <==> env.hubLoads))
      && (!local && r.1 ==> !r.0.useLocal)
      && (r.1 ==> r.0.isLoaded)
      && (!local ==> r.0.isLoaded == r.1)
      && Inv(r.0)
  {
  }

  /** A loaded processor reloaded over the hub route with a failing hub
      ends unloaded. */
  lemma FailedReloadUnloads(p: Processor, env: LoadEnv)
    requires p.isLoaded && !env.hubLoads && !(Truthy(p.localCheckpoint) && env.pathExists)
    ensures !LoadModel(p, env).0.isLoaded && !LoadModel(p, env).1
  {
  }

  // ---------------------------------------------------------------------
  // The pipeline
  // ---------------------------------------------------------------------

  /** `estimate_depth`: `None` until loaded; then the local model or the
      hub pipeline, each `None` when its back end is missing or raises. */
  function EstimateDepth(
    p: Processor, frame: Picture,
    localInfer: Picture -> Option<DepthMap>, hubInfer: Picture -> Option<DepthMap>): (r: Option<DepthMap>)
    ensures !p.isLoaded ==> r.None?
    ensures Inv(p) && p.isLoaded && p.useLocal ==> r == localInfer(frame)
    ensures Inv(p) && p.isLoaded && !p.useLocal ==> r == hubInfer(frame)
  {
    if !p.isLoaded then None
    else if p.useLocal then (if p.model.None? then None else localInfer(frame))
    else if !p.pipelineReady then None
    else hubInfer(frame)
  }

  /** `set_colormap`. */
  function SetColormap(p: Processor, colormap: int): (r: Processor)
    ensures r.currentColormap == colormap
    ensures r.(currentColormap := p.currentColormap) == p
  {
    p.(currentColormap := colormap)
  }

  /** `visualize_depth`: `None` in gives `None` out; a missing colormap
      argument means the processor's current one. */
  function VisualizeDepth(
    p: Processor, depth: Option<DepthMap>, colormap: Option<int>,
    colorize: (DepthMap, int) -> Option<Picture>): (r: Option<Picture>)
    ensures depth.None? ==> r.None?
    ensures depth.Some? ==> r == colorize(depth.value, colormap.GetOr(p.currentColormap))
  {
    if depth.None? then None
    else colorize(depth.value, if colormap.None? then p.currentColormap else colormap.value)
  }

  /** A colormap set with `set_colormap` is the one later frames are
      coloured with, until the next `set_colormap`; an explicit colormap
      argument still wins, and depth estimation does not depend on it. */
  lemma SetColormapColorsLaterFrames(
    p: Processor, cm: int, cm2: int, k: int, d: DepthMap, frame: Picture,
    localInfer: Picture -> Option<DepthMap>, hubInfer: Picture -> Option<DepthMap>,
    colorize: (DepthMap, int) -> Option<Picture>)
    ensures VisualizeDepth(SetColormap(p, cm), Some(d), None, colorize) == colorize(d, cm)
    ensures VisualizeDepth(SetColormap(p, cm), Some(d), Some(k), colorize) == colorize(d, k)
    ensures SetColormap(SetColormap(p, cm2), cm) == SetColormap(p, cm)
    ensures EstimateDepth(SetColormap(p, cm), frame, localInfer, hubInfer)
         == EstimateDepth(p, frame, localInfer, hubInfer)
  {
  }

  /** `np.zeros_like(frame)`. */
  function ZerosLike(frame: Picture): (z: Picture)
    ensures z.width == frame.width && z.height == frame.height && |z.pixels| == |frame.pixels|
    ensures forall i :: 0 <= i < |z.pixels| ==> z.pixels[i] == 0
  {
    Picture(frame.width, frame.height, seq(|frame.pixels|, _ => 0))
  }

  /** `cv2.resize` to `width` × `height`; the pixels are the foreign
      resampler's. */
  function Resize(pic: Picture, width: nat, height: nat, resample: (Picture, nat, nat) -> seq<int>): Picture {
    Picture(width, height, resample(pic, width, height))
  }

  /** `process_frame`: a black frame of the input's size when estimation
      or colouring fails, otherwise the coloured depth resized to the
      target size or, without one, to the frame's own size. */
  function ProcessFrame(
    p: Processor, frame: Picture, targetSize: Option<(nat, nat)>,
    localInfer: Picture -> Option<DepthMap>, hubInfer: Picture -> Option<DepthMap>,
    colorize: (DepthMap, int) -> Option<Picture>,
    resample: (Picture, nat, nat) -> seq<int>): (r: Picture)
    ensures var colored := VisualizeDepth(p, EstimateDepth(p, frame, localInfer, hubInfer), None, colorize);
      && (colored.None? ==> r == ZerosLike(frame))
      && (colored.Some? && targetSize.Some? ==>
            r.width == targetSize.value.0 && r.height == targetSize.value.1)
      && (colored.Some? && targetSize.None? ==> r.width == frame.width && r.height == frame.height)
  {
    var depth := EstimateDepth(p, frame, localInfer, hubInfer);
    if depth.None? then ZerosLike(frame)
    else
      var colored := VisualizeDepth(p, depth, None, colorize);
      if colored.None? then ZerosLike(frame)
      else if targetSize.Some? then Resize(colored.value, targetSize.value.0, targetSize.value.1, resample)
      else Resize(colored.value, frame.width, frame.height, resample)
  }

  /** Before a model is loaded every processed frame is black and keeps the
      camera frame's size, whatever target size is asked for. */
  lemma UnloadedGivesBlack(
    p: Processor, frame: Picture, targetSize: Option<(nat, nat)>,
    localInfer: Picture -> Option<DepthMap>, hubInfer: Picture -> Option<DepthMap>,
    colorize: (DepthMap, int) -> Option<Picture>,
    resample: (Picture, nat, nat) -> seq<int>)
    requires !p.isLoaded
    ensures var r := ProcessFrame(p, frame, targetSize, localInfer, hubInfer, colorize, resample);
      r.width == frame.width && r.height == frame.height &&
      forall i :: 0 <= i < |r.pixels| ==> r.pixels[i] == 0
  {
  }

  // ---------------------------------------------------------------------
  // Depth statistics
  // ---------------------------------------------------------------------

  /** A non-empty rectangular depth map (`np.min` raises on an empty
      array). */
  predicate Rectangular(d: DepthMap) {
    && |d.rows| > 0 && |d.rows[0]| > 0
    && forall y :: 0 <= y < |d.rows| ==> |d.rows[y]| == |d.rows[0]|
  }

  function Height(d: DepthMap): nat { |d.rows| }

  function Width(d: DepthMap): nat requires |d.rows| > 0 { |d.rows[0]| }

  /** The least value of a non-empty row. */
  function RowMin(s: seq<real>): (m: real)
    requires |s| > 0
    ensures forall i :: 0 <= i < |s| ==> m <= s[i]
    ensures exists i :: 0 <= i < |s| && s[i] == m
    decreases |s|
  {
    if |s| == 1 then s[0]
    else
      var rest := RowMin(s[1..]);
      assert forall i :: 1 <= i < |s| ==> s[i] == s[1..][i - 1];
      MinReal(s[0], rest)
  }

  /** The greatest value of a non-empty row. */
  function RowMax(s: seq<real>): (m: real)
    requires |s| > 0
    ensures forall i :: 0 <= i < |s| ==> s[i] <= m
    ensures exists i :: 0 <= i < |s| && s[i] == m
    decreases |s|
  {
    if |s| == 1 then s[0]
    else
      var rest := RowMax(s[1..]);
      assert forall i :: 1 <= i < |s| ==> s[i] == s[1..][i - 1];
      MaxReal(s[0], rest)
  }

  /** `np.min` over every cell: no cell is smaller, and some cell holds it. */
  function GridMin(rows: seq<seq<real>>): (m: real)
    requires |rows| > 0 && forall y :: 0 <= y < |rows| ==> |rows[y]| > 0
    ensures forall y, x :: 0 <= y < |rows| && 0 <= x < |rows[y]| ==> m <= rows[y][x]
    ensures exists y, x :: 0 <= y < |rows| && 0 <= x < |rows[y]| && rows[y][x] == m
    decreases |rows|
  {
    var first := RowMin(rows[0]);
    if |rows| == 1 then first
    else
      var rest := GridMin(rows[1..]);
      assert forall y :: 1 <= y < |rows| ==> rows[y] == rows[1..][y - 1];
      if first <= rest then first
      else
        var y, x :| 0 <= y < |rows[1..]| && 0 <= x < |rows[1..][y]| && rows[1..][y][x] == rest;
        assert rows[y + 1][x] == rest;
        rest
  }

  /** `np.max` over every cell: no cell is larger, and some cell holds it. */
  function GridMax(rows: seq<seq<real>>): (m: real)
    requires |rows| > 0 && forall y :: 0 <= y < |rows| ==> |rows[y]| > 0
    ensures forall y, x :: 0 <= y < |rows| && 0 <= x < |rows[y]| ==> rows[y][x] <= m
    ensures exists y, x :: 0 <= y < |rows| && 0 <= x < |rows[y]| && rows[y][x] == m
    decreases |rows|
  {
    var first := RowMax(rows[0]);
    if |rows| == 1 then first
    else
      var rest := GridMax(rows[1..]);
      assert forall y :: 1 <= y < |rows| ==> rows[y] == rows[1..][y - 1];
      if first >= rest then first
      else
        var y, x :| 0 <= y < |rows[1..]| && 0 <= x < |rows[1..][y]| && rows[1..][y][x] == rest;
        assert rows[y + 1][x] == rest;
        rest
  }

  /** The dictionary `get_depth_info` returns. `pointDepth` is `None` when
      no point was asked for (the key is absent) and `Some(None)` when the
      point lies outside the map. */
  datatype DepthInfo = DepthInfo(
    minDepth: real, maxDepth: real, height: nat, width: nat,
    pointDepth: Option<Option<real>>)

  /** `get_depth_info`. */
  function GetDepthInfo(depth: Option<DepthMap>, point: Option<(int, int)>): (r: Option<DepthInfo>)
    requires depth.Some? ==> Rectangular(depth.value)
    ensures depth.None? <==> r.None?
    ensures r.Some? ==> r.value.height == Height(depth.value) && r.value.width == Width(depth.value)
    ensures r.Some? ==> (r.value.pointDepth.Some? <==> point.Some?)
    ensures r.Some? && point.Some? ==>
      var (x, y) := point.value;
      (r.value.pointDepth.value.Some? <==>
        0 <= x < Width(depth.value) && 0 <= y < Height(depth.value))
    ensures r.Some? ==> r.value.minDepth <= r.value.maxDepth
    ensures r.Some? ==> forall y, x :: 0 <= y < |depth.value.rows| && 0 <= x < |depth.value.rows[y]| ==>
      r.value.minDepth <= depth.value.rows[y][x] <= r.value.maxDepth
    ensures r.Some? ==> exists y, x ::
      0 <= y < |depth.value.rows| && 0 <= x < |depth.value.rows[y]| && depth.value.rows[y][x] == r.value.minDepth
    ensures r.Some? ==> exists y, x ::
      0 <= y < |depth.value.rows| && 0 <= x < |depth.value.rows[y]| && depth.value.rows[y][x] == r.value.maxDepth
  {
    if depth.None? then None
    else
      var d := depth.value;
      var lo := GridMin(d.rows);
      var hi := GridMax(d.rows);
      var pd :=
        if point.None? then None
        else
          var (x, y) := point.value;
          if 0 <= x < Width(d) && 0 <= y < Height(d) then Some(Some(d.rows[y][x]))
          else Some(None);
      Some(DepthInfo(lo, hi, Height(d), Width(d), pd))
  }

  /** Every in-bounds point reads the cell at row `y`, column `x`, and that
      value lies between the reported minimum and maximum. */
  lemma PointWithinRange(d: DepthMap, x: int, y: int)
    requires Rectangular(d)
    requires 0 <= x < Width(d) && 0 <= y < Height(d)
    ensures var info := GetDepthInfo(Some(d), Some((x, y))).value;
      && info.pointDepth == Some(Some(d.rows[y][x]))
      && info.minDepth <= info.pointDepth.value.value <= info.maxDepth
  {
  }
}

=== FILE: fleet.dfy ===
/** The fleet overview page (web-client/fleet.js): battery and status
    badges for each robot, and the single row/marker highlighted while the
    pointer is over a table row. */
module Fleet {
  import opened Common

  // ---------------------------------------------------------------------
  // Battery badge
  // ---------------------------------------------------------------------

  function BatteryClass(battery: real): string {
    if battery >= 70.0 then "battery-high"
    else if battery >= 30.0 then "battery-medium"
    else "battery-low"
  }

  function BatteryIcon(battery: real): string {
    if battery >= 90.0 then "fa-battery-full"
    else if battery >= 70.0 then "fa-battery-three-quarters"
    else if battery >= 50.0 then "fa-battery-half"
    else if battery >= 30.0 then "fa-battery-quarter"
    else "fa-battery-empty"
  }

  /** Position of a class on the low-to-high scale. */
  function ClassRank(c: string): nat {
    if c == "battery-low" then 0 else if c == "battery-medium" then 1 else 2
  }

  /** Position of an icon on the empty-to-full scale. */
  function IconRank(i: string): nat {
    if i == "fa-battery-empty" then 0
    else if i == "fa-battery-quarter" then 1
    else if i == "fa-battery-half" then 2
    else if i == "fa-battery-three-quarters" then 3
    else 4
  }

  /** More charge never shows a lower class or a emptier icon. */
  lemma BatteryMonotone(a: real, b: real)
    requires a <= b
    ensures ClassRank(BatteryClass(a)) <= ClassRank(BatteryClass(b))
    ensures IconRank(BatteryIcon(a)) <= IconRank(BatteryIcon(b))
  {
  }

  /** Class and icon tell the same story: the class bands are unions of
      icon bands. */
  lemma BatteryClassMatchesIcon(b: real)
    ensures BatteryClass(b) == "battery-high" <==>
      BatteryIcon(b) in {"fa-battery-full", "fa-battery-three-quarters"}
    ensures BatteryClass(b) == "battery-medium" <==>
      BatteryIcon(b) in {"fa-battery-half", "fa-battery-quarter"}
    ensures BatteryClass(b) == "battery-low" <==> BatteryIcon(b) == "fa-battery-empty"
  {
  }

  /** The band edges belong to the upper band. */
  lemma BatteryEdges()
    ensures BatteryClass(70.0) == "battery-high" && BatteryClass(69.9) == "battery-medium"
    ensures BatteryClass(30.0) == "battery-medium" && BatteryClass(29.9) == "battery-low"
    ensures BatteryIcon(90.0) == "fa-battery-full" && BatteryIcon(50.0) == "fa-battery-half"
  {
  }

  // ---------------------------------------------------------------------
  // Status badge
  // ---------------------------------------------------------------------

  const KnownStatuses := ["online", "idle", "maintenance", "offline"]

  /** Unknown statuses are shown as offline. */
  function CanonicalStatus(status: string): (r: string)
    ensures r in KnownStatuses
    ensures status in KnownStatuses ==> r == status
  {
    if status in KnownStatuses then status else "offline"
  }

  /** `getStatusClass`'s switch. */
  function StatusClass(status: string): string {
    if status == "online" then "status-online"
    else if status == "idle" then "status-idle"
    else if status == "maintenance" then "status-maintenance"
    else if status == "offline" then "status-offline"
    else "status-offline"
  }

  /** `getStatusIcon`'s switch. */
  function StatusIcon(status: string): string {
    if status == "online" then "fa-circle-check"
    else if status == "idle" then "fa-clock"
    else if status == "maintenance" then "fa-wrench"
    else if status == "offline" then "fa-circle-xmark"
    else "fa-circle-xmark"
  }

  /** The class is "status-" followed by the status shown, the icon
      depends only on that status, and the four statuses get four
      different classes and icons. */
  lemma StatusBadgeConsistent(status: string, other: string)
    ensures StatusClass(status) == "status-" + CanonicalStatus(status)
    ensures StatusIcon(status) == StatusIcon(CanonicalStatus(status))
    ensures status !in KnownStatuses ==> StatusIcon(status) == StatusIcon("offline")
    ensures CanonicalStatus(status) != CanonicalStatus(other) ==>
      StatusClass(status) != StatusClass(other) && StatusIcon(status) != StatusIcon(other)
  {
    BadgeOf(status);
    BadgeOf(other);
    var a, b := CanonicalStatus(status), CanonicalStatus(other);
    if a != b {
      assert StatusClass(status)[7..] == a;
      assert StatusClass(other)[7..] == b;
      IconsDiffer(a, b);
    }
  }

  lemma BadgeOf(status: string)
    ensures StatusClass(status) == "status-" + CanonicalStatus(status)
    ensures StatusIcon(status) == StatusIcon(CanonicalStatus(status))
    ensures status !in KnownStatuses ==> StatusIcon(status) == StatusIcon("offline")
  {
  }

  lemma IconsDiffer(a: string, b: string)
    requires a in KnownStatuses && b in KnownStatuses && a != b
    ensures StatusIcon(a) != StatusIcon(b)
  {
  }

  // ---------------------------------------------------------------------
  // Highlighting
  // ---------------------------------------------------------------------

  /** `currentHighlighted` and the ids whose row and marker carry the
      `highlighted` class. */
  datatype Highlight = Highlight(current: Option<string>, marked: set<string>)

  const NoHighlight := Highlight(None, {})

  /** `unhighlightNautilus(id)`: forget `id` if it is current, and unmark it. */
  function Unhighlight(h: Highlight, id: string): (r: Highlight)
    ensures id !in r.marked && r.marked == h.marked - {id}
    ensures h.current == Some(id) ==> r.current.None?
    ensures h.current != Some(id) ==> r.current == h.current
  {
    Highlight(if h.current == Some(id) then None else h.current, h.marked - {id})
  }

  /** `highlightNautilus(id)`: unmark a different current id, then make
      `id` current and mark it. */
  function HighlightRow(h: Highlight, id: string): (r: Highlight)
    ensures r.current == Some(id) && id in r.marked
    ensures Truthy(h.current) && h.current.value != id ==> h.current.value !in r.marked
  {
    var h1 := if Truthy(h.current) && h.current.value != id then Unhighlight(h, h.current.value) else h;
    Highlight(Some(id), h1.marked + {id})
  }

  /** At most one row is marked, and it is the current one. Row ids come
      from `data-id` attributes, which the event handlers only pass on when
      non-empty. */
  predicate SingleHighlight(h: Highlight) {
    && (h.current.None? ==> h.marked == {})
    && (h.current.Some? ==> h.current.value != "" && h.marked == {h.current.value})
  }

  /** Entering and leaving rows keeps a single highlight. */
  lemma HighlightKeepsSingle(h: Highlight, id: string)
    requires SingleHighlight(h) && id != ""
    ensures SingleHighlight(HighlightRow(h, id))
    ensures HighlightRow(h, id).marked == {id}
    ensures SingleHighlight(Unhighlight(h, id))
  {
  }

  /** Leaving the row just entered clears the highlight entirely. */
  lemma EnterThenLeave(h: Highlight, id: string)
    requires SingleHighlight(h) && id != ""
    ensures Unhighlight(HighlightRow(h, id), id) == NoHighlight
  {
  }

  /** Leaving a row that is not current leaves the current highlight
      alone. */
  lemma LeaveOtherKeeps(h: Highlight, id: string)
    requires SingleHighlight(h) && h.current != Some(id)
    ensures Unhighlight(h, id) == h
  {
  }
}

=== FILE: frame_gate.dfy ===
/** The frame-gating interval callback that the AI-detection and the
    depth-camera controllers share (web-client/ai-detection-controller.js
    and web-client/depth-camera-controller.js, `startFrameProcessing`):
    every 100 ms, while the feature is enabled and no frame is in flight,
    count the tick, and send a frame when the count is a multiple of the
    rate. */
module FrameGate {

  /** The callback's guard and counter. `fires` means
      `processCurrentFrame()` is called. */
  datatype Gated = Gated(counter: nat, fires: bool)

  function Tick(counter: nat, enabled: bool, processing: bool, rate: nat): (r: Gated)
    requires rate > 0
    ensures !enabled || processing ==> r == Gated(counter, false)
    ensures enabled && !processing ==> r.counter == counter + 1
    ensures r.fires <==> enabled && !processing && r.counter % rate == 0
  {
    if enabled && !processing then
      var c := counter + 1;
      Gated(c, c % rate == 0)
    else Gated(counter, false)
  }

  /** `k` eligible ticks in a row: the final counter and how many of them
      sent a frame. */
  function Eligible(counter: nat, k: nat, rate: nat): (r: (nat, nat))
    requires rate > 0
    decreases k
  {
    if k == 0 then (counter, 0)
    else
      var t := Tick(counter, true, false, rate);
      var rest := Eligible(t.counter, k - 1, rate);
      (rest.0, rest.1 + (if t.fires then 1 else 0))
  }

  /** Eligible ticks only count: the counter advances by one per tick. */
  lemma {:induction false} EligibleCounts(counter: nat, k: nat, rate: nat)
    requires rate > 0
    ensures Eligible(counter, k, rate).0 == counter + k
    ensures Eligible(counter, k, rate).1 <= k
    decreases k
  {
    if k > 0 {
      EligibleCounts(counter + 1, k - 1, rate);
    }
  }

  /** A run of eligible ticks can be split anywhere. */
  lemma {:induction false} EligibleSplit(counter: nat, a: nat, b: nat, rate: nat)
    requires rate > 0
    ensures Eligible(counter, a + b, rate).0 == Eligible(counter + a, b, rate).0
    ensures Eligible(counter, a + b, rate).1 ==
      Eligible(counter, a, rate).1 + Eligible(counter + a, b, rate).1
    decreases a
  {
    if a > 0 {
      EligibleSplit(counter + 1, a - 1, b, rate);
      assert a + b - 1 == (a - 1) + b;
    }
  }
}

=== FILE: joystick.dfy ===
/** The joystick controller as a state machine. Pointer samples, timer
    firings and button presses are input events; the commands the
    controller issues (a move request to the server, or a call of the page
    controller's `stopMovement`) are its output trace.

    Both copies of the controller share this machine; `Variant` selects
    the dead zone, the intensity formula, the sector table and whether the
    16 ms input throttle applies (four-way copy only). */
module Joystick {
  import opened Common
  import opened JoystickGeometry

  /** Interval between repeated move requests while the stick is held. */
  function MovementDelayMs(v: Variant): nat {
    match v
    case EightWay => 100
    case FourWay => 30
  }

  /** Four-way copy: minimum spacing of accepted samples, in milliseconds. */
  const ThrottleMs := 16

  /** A click on the base returns the knob to the centre this much later. */
  const AutoReturnMs := 2000

  /** The repeating movement timer. `startMovement` calls `clearInterval`
      without clearing the handle, so a cancelled timer can still be
      referenced (`Cancelled`); only `stopMovement` drops the handle. */
  datatype Timer = NoTimer | Running | Cancelled

  /** What the controller asks of the outside world. `Move` is the body of a
      POST to /api/move; `ControllerStop` is a call of the page
      controller's `stopMovement`. */
  datatype Command = Move(direction: string, intensity: int, angle: real) | ControllerStop

  datatype State = State(
    variant: Variant,
    joystickMode: bool,
    dragging: bool,
    knob: Offset,
    maxDistance: real,
    direction: Option<Direction>,
    intensity: int,
    timer: Timer,
    lastUpdate: int)

  /** The state after an event and the commands issued while handling it,
      in order. */
  datatype Step = Step(next: State, sent: seq<Command>)

  /** A direction produced by the variant's sector table. */
  predicate FromTable(v: Variant, d: Direction) {
    d.name in Names(v) && d.code == d.name && 0.0 <= d.angle < 360.0
  }

  /** What holds between events, whatever the controller has been through. */
  predicate Inv(s: State) {
    && s.maxDistance > 0.0
    && 0 <= s.intensity <= 100
    && (s.direction.None? ==> s.intensity == 0)
    && (s.direction.Some? ==> FromTable(s.variant, s.direction.value))
    && (s.variant == EightWay && s.direction.Some? ==> s.intensity >= 15)
    && (s.timer == Running ==> s.direction.Some? && s.intensity > 0)
  }

  /** Base width in pixels for which `maxDistance` is positive. */
  predicate UsableWidth(width: real) {
    width > 2.0 * KnobRadius
  }

  /** The constructor followed by `updateBaseMetrics` on the base element. */
  function Init(v: Variant, width: real): (s: State)
    requires UsableWidth(width)
    ensures Inv(s)
    ensures s.joystickMode && !s.dragging && s.knob == Centre
    ensures s.direction.None? && s.intensity == 0 && s.timer == NoTimer
    ensures s.maxDistance == width / 2.0 - KnobRadius
  {
    State(v, true, false, Centre, MaxDistanceFor(width), None, 0, NoTimer, 0)
  }

  /** The body of the move request for the current direction. */
  function Payload(d: Direction, intensity: int): Command {
    Move(d.code, intensity, d.angle)
  }

  // ---------------------------------------------------------------------
  // Movement start and stop
  // ---------------------------------------------------------------------

  /** `stopMovement`: drop the timer, ask the page controller to stop and
      forget the direction and intensity. */
  function StopMovement(s: State): (r: Step)
    ensures r.sent == [ControllerStop]
    ensures r.next.timer == NoTimer && r.next.direction.None? && r.next.intensity == 0
    ensures r.next.knob == s.knob && r.next.dragging == s.dragging
    ensures r.next.maxDistance == s.maxDistance && r.next.lastUpdate == s.lastUpdate
    ensures r.next.variant == s.variant && r.next.joystickMode == s.joystickMode
  {
    Step(s.(timer := NoTimer, direction := None, intensity := 0), [ControllerStop])
  }

  /** `startMovement`: cancel any running timer; then, given a direction and
      a non-zero intensity, send one move request at once and start the
      repeating timer. */
  function StartMovement(s: State): (r: Step)
    ensures r.next.direction == s.direction && r.next.intensity == s.intensity
    ensures r.next.knob == s.knob && r.next.dragging == s.dragging
    ensures r.next.maxDistance == s.maxDistance && r.next.lastUpdate == s.lastUpdate
    ensures r.next.variant == s.variant && r.next.joystickMode == s.joystickMode
    ensures |r.sent| <= 1 && ControllerStop !in r.sent
    ensures r.next.timer == Running <==> |r.sent| == 1
    ensures s.direction.None? || s.intensity == 0 ==> r.sent == [] && r.next.timer != Running
    ensures s.direction.Some? && s.intensity != 0 ==>
      && r.sent == [Move(s.direction.value.code, s.intensity, s.direction.value.angle)]
      && r.next.timer == Running
    ensures r.next.timer != Running ==> (r.next.timer == NoTimer <==> s.timer == NoTimer)
  {
    var t := if s.timer == NoTimer then NoTimer else Cancelled;
    if s.direction.None? || s.intensity == 0 then
      Step(s.(timer := t), [])
    else
      Step(s.(timer := Running), [Payload(s.direction.value, s.intensity)])
  }

  /** A firing of the repeating timer. */
  function Tick(s: State): (r: Step)
    ensures s.timer != Running ==> r == Step(s, [])
  {
    if s.timer != Running then Step(s, [])
    else if s.direction.Some? && s.intensity > 0 then
      Step(s, [Payload(s.direction.value, s.intensity)])
    else
      StopMovement(s)
  }

  /** `returnToCenter`: the knob snaps back to the centre and movement stops. */
  function ReturnToCenter(s: State): (r: Step)
    ensures r.next.knob == Centre && r.sent == [ControllerStop]
    ensures r.next.timer == NoTimer && r.next.direction.None? && r.next.intensity == 0
    ensures r.next.dragging == s.dragging && r.next.maxDistance == s.maxDistance
  {
    StopMovement(s.(knob := Centre))
  }

  // ---------------------------------------------------------------------
  // Pointer samples
  // ---------------------------------------------------------------------

  /** `updateMovementData` for a knob of length `length` whose heading is
      `heading` (atan2 of the knob with the y axis pointing up, in
      degrees). */
  function UpdateMovementData(s: State, length: real, heading: real, now: int): (r: Step)
    requires Inv(s) && 0.0 <= length <= s.maxDistance && -180.0 <= heading <= 180.0
    ensures Inv(r.next)
    ensures r.next.knob == s.knob && r.next.dragging == s.dragging
    ensures r.next.maxDistance == s.maxDistance && r.next.variant == s.variant
    ensures r.next.joystickMode == s.joystickMode
  {
    var v := s.variant;
    if v == FourWay && now - s.lastUpdate < ThrottleMs then
      Step(s, [])
    else
      var s1 := if v == FourWay then s.(lastUpdate := now) else s;
      var n := length / s.maxDistance;
      if n < DeadZone(v) then
        StopMovement(s1.(intensity := 0, direction := None))
      else
        RatioAtMostOne(length, s.maxDistance);
        var d := CalculateDirection(v, heading);
        DirectionFromTable(v, heading);
        IntensityInRange(v, n);
        StartMovement(s1.(intensity := Intensity(v, n), direction := Some(d)))
  }

  lemma RatioAtMostOne(a: real, m: real)
    requires 0.0 <= a <= m && m > 0.0
    ensures 0.0 <= a / m <= 1.0
  {
  }

  lemma DirectionFromTable(v: Variant, heading: real)
    requires -180.0 <= heading <= 180.0
    ensures FromTable(v, CalculateDirection(v, heading))
  {
    DirectionTotal(v, heading);
  }

  lemma IntensityInRange(v: Variant, n: real)
    requires DeadZone(v) <= n <= 1.0
    ensures 0 <= Intensity(v, n) <= 100
    ensures v == EightWay ==> Intensity(v, n) >= 15
  {
    match v
    case EightWay => EightWayIntensityRange(n);
    case FourWay => FourWayIntensityRange(n);
  }

  /** `drag`: ignored unless a drag is in progress; otherwise the knob
      follows the clamped sample and the movement data is recomputed. */
  function Drag(s: State, p: Sample, now: int): (r: Step)
    requires Inv(s) && ValidSample(p)
    ensures Inv(r.next)
    ensures !s.dragging ==> r == Step(s, [])
    ensures s.dragging ==> r.next.knob == Clamp(p.offset, p.length, s.maxDistance).offset
    ensures r.next.dragging == s.dragging && r.next.maxDistance == s.maxDistance
  {
    if !s.dragging then Step(s, [])
    else
      var k := Clamp(p.offset, p.length, s.maxDistance);
      UpdateMovementData(s.(knob := k.offset), k.length, p.heading, now)
  }

  /** `startDrag`: re-measure the base, then treat the sample as a drag. */
  function StartDrag(s: State, width: real, p: Sample, now: int): (r: Step)
    requires Inv(s) && UsableWidth(width) && ValidSample(p)
    ensures Inv(r.next)
    ensures r.next.dragging && r.next.maxDistance == MaxDistanceFor(width)
  {
    Drag(s.(dragging := true, maxDistance := MaxDistanceFor(width)), p, now)
  }

  /** `stopDrag`: ends a drag and returns the knob to the centre. */
  function StopDrag(s: State): (r: Step)
    requires Inv(s)
    ensures Inv(r.next)
    ensures !s.dragging ==> r == Step(s, [])
    ensures s.dragging ==> !r.next.dragging && r.next.knob == Centre && r.sent == [ControllerStop]
  {
    if !s.dragging then Step(s, [])
    else ReturnToCenter(s.(dragging := false))
  }

  /** `moveKnobToPosition`: a click on the base outside a drag places the
      knob (clamped) and recomputes the movement data. The 2000 ms
      auto-return it schedules is the separate `AutoReturn` event. */
  function MoveKnobToPosition(s: State, p: Sample, now: int): (r: Step)
    requires Inv(s) && ValidSample(p)
    ensures Inv(r.next)
    ensures s.dragging ==> r == Step(s, [])
    ensures !s.dragging ==> r.next.knob == Clamp(p.offset, p.length, s.maxDistance).offset
    ensures r.next.dragging == s.dragging
  {
    if s.dragging then Step(s, [])
    else
      var k := Clamp(p.offset, p.length, s.maxDistance);
      UpdateMovementData(s.(knob := k.offset), k.length, p.heading, now)
  }

  /** The delayed callback scheduled by `moveKnobToPosition`. */
  function AutoReturn(s: State): (r: Step)
    requires Inv(s)
    ensures Inv(r.next)
    ensures s.dragging ==> r == Step(s, [])
    ensures !s.dragging ==> r.next.knob == Centre && r.sent == [ControllerStop]
  {
    if s.dragging then Step(s, []) else ReturnToCenter(s)
  }

  /** The window `resize` handler (`updateBaseMetrics`). The knob is not
      moved, so it may lie outside a shrunken base until the next sample. */
  function Resize(s: State, width: real): (r: Step)
    requires Inv(s) && UsableWidth(width)
    ensures Inv(r.next) && r.sent == []
    ensures r.next.maxDistance == width / 2.0 - KnobRadius
  {
    Step(s.(maxDistance := MaxDistanceFor(width)), [])
  }

  /** `toggleControlMode`: flip the mode, stop, and return to the centre. */
  function ToggleControlMode(s: State): (r: Step)
    requires Inv(s)
    ensures Inv(r.next)
    ensures r.next.joystickMode == !s.joystickMode
    ensures r.sent == [ControllerStop, ControllerStop]
    ensures r.next.knob == Centre && r.next.timer == NoTimer
  {
    var a := StopMovement(s.(joystickMode := !s.joystickMode));
    var b := ReturnToCenter(a.next);
    Step(b.next, a.sent + b.sent)
  }

  /** `emergencyStop`: stop, return to the centre, then ask the page
      controller to stop once more. The eight-way copy wires it to the
      emergency button, the four-way copy to the centre dot. */
  function EmergencyStop(s: State): (r: Step)
    requires Inv(s)
    ensures Inv(r.next)
  {
    var a := StopMovement(s);
    var b := ReturnToCenter(a.next);
    Step(b.next, a.sent + b.sent + [ControllerStop])
  }

  // ---------------------------------------------------------------------
  // Event traces
  // ---------------------------------------------------------------------

  datatype Event =
    | PressKnob(width: real, sample: Sample, now: int)
    | PointerMove(sample: Sample, now: int)
    | Release
    | ClickBase(sample: Sample, now: int)
    | AutoReturnFires
    | WindowResize(width: real)
    | TimerFires
    | ToggleMode
    | EmergencyButton

  predicate ValidEvent(e: Event) {
    match e
    case PressKnob(w, p, _) => UsableWidth(w) && ValidSample(p)
    case PointerMove(p, _) => ValidSample(p)
    case ClickBase(p, _) => ValidSample(p)
    case WindowResize(w) => UsableWidth(w)
    case _ => true
  }

  function Handle(s: State, e: Event): (r: Step)
    requires Inv(s) && ValidEvent(e)
    ensures Inv(r.next)
  {
    match e
    case PressKnob(w, p, now) => StartDrag(s, w, p, now)
    case PointerMove(p, now) => Drag(s, p, now)
    case Release => StopDrag(s)
    case ClickBase(p, now) => MoveKnobToPosition(s, p, now)
    case AutoReturnFires => AutoReturn(s)
    case WindowResize(w) => Resize(s, w)
    case TimerFires => TickPreservesInv(s); Tick(s)
    case ToggleMode => ToggleControlMode(s)
    case EmergencyButton => EmergencyStop(s)
  }

  /** Feed a sequence of events, collecting every command issued. */
  function Run(s: State, es: seq<Event>): Step
    requires Inv(s) && forall i :: 0 <= i < |es| ==> ValidEvent(es[i])
    decreases |es|
  {
    if |es| == 0 then Step(s, [])
    else
      var r := Handle(s, es[0]);
      var rest := Run(r.next, es[1..]);
      Step(rest.next, r.sent + rest.sent)
  }

  // ---------------------------------------------------------------------
  // Properties
  // ---------------------------------------------------------------------

  lemma TickPreservesInv(s: State)
    requires Inv(s)
    ensures Inv(Tick(s).next)
  {
  }

  /** Any event sequence keeps the invariant. */
  lemma {:induction false} RunPreservesInv(s: State, es: seq<Event>)
    requires Inv(s) && forall i :: 0 <= i < |es| ==> ValidEvent(es[i])
    ensures Inv(Run(s, es).next)
    decreases |es|
  {
    if |es| > 0 {
      var r := Handle(s, es[0]);
      assert forall i :: 0 <= i < |es[1..]| ==> ValidEvent(es[1..][i]) by {
        forall i | 0 <= i < |es[1..]| ensures ValidEvent(es[1..][i]) {
          assert es[1..][i] == es[i + 1];
        }
      }
      RunPreservesInv(r.next, es[1..]);
    }
  }

  /** The `else` branch of the timer callback is dead: whenever the timer
      runs, a direction and a positive intensity are set, so every firing
      sends exactly one move request and changes nothing. */
  lemma TickAlwaysMoves(s: State)
    requires Inv(s) && s.timer == Running
    ensures Tick(s).next == s
    ensures Tick(s).sent == [Move(s.direction.value.code, s.intensity, s.direction.value.angle)]
    ensures Tick(s).sent != [ControllerStop]
  {
  }

  /** `k` firings of the timer in a row. */
  function Ticks(s: State, k: nat): Step
    decreases k
  {
    if k == 0 then Step(s, [])
    else
      var r := Tick(s);
      var rest := Ticks(r.next, k - 1);
      Step(rest.next, r.sent + rest.sent)
  }

  /** While the stick is held still, k firings send k identical move
      requests; with no timer running they send nothing. */
  lemma {:induction false} TicksRepeat(s: State, k: nat)
    requires Inv(s)
    ensures s.timer == Running ==>
      Ticks(s, k).next == s &&
      |Ticks(s, k).sent| == k &&
      forall i :: 0 <= i < k ==>
        Ticks(s, k).sent[i] == Move(s.direction.value.code, s.intensity, s.direction.value.angle)
    ensures s.timer != Running ==> Ticks(s, k) == Step(s, [])
    decreases k
  {
    if k > 0 {
      if s.timer == Running {
        TickAlwaysMoves(s);
      }
      TicksRepeat(s, k - 1);
    }
  }

  /** Inside the dead zone the controller stops: intensity 0, no direction,
      no timer, and exactly one stop request. */
  lemma DeadZoneStops(s: State, length: real, heading: real, now: int)
    requires Inv(s) && 0.0 <= length <= s.maxDistance && -180.0 <= heading <= 180.0
    requires s.variant == EightWay || now - s.lastUpdate >= ThrottleMs
    requires length / s.maxDistance < DeadZone(s.variant)
    ensures UpdateMovementData(s, length, heading, now).sent == [ControllerStop]
    ensures UpdateMovementData(s, length, heading, now).next.direction.None?
    ensures UpdateMovementData(s, length, heading, now).next.intensity == 0
    ensures UpdateMovementData(s, length, heading, now).next.timer == NoTimer
  {
  }

  /** Outside the dead zone the controller requests movement in the
      compass sector of the heading, with the variant's intensity and the
      normalised angle; the eight-way copy always sends, the four-way copy
      sends nothing when the remapped intensity rounds to 0. */
  lemma LiveSampleMoves(s: State, length: real, heading: real, now: int)
    requires Inv(s) && 0.0 <= length <= s.maxDistance && -180.0 <= heading <= 180.0
    requires s.variant == EightWay || now - s.lastUpdate >= ThrottleMs
    requires length / s.maxDistance >= DeadZone(s.variant)
    ensures var r := UpdateMovementData(s, length, heading, now);
      var n := length / s.maxDistance;
      && r.next.direction.Some?
      && r.next.direction.value.name == Compass(Names(s.variant), NormalizeAngle(heading))
      && r.next.intensity == Intensity(s.variant, n)
      && (r.next.intensity > 0 ==>
            r.next.timer == Running &&
            r.sent == [Move(r.next.direction.value.name, r.next.intensity, NormalizeAngle(heading))])
      && (r.next.intensity == 0 ==> r.sent == [] && r.next.timer != Running)
      && (s.variant == EightWay ==> r.next.intensity > 0)
  {
    var n := length / s.maxDistance;
    DirectionTotal(s.variant, heading);
    RatioAtMostOne(length, s.maxDistance);
    IntensityInRange(s.variant, n);
  }

  /** Four-way copy: a sample arriving less than 16 ms after the last
      accepted one moves the knob but leaves direction, intensity, timer
      and the throttle clock alone, and sends nothing. */
  lemma ThrottledSampleIgnored(s: State, p: Sample, now: int)
    requires Inv(s) && ValidSample(p) && s.dragging
    requires s.variant == FourWay && now - s.lastUpdate < ThrottleMs
    ensures var r := Drag(s, p, now);
      && r.sent == []
      && r.next.knob == Clamp(p.offset, p.length, s.maxDistance).offset
      && r.next.direction == s.direction && r.next.intensity == s.intensity
      && r.next.timer == s.timer && r.next.lastUpdate == s.lastUpdate
  {
  }

  /** Emergency stop calls the page controller's stop three times and
      leaves the knob centred with no timer, no direction and intensity 0;
      a drag in progress is not ended. */
  lemma EmergencyStopEffect(s: State)
    requires Inv(s)
    ensures EmergencyStop(s).sent == [ControllerStop, ControllerStop, ControllerStop]
    ensures EmergencyStop(s).next.knob == Centre
    ensures EmergencyStop(s).next.timer == NoTimer
    ensures EmergencyStop(s).next.direction.None? && EmergencyStop(s).next.intensity == 0
    ensures EmergencyStop(s).next.dragging == s.dragging
  {
  }

  /** After an emergency stop the timer is silent until a new sample
      arrives. */
  lemma SilentAfterEmergencyStop(s: State, k: nat)
    requires Inv(s)
    ensures Ticks(EmergencyStop(s).next, k).sent == []
  {
    EmergencyStopEffect(s);
    TicksRepeat(EmergencyStop(s).next, k);
  }
}

=== FILE: joystick_geometry.dfy ===
/** Geometry of the on-screen joystick: the radial clamp of the knob offset,
    the dead zone, the integer intensity and the half-open sector table that
    turns a heading into a direction name.

    Two copies of the controller exist and have drifted apart; `Variant`
    selects which one a definition follows:
    - `EightWay`: web-client/joystick-controller.js (15% dead zone, intensity
      not remapped, eight 45-degree sectors);
    - `FourWay`: web-client/static/joystick-controller.js (10% dead zone,
      intensity remapped over the live range, four 90-degree sectors).

    `Math.sqrt` and `Math.atan2` are not computed here: a pointer sample
    carries the host's measurement of its length and heading, and the
    predicates below say what those measurements are. */
module JoystickGeometry {
  import opened Common

  datatype Variant = EightWay | FourWay

  /** Fraction of `maxDistance` inside which the stick counts as centred. */
  function DeadZone(v: Variant): real {
    match v
    case EightWay => 0.15
    case FourWay => 0.1
  }

  const KnobRadius: real := 40.0
  const InitialBaseRadius: real := 100.0

  /** `maxDistance` as `updateBaseMetrics` derives it from the width of the
      base element: half the width less the knob radius. */
  function MaxDistanceFor(baseWidth: real): real {
    baseWidth / 2.0 - KnobRadius
  }

  // ---------------------------------------------------------------------
  // Offsets and the radial clamp
  // ---------------------------------------------------------------------

  /** Knob offset from the base centre, in screen pixels (y grows downwards). */
  datatype Offset = Offset(x: real, y: real)

  const Centre := Offset(0.0, 0.0)

  function SqLen(o: Offset): real {
    o.x * o.x + o.y * o.y
  }

  /** `d` is the Euclidean length of `o`, i.e. what `Math.sqrt` returns. */
  predicate IsLength(o: Offset, d: real) {
    d >= 0.0 && d * d == SqLen(o)
  }

  /** `a` and `b` lie on one line through the centre. */
  predicate Collinear(a: Offset, b: Offset) {
    a.x * b.y == a.y * b.x
  }

  /** `a` and `b` point into the same half-plane (positive dot product);
      together with `Collinear` this says they have the same atan2 angle. */
  predicate SameOrientation(a: Offset, b: Offset) {
    a.x * b.x + a.y * b.y > 0.0
  }

  /** A pointer sample as the host measures it: the raw offset from the base
      centre, its length (`Math.sqrt`), and its heading in degrees,
      `Math.atan2(-dy, dx) * 180 / Math.PI`, which lies in [-180, 180]. */
  datatype Sample = Sample(offset: Offset, length: real, heading: real)

  predicate ValidSample(s: Sample) {
    IsLength(s.offset, s.length) && -180.0 <= s.heading <= 180.0
  }

  /** The knob position after a drag sample, with its length. */
  datatype Knob = Knob(offset: Offset, length: real)

  /** The drag constraint: an offset farther than `maxDistance` is pulled
      back onto the circle of radius `maxDistance` along the same ray
      (`cos(angle) * maxDistance`, `sin(angle) * maxDistance`, which is the
      offset scaled by `maxDistance / distance`); a closer one is kept. */
  function Clamp(o: Offset, d: real, maxDistance: real): (k: Knob)
    requires IsLength(o, d) && maxDistance > 0.0
    ensures IsLength(k.offset, k.length)
    ensures k.length <= maxDistance
    ensures SqLen(k.offset) <= maxDistance * maxDistance
    ensures d <= maxDistance ==> k.offset == o && k.length == d
    ensures d > maxDistance ==>
      && k.length == maxDistance
      && Collinear(o, k.offset)
      && SameOrientation(o, k.offset)
  {
    if d > maxDistance then
      var s := maxDistance / d;
      ScaledLength(o, d, s);
      Knob(Offset(o.x * s, o.y * s), maxDistance)
    else
      SquareBelow(d, maxDistance);
      Knob(o, d)
  }

  lemma ScaledLength(o: Offset, d: real, s: real)
    requires IsLength(o, d) && d > 0.0 && s > 0.0
    ensures SqLen(Offset(o.x * s, o.y * s)) == (s * d) * (s * d)
    ensures Collinear(o, Offset(o.x * s, o.y * s))
    ensures SameOrientation(o, Offset(o.x * s, o.y * s))
  {
    var c := Offset(o.x * s, o.y * s);
    var q := SqLen(o);
    calc {
      q;
    ==
      d * d;
    > { PositiveProduct(d, d); }
      0.0;
    }
    PositiveProduct(s, q);
    assert SqLen(c) == s * s * q;
    assert o.x * c.x + o.y * c.y == s * q;
  }

  lemma PositiveProduct(a: real, b: real)
    requires a > 0.0 && b > 0.0
    ensures a * b > 0.0
  {
  }

  lemma SquareBelow(d: real, r: real)
    requires 0.0 <= d <= r
    ensures d * d <= r * r
  {
    assert d * d <= d * r;
    assert d * r <= r * r;
  }

  // ---------------------------------------------------------------------
  // Intensity
  // ---------------------------------------------------------------------

  /** Integer intensity for a normalised distance `n` outside the dead zone.
      The eight-way copy uses `min(round(n * 100), 100)`; the four-way copy
      first rescales the live range [deadZone, 1] onto [0, 1]. */
  function Intensity(v: Variant, n: real): int {
    match v
    case EightWay => Min(Round(n * 100.0), 100)
    case FourWay =>
      Min(Round((n - DeadZone(FourWay)) / (1.0 - DeadZone(FourWay)) * 100.0), 100)
  }

  lemma RoundMonotone(a: real, b: real)
    requires a <= b
    ensures Round(a) <= Round(b)
  {
  }

  /** Both copies: a larger deflection never yields a smaller intensity. */
  lemma IntensityMonotone(v: Variant, n1: real, n2: real)
    requires n1 <= n2
    ensures Intensity(v, n1) <= Intensity(v, n2)
  {
    match v
    case EightWay =>
      RoundMonotone(n1 * 100.0, n2 * 100.0);
    case FourWay =>
      RoundMonotone((n1 - 0.1) / 0.9 * 100.0, (n2 - 0.1) / 0.9 * 100.0);
  }

  /** Eight-way: outside the dead zone and inside the clamp the intensity
      lies in [15, 100] and in particular is never 0. */
  lemma EightWayIntensityRange(n: real)
    requires DeadZone(EightWay) <= n <= 1.0
    ensures 15 <= Intensity(EightWay, n) <= 100
  {
    RoundMonotone(15.0, n * 100.0);
    assert Round(15.0) == 15;
  }

  /** Four-way: the rescaled intensity covers exactly [0, 100] over the live
      range, reaching 0 at the dead-zone edge and 100 at full deflection. */
  lemma FourWayIntensityRange(n: real)
    requires DeadZone(FourWay) <= n <= 1.0
    ensures 0 <= Intensity(FourWay, n) <= 100
    ensures n == DeadZone(FourWay) ==> Intensity(FourWay, n) == 0
    ensures n == 1.0 ==> Intensity(FourWay, n) == 100
  {
    RoundMonotone(0.0, (n - 0.1) / 0.9 * 100.0);
    assert Round(0.0) == 0;
    if n == 1.0 {
      assert (n - 0.1) / 0.9 * 100.0 == 100.0;
      assert Round(100.0) == 100;
    }
  }

  // ---------------------------------------------------------------------
  // Direction sectors
  // ---------------------------------------------------------------------

  /** One row of the direction table: `name` applies on [lo, hi). The
      `code` sent to the server equals the name in every row. */
  datatype Sector = Sector(name: string, lo: real, hi: real)

  function Sectors(v: Variant): seq<Sector> {
    match v
    case EightWay => [
      Sector("right", 337.5, 360.0),
      Sector("right", 0.0, 22.5),
      Sector("forward-right", 22.5, 67.5),
      Sector("forward", 67.5, 112.5),
      Sector("forward-left", 112.5, 157.5),
      Sector("left", 157.5, 202.5),
      Sector("backward-left", 202.5, 247.5),
      Sector("backward", 247.5, 292.5),
      Sector("backward-right", 292.5, 337.5)
    ]
    case FourWay => [
      Sector("right", 315.0, 360.0),
      Sector("right", 0.0, 45.0),
      Sector("forward", 45.0, 135.0),
      Sector("left", 135.0, 225.0),
      Sector("backward", 225.0, 315.0)
    ]
  }

  predicate InSector(s: Sector, a: real) {
    s.lo <= a < s.hi
  }

  /** The first row whose half-open range holds `a` (the `for ... of` scan). */
  function FirstMatch(t: seq<Sector>, a: real): (r: Option<Sector>)
    ensures r.Some? ==> r.value in t && InSector(r.value, a)
    ensures r.None? ==> forall i :: 0 <= i < |t| ==> !InSector(t[i], a)
  {
    if |t| == 0 then None
    else if InSector(t[0], a) then Some(t[0])
    else FirstMatch(t[1..], a)
  }

  /** How many rows of `t` hold `a`. */
  function MatchCount(t: seq<Sector>, a: real): nat {
    if |t| == 0 then 0
    else (if InSector(t[0], a) then 1 else 0) + MatchCount(t[1..], a)
  }

  /** `(angle + 360) % 360` for an atan2 heading in degrees. */
  function NormalizeAngle(heading: real): (a: real)
    requires -180.0 <= heading <= 180.0
    ensures 0.0 <= a < 360.0
    ensures heading >= 0.0 ==> a == heading
    ensures heading < 0.0 ==> a == heading + 360.0
  {
    var r := Mod360(heading + 360.0);
    assert WholeTurns(heading + 360.0 - r);
    TurnsInRange(heading + 360.0 - r);
    r
  }

  lemma TurnsInRange(d: real)
    requires WholeTurns(d) && -360.0 < d <= 540.0
    ensures d == 0.0 || d == 360.0
  {
    var k := (d / 360.0).Floor;
    assert d == 360.0 * k as real;
  }

  /** The result of `calculateDirection`. `name` and `code` coincide except
      for the fallback row, whose code is "stop". */
  datatype Direction = Direction(name: string, code: string, angle: real)

  const Fallback := Direction("center", "stop", 0.0)

  function CalculateDirection(v: Variant, heading: real): Direction
    requires -180.0 <= heading <= 180.0
  {
    var a := NormalizeAngle(heading);
    match FirstMatch(Sectors(v), a)
    case Some(s) => Direction(s.name, s.name, a)
    case None => Fallback
  }

  /** Independent reference for the table: the compass rose split into
      `|names|` equal sectors, the first one centred on 0 degrees. */
  function Compass(names: seq<string>, a: real): (r: string)
    requires |names| > 0 && 0.0 <= a < 360.0
    ensures r in names
  {
    var width := 360.0 / |names| as real;
    names[((a + width / 2.0) / width).Floor % |names|]
  }

  const EightNames := ["right", "forward-right", "forward", "forward-left",
                       "left", "backward-left", "backward", "backward-right"]
  const FourNames := ["right", "forward", "left", "backward"]

  function Names(v: Variant): seq<string> {
    match v
    case EightWay => EightNames
    case FourWay => FourNames
  }

  /** Every angle in [0, 360) lies in exactly one row of the eight-way
      table, and that row names the compass sector of the angle. */
  lemma EightWayPartition(a: real)
    requires 0.0 <= a < 360.0
    ensures MatchCount(Sectors(EightWay), a) == 1
    ensures FirstMatch(Sectors(EightWay), a).Some?
    ensures FirstMatch(Sectors(EightWay), a).value.name == Compass(EightNames, a)
  {
    var t := Sectors(EightWay);
    TableCovers(EightWay, a);
    TableDisjoint(EightWay);
    var i := SectorIndex(t, a);
    ScanFinds(t, a, i);
    CompassEight(a, i);
  }

  /** Every angle in [0, 360) lies in exactly one row of the four-way table,
      and that row names the compass quadrant of the angle. */
  lemma FourWayPartition(a: real)
    requires 0.0 <= a < 360.0
    ensures MatchCount(Sectors(FourWay), a) == 1
    ensures FirstMatch(Sectors(FourWay), a).Some?
    ensures FirstMatch(Sectors(FourWay), a).value.name == Compass(FourNames, a)
  {
    var t := Sectors(FourWay);
    TableCovers(FourWay, a);
    TableDisjoint(FourWay);
    var i := SectorIndex(t, a);
    ScanFinds(t, a, i);
    CompassFour(a, i);
  }

  lemma TableCovers(v: Variant, a: real)
    requires 0.0 <= a < 360.0
    ensures SectorIndex(Sectors(v), a) < |Sectors(v)|
  {
    var t := Sectors(v);
    var j: nat;
    if v == EightWay {
      j := if a >= 337.5 then 0 else if a < 22.5 then 1 else if a < 67.5 then 2
        else if a < 112.5 then 3 else if a < 157.5 then 4 else if a < 202.5 then 5
        else if a < 247.5 then 6 else if a < 292.5 then 7 else 8;
    } else {
      j := if a >= 315.0 then 0 else if a < 45.0 then 1 else if a < 135.0 then 2
        else if a < 225.0 then 3 else 4;
    }
    assert j < |t| && InSector(t[j], a);
  }

  lemma TableDisjoint(v: Variant)
    ensures Disjoint(Sectors(v))
  {
    var t := Sectors(v);
    forall i, j | 0 <= i < j < |t|
      ensures t[i].hi <= t[j].lo || t[j].hi <= t[i].lo
    {
      if v == EightWay {
        assert i in {0, 1, 2, 3, 4, 5, 6, 7};
        assert j in {1, 2, 3, 4, 5, 6, 7, 8};
      } else {
        assert i in {0, 1, 2, 3};
        assert j in {1, 2, 3, 4};
      }
    }
  }

  /** The row the scan stops at for an eight-way angle names its compass
      sector. */
  lemma CompassEight(a: real, i: nat)
    requires 0.0 <= a < 360.0
    requires i < 9 && InSector(Sectors(EightWay)[i], a)
    ensures Sectors(EightWay)[i].name == Compass(EightNames, a)
  {
    var k := if i == 0 then 8 else i - 1;
    EightRow(i);
    EightFloor(a, k);
    assert 360.0 / |EightNames| as real == 45.0;
  }

  /** Row `i` of the eight-way table lies inside compass sector `k` and
      carries its name. */
  lemma EightRow(i: nat)
    requires i < 9
    ensures var k := if i == 0 then 8 else i - 1;
      && Sectors(EightWay)[i].name == EightNames[k % 8]
      && 45.0 * k as real - 22.5 <= Sectors(EightWay)[i].lo
      && Sectors(EightWay)[i].hi <= 45.0 * k as real + 22.5
  {
    if i == 0 {
    } else if i == 1 {
    } else if i == 2 {
    } else if i == 3 {
    } else if i == 4 {
    } else if i == 5 {
    } else if i == 6 {
    } else if i == 7 {
    } else {
    }
  }

  lemma EightFloor(a: real, k: int)
    requires 45.0 * k as real - 22.5 <= a < 45.0 * k as real + 22.5
    ensures ((a + 45.0 / 2.0) / 45.0).Floor == k
  {
    var x := (a + 45.0 / 2.0) / 45.0;
    assert x * 45.0 == a + 22.5;
    FloorIs(x, k);
  }

  /** The row the scan stops at for a four-way angle names its compass
      quadrant. */
  lemma CompassFour(a: real, i: nat)
    requires 0.0 <= a < 360.0
    requires i < 5 && InSector(Sectors(FourWay)[i], a)
    ensures Sectors(FourWay)[i].name == Compass(FourNames, a)
  {
    var k := if i == 0 then 4 else i - 1;
    FourRow(i);
    FourFloor(a, k);
    var width := 360.0 / |FourNames| as real;
    assert width == 90.0;
    assert Compass(FourNames, a) == FourNames[((a + width / 2.0) / width).Floor % 4];
  }

  /** Row `i` of the four-way table lies inside compass quadrant `k` and
      carries its name. */
  lemma FourRow(i: nat)
    requires i < 5
    ensures var k := if i == 0 then 4 else i - 1;
      && Sectors(FourWay)[i].name == FourNames[k % 4]
      && 90.0 * k as real - 45.0 <= Sectors(FourWay)[i].lo
      && Sectors(FourWay)[i].hi <= 90.0 * k as real + 45.0
  {
    if i == 0 {
    } else if i == 1 {
    } else if i == 2 {
    } else if i == 3 {
    } else {
    }
  }

  lemma FourFloor(a: real, k: int)
    requires 90.0 * k as real - 45.0 <= a < 90.0 * k as real + 45.0
    ensures ((a + 90.0 / 2.0) / 90.0).Floor == k
  {
    var x := (a + 90.0 / 2.0) / 90.0;
    assert x * 90.0 == a + 45.0;
    FloorIs(x, k);
  }

  lemma FloorIs(x: real, k: int)
    requires k as real <= x < k as real + 1.0
    ensures x.Floor == k
  {
  }

  /** Index of the first row of `t` holding `a`, or |t| if none does. */
  function SectorIndex(t: seq<Sector>, a: real): (i: nat)
    ensures i <= |t|
    ensures i < |t| ==> InSector(t[i], a)
    ensures forall j :: 0 <= j < i ==> !InSector(t[j], a)
  {
    if |t| == 0 then 0
    else if InSector(t[0], a) then 0
    else 1 + SectorIndex(t[1..], a)
  }

  /** The rows of `t` are pairwise disjoint half-open intervals. */
  predicate Disjoint(t: seq<Sector>) {
    forall i, j :: 0 <= i < j < |t| ==> t[i].hi <= t[j].lo || t[j].hi <= t[i].lo
  }

  lemma ScanFinds(t: seq<Sector>, a: real, i: nat)
    requires Disjoint(t) && i == SectorIndex(t, a) && i < |t|
    ensures MatchCount(t, a) == 1
    ensures FirstMatch(t, a) == Some(t[i])
  {
    if i == 0 {
      NoneAfter(t[1..], a);
    } else {
      assert Disjoint(t[1..]) by {
        forall p, q | 0 <= p < q < |t[1..]|
          ensures t[1..][p].hi <= t[1..][q].lo || t[1..][q].hi <= t[1..][p].lo
        {
          assert t[1..][p] == t[p + 1] && t[1..][q] == t[q + 1];
        }
      }
      ScanFinds(t[1..], a, i - 1);
    }
  }

  lemma NoneAfter(t: seq<Sector>, a: real)
    requires forall j :: 0 <= j < |t| ==> !InSector(t[j], a)
    ensures MatchCount(t, a) == 0
  {
    if |t| > 0 {
      NoneAfter(t[1..], a);
    }
  }

  /** The fallback row is unreachable: every heading yields a table row,
      the reported angle is the normalised heading, and the code equals the
      name. */
  lemma DirectionTotal(v: Variant, heading: real)
    requires -180.0 <= heading <= 180.0
    ensures CalculateDirection(v, heading).name == Compass(Names(v), NormalizeAngle(heading))
    ensures CalculateDirection(v, heading).name != "center"
    ensures CalculateDirection(v, heading).code == CalculateDirection(v, heading).name
    ensures CalculateDirection(v, heading).angle == NormalizeAngle(heading)
  {
    var a := NormalizeAngle(heading);
    var t := Sectors(v);
    if v == EightWay {
      EightWayPartition(a);
    } else {
      FourWayPartition(a);
    }
    var s := FirstMatch(t, a).value;
    assert CalculateDirection(v, heading) == Direction(s.name, s.name, a);
    CenterIsNoName(v, Compass(Names(v), a));
  }

  /** "center" is the fallback's name only: no table row carries it. */
  lemma CenterIsNoName(v: Variant, n: string)
    requires n in Names(v)
    ensures n != "center"
  {
    var i :| 0 <= i < |Names(v)| && Names(v)[i] == n;
    assert n[0] != 'c';
  }

  /** Sector edges belong to the sector above them. */
  lemma EightWayBoundaries()
    ensures CalculateDirection(EightWay, 0.0).name == "right"
    ensures CalculateDirection(EightWay, 22.5).name == "forward-right"
    ensures CalculateDirection(EightWay, 90.0).name == "forward"
    ensures CalculateDirection(EightWay, 180.0).name == "left"
    ensures CalculateDirection(EightWay, -22.5).name == "right"
    ensures CalculateDirection(EightWay, -90.0).name == "backward"
    ensures CalculateDirection(EightWay, -67.5).name == "backward-right"
  {
    assert NormalizeAngle(-22.5) == 337.5;
    assert NormalizeAngle(-67.5) == 292.5;
    assert NormalizeAngle(-90.0) == 270.0;
    EightWayPartition(337.5);
    EightWayPartition(292.5);
    EightWayPartition(270.0);
  }

  lemma FourWayAxes()
    ensures CalculateDirection(FourWay, 0.0).name == "right"
    ensures CalculateDirection(FourWay, 90.0).name == "forward"
    ensures CalculateDirection(FourWay, 180.0).name == "left"
    ensures CalculateDirection(FourWay, -90.0).name == "backward"
    ensures CalculateDirection(FourWay, 45.0).name == "forward"
    ensures CalculateDirection(FourWay, -45.0).name == "right"
  {
    assert NormalizeAngle(-45.0) == 315.0;
    assert NormalizeAngle(-90.0) == 270.0;
    FourWayPartition(315.0);
    FourWayPartition(270.0);
    FourWayPartition(45.0);
  }

  // ---------------------------------------------------------------------
  // Direction indicator classes
  // ---------------------------------------------------------------------

  /** `getDirectionClass`: compass class of the indicator to light, with
      "n" for any name outside the variant's table. */
  function DirectionClass(v: Variant, name: string): string {
    match v
    case EightWay =>
      if name == "forward" then "n"
      else if name == "forward-right" then "ne"
      else if name == "right" then "e"
      else if name == "backward-right" then "se"
      else if name == "backward" then "s"
      else if name == "backward-left" then "sw"
      else if name == "left" then "w"
      else if name == "forward-left" then "nw"
      else "n"
    case FourWay =>
      if name == "forward" then "n"
      else if name == "right" then "e"
      else if name == "backward" then "s"
      else if name == "left" then "w"
      else "n"
  }

  const EightClasses := ["e", "ne", "n", "nw", "w", "sw", "s", "se"]
  const FourClasses := ["e", "n", "w", "s"]

  function Classes(v: Variant): seq<string> {
    match v
    case EightWay => EightClasses
    case FourWay => FourClasses
  }

  /** The i-th direction name maps to the i-th compass class (so the map is
      injective on the table's names), and any other name that is not an
      inherited `Object.prototype` member maps to "n". */
  lemma DirectionClassTable(v: Variant, name: string)
    ensures |Names(v)| == |Classes(v)|
    ensures forall i :: 0 <= i < |Names(v)| ==> DirectionClass(v, Names(v)[i]) == Classes(v)[i]
    ensures forall i, j :: 0 <= i < j < |Classes(v)| ==> Classes(v)[i] != Classes(v)[j]
    ensures name !in Names(v) && !InheritedKey(name) ==> DirectionClass(v, name) == "n"
  {
    if v == EightWay {
      assert Names(v) == EightNames && Classes(v) == EightClasses;
    } else {
      assert Names(v) == FourNames && Classes(v) == FourClasses;
    }
  }

  /** The only caller passes the current direction's name, which is a row
      of the table, and no row is named like an inherited member, so the
      `|| 'n'` fallback never meets an `Object.prototype` key there. */
  lemma DirectionNamesAreOwnKeys(v: Variant, i: nat)
    requires i < |Names(v)|
    ensures !InheritedKey(Names(v)[i])
  {
    var n := Names(v)[i];
    assert n[0] in {'r', 'f', 'l', 'b'};
  }
}

=== FILE: page_controller.dfy ===
/** The page controller of the button interface (web-client/script.js,
    class `NautilusController`): movement buttons and keyboard shortcuts
    send move and stop requests, guarded by what the page believes the
    robot is doing.

    A request and its response are one step: the caller supplies the
    `Outcome` the server (or the network) produced. */
module PageController {
  import opened Common

  /** `response.ok`, a non-2xx response, or a rejected `fetch` (which the
      source catches and reports through `showConnectionError`). */
  datatype Outcome = Ok | HttpError | NetworkError

  /** Requests the page sends to the server. */
  datatype Request =
    | MoveRequest(direction: string)
    | JoystickMoveRequest(direction: string, intensity: int, angle: real)
    | StopRequest
    | SpeedRequest(speed: int)
    | CameraToggleRequest
    | ServoToggleRequest
    | StatusRequest

  /** `isMoving`, `currentDirection`, and the connection indicator
      (`showConnectionStatus`). */
  datatype Controller = Controller(isMoving: bool, currentDirection: string, connected: bool)

  datatype Step = Step(next: Controller, sent: seq<Request>)

  const Stopped := "stopped"

  /** The constructor. The indicator's initial markup is not part of the
      source, so it starts as disconnected until the first status poll. */
  const Initial := Controller(false, Stopped, false)

  /** What any request does to the connection indicator: only a rejected
      fetch changes it here (a successful status poll sets it, below). */
  function AfterFailure(c: Controller, o: Outcome): Controller {
    if o == NetworkError then c.(connected := false) else c
  }

  /** `startMovement(direction)`: nothing is sent when the page already
      believes it is moving that way; otherwise one move request, and only
      a successful response records the new direction. */
  function StartMovement(c: Controller, direction: string, o: Outcome): (r: Step)
    ensures c.isMoving && c.currentDirection == direction ==> r == Step(c, [])
    ensures !(c.isMoving && c.currentDirection == direction) ==>
      && r.sent == [MoveRequest(direction)]
      && (o == Ok ==> r.next.isMoving && r.next.currentDirection == direction)
      && (o != Ok ==> r.next.isMoving == c.isMoving && r.next.currentDirection == c.currentDirection)
    ensures r.next.connected == (if o == NetworkError && r.sent != [] then false else c.connected)
  {
    if c.isMoving && c.currentDirection == direction then Step(c, [])
    else if o == Ok then Step(c.(isMoving := true, currentDirection := direction), [MoveRequest(direction)])
    else Step(AfterFailure(c, o), [MoveRequest(direction)])
  }

  /** `stopMovement`: nothing is sent unless the page believes it is
      moving; a successful response records the stop. */
  function StopMovement(c: Controller, o: Outcome): (r: Step)
    ensures !c.isMoving ==> r == Step(c, [])
    ensures c.isMoving ==>
      && r.sent == [StopRequest]
      && (o == Ok ==> !r.next.isMoving && r.next.currentDirection == Stopped)
      && (o != Ok ==> r.next.isMoving && r.next.currentDirection == c.currentDirection)
    ensures r.next.connected == (if o == NetworkError && r.sent != [] then false else c.connected)
  {
    if !c.isMoving then Step(c, [])
    else if o == Ok then Step(c.(isMoving := false, currentDirection := Stopped), [StopRequest])
    else Step(AfterFailure(c, o), [StopRequest])
  }

  /** The speed slider, camera and servo toggles: fire-and-report requests
      whose response only refreshes the status panel. */
  function SimpleRequest(c: Controller, req: Request, o: Outcome): (r: Step)
    ensures r.sent == [req]
    ensures r.next.isMoving == c.isMoving && r.next.currentDirection == c.currentDirection
  {
    Step(AfterFailure(c, o), [req])
  }

  /** The one-second status poll (`updateStatus`). */
  function PollStatus(c: Controller, o: Outcome): (r: Step)
    ensures r.sent == [StatusRequest]
    ensures o == Ok ==> r.next.connected
    ensures o == NetworkError ==> !r.next.connected
    ensures o == HttpError ==> r.next == c
  {
    if o == Ok then Step(c.(connected := true), [StatusRequest])
    else Step(AfterFailure(c, o), [StatusRequest])
  }

  /** `updateButtonStates`: the movement button highlighted, if any. A
      direction without a button (a joystick diagonal) highlights none. */
  function ActiveButton(c: Controller, buttons: set<string>): (b: Option<string>)
    ensures b.Some? <==> c.isMoving && c.currentDirection != Stopped && c.currentDirection in buttons
    ensures b.Some? ==> b.value == c.currentDirection
  {
    if c.isMoving && c.currentDirection != Stopped && c.currentDirection in buttons
    then Some(c.currentDirection) else None
  }

  // ---------------------------------------------------------------------
  // Keyboard
  // ---------------------------------------------------------------------

  /** `String.prototype.toLowerCase` restricted to ASCII letters. Every key
      name the handlers test for is ASCII, and no other character lowers to
      an ASCII letter except U+212A KELVIN SIGN (to "k"), which none of
      them uses. */
  function ToLower(s: string): (r: string)
    ensures |r| == |s|
    ensures forall i :: 0 <= i < |s| ==> r[i] == LowerChar(s[i])
  {
    if |s| == 0 then "" else [LowerChar(s[0])] + ToLower(s[1..])
  }

  function LowerChar(ch: char): char {
    if 'A' <= ch <= 'Z' then (ch as int + 32) as char else ch
  }

  /** What a key press asks for. */
  datatype KeyAction =
    | StartMoving(direction: string)
    | StopMoving
    | ToggleCamera
    | ToggleServo
    | ToggleFullscreen
    | NoAction

  /** The keys `handleKeyDown` reacts to, lower-cased, with their action. */
  const KeyDownTable: seq<(string, KeyAction)> := [
    ("w", StartMoving("forward")), ("arrowup", StartMoving("forward")),
    ("s", StartMoving("backward")), ("arrowdown", StartMoving("backward")),
    ("a", StartMoving("left")), ("arrowleft", StartMoving("left")),
    ("d", StartMoving("right")), ("arrowright", StartMoving("right")),
    (" ", StopMoving),
    ("c", ToggleCamera), ("v", ToggleServo), ("f", ToggleFullscreen)
  ]

  /** The keys `handleKeyUp` answers with a stop. */
  const MovementKeys := ["w", "s", "a", "d", "arrowup", "arrowdown", "arrowleft", "arrowright"]

  /** `handleKeyDown`: a switch on the lower-cased key. */
  function KeyDownAction(key: string): KeyAction {
    KeyDownSwitch(ToLower(key))
  }

  function KeyDownSwitch(k: string): KeyAction {
    if k == "w" || k == "arrowup" then StartMoving("forward")
    else if k == "s" || k == "arrowdown" then StartMoving("backward")
    else if k == "a" || k == "arrowleft" then StartMoving("left")
    else if k == "d" || k == "arrowright" then StartMoving("right")
    else if k == " " then StopMoving
    else if k == "c" then ToggleCamera
    else if k == "v" then ToggleServo
    else if k == "f" then ToggleFullscreen
    else NoAction
  }

  /** `handleKeyUp`: any movement key stops. */
  function KeyUpAction(key: string): KeyAction {
    if ToLower(key) in MovementKeys then StopMoving else NoAction
  }

  function Lookup(t: seq<(string, KeyAction)>, k: string): KeyAction {
    if |t| == 0 then NoAction
    else if t[0].0 == k then t[0].1
    else Lookup(t[1..], k)
  }

  lemma LowerIdempotent(s: string)
    ensures ToLower(ToLower(s)) == ToLower(s)
  {
  }

  /** The key-down switch agrees with the table for every key, ignoring
      case; keys outside the table do nothing. */
  lemma KeyDownMatchesTable(key: string)
    ensures KeyDownAction(key) == Lookup(KeyDownTable, ToLower(key))
    ensures KeyDownAction(key) == KeyDownAction(ToLower(key))
  {
    LowerIdempotent(key);
    SwitchMatchesTable(ToLower(key));
  }

  lemma SwitchMatchesTable(k: string)
    ensures KeyDownSwitch(k) == Lookup(KeyDownTable, k)
  {
    var t := KeyDownTable;
    if i :| 0 <= i < |t| && t[i].0 == k {
      RowAction(i);
      FirstRow(i);
    } else {
      UnlistedKey(k);
    }
  }

  /** The switch gives every row's key that row's action. */
  lemma RowAction(i: nat)
    requires i < |KeyDownTable|
    ensures KeyDownSwitch(KeyDownTable[i].0) == KeyDownTable[i].1
  {
    if i == 0 {
    } else if i == 1 {
    } else if i == 2 {
    } else if i == 3 {
    } else if i == 4 {
    } else if i == 5 {
    } else if i == 6 {
    } else if i == 7 {
    } else if i == 8 {
    } else if i == 9 {
    } else if i == 10 {
    } else {
    }
  }

  /** A key in no row does nothing, by the switch and by the table. */
  lemma UnlistedKey(k: string)
    requires forall j :: 0 <= j < |KeyDownTable| ==> KeyDownTable[j].0 != k
    ensures KeyDownSwitch(k) == NoAction && Lookup(KeyDownTable, k) == NoAction
  {
    var t := KeyDownTable;
    assert t[0].0 != k && t[1].0 != k && t[2].0 != k && t[3].0 != k;
    assert t[4].0 != k && t[5].0 != k && t[6].0 != k && t[7].0 != k;
    assert t[8].0 != k && t[9].0 != k && t[10].0 != k && t[11].0 != k;
    LookupMissing(t, k);
  }

  /** No two keys of the table share their length and last character. */
  ghost function KeySlot(k: string): int {
    if |k| == 0 then -1
    else
      var (n, e) := (|k|, k[|k| - 1]);
      if n == 1 && e == 'w' then 0 else if n == 7 && e == 'p' then 1
      else if n == 1 && e == 's' then 2 else if n == 9 && e == 'n' then 3
      else if n == 1 && e == 'a' then 4 else if n == 9 && e == 't' then 5
      else if n == 1 && e == 'd' then 6 else if n == 10 && e == 't' then 7
      else if n == 1 && e == ' ' then 8 else if n == 1 && e == 'c' then 9
      else if n == 1 && e == 'v' then 10 else if n == 1 && e == 'f' then 11
      else -1
  }

  lemma RowSlot(i: nat)
    requires i < |KeyDownTable|
    ensures KeySlot(KeyDownTable[i].0) == i
  {
    if i == 0 {
    } else if i == 1 {
    } else if i == 2 {
    } else if i == 3 {
    } else if i == 4 {
    } else if i == 5 {
    } else if i == 6 {
    } else if i == 7 {
    } else if i == 8 {
    } else if i == 9 {
    } else if i == 10 {
    } else {
    }
  }

  lemma FirstRow(i: nat)
    requires i < |KeyDownTable|
    ensures Lookup(KeyDownTable, KeyDownTable[i].0) == KeyDownTable[i].1
  {
    var t := KeyDownTable;
    forall j | 0 <= j < i
      ensures t[j].0 != t[i].0
    {
      RowSlot(j);
      RowSlot(i);
    }
    LookupAt(t, t[i].0, i);
  }

  /** `Lookup` finds the first row whose key matches. */
  lemma {:induction false} LookupAt(t: seq<(string, KeyAction)>, k: string, i: nat)
    requires i < |t| && t[i].0 == k
    requires forall j :: 0 <= j < i ==> t[j].0 != k
    ensures Lookup(t, k) == t[i].1
    decreases i
  {
    if i > 0 {
      assert t[1..][i - 1] == t[i];
      LookupAt(t[1..], k, i - 1);
    }
  }

  lemma {:induction false} LookupMissing(t: seq<(string, KeyAction)>, k: string)
    requires forall j :: 0 <= j < |t| ==> t[j].0 != k
    ensures Lookup(t, k) == NoAction
    decreases |t|
  {
    if |t| > 0 {
      LookupMissing(t[1..], k);
    }
  }

  /** Every movement key stops on release and nothing else does; the
      movement keys are exactly the keys that start a movement on press. */
  lemma KeyUpStopsMovementKeys(key: string)
    ensures KeyUpAction(key) == StopMoving <==> KeyDownAction(key).StartMoving?
    ensures KeyUpAction(key) != StopMoving ==> KeyUpAction(key) == NoAction
  {
  }

  /** The shortcuts as the page documents them, upper case included. */
  lemma KeyExamples()
    ensures KeyDownAction("W") == StartMoving("forward")
    ensures KeyDownAction("ArrowUp") == StartMoving("forward")
    ensures KeyUpAction("S") == StopMoving
  {
    LowerOf("W", "w");
    LowerOf("ArrowUp", "arrowup");
    LowerOf("S", "s");
  }

  /** Keys outside the shortcuts do nothing on press, and a non-movement
      shortcut does nothing on release. */
  lemma OtherKeysExamples()
    ensures KeyDownAction("Enter") == NoAction
    ensures KeyUpAction("c") == NoAction
  {
    LowerOf("Enter", "enter");
    LowerOf("c", "c");
  }

  lemma LowerOf(s: string, t: string)
    requires |s| == |t| && forall i :: 0 <= i < |s| ==> LowerChar(s[i]) == t[i]
    ensures ToLower(s) == t
  {
  }

  /** A key press with the outcome of the request it may send. Camera,
      servo and fullscreen shortcuts leave the movement state alone;
      fullscreen is handled locally (`FullscreenView`). */
  function KeyDown(c: Controller, key: string, o: Outcome): (r: Step)
    ensures KeyDownAction(key) == NoAction || KeyDownAction(key) == ToggleFullscreen ==> r == Step(c, [])
    ensures KeyDownAction(key).StartMoving? ==> r == StartMovement(c, KeyDownAction(key).direction, o)
    ensures KeyDownAction(key) == StopMoving ==> r == StopMovement(c, o)
    ensures KeyDownAction(key) == ToggleCamera ==> r == SimpleRequest(c, CameraToggleRequest, o)
    ensures KeyDownAction(key) == ToggleServo ==> r == SimpleRequest(c, ServoToggleRequest, o)
  {
    match KeyDownAction(key)
    case StartMoving(d) => StartMovement(c, d, o)
    case StopMoving => StopMovement(c, o)
    case ToggleCamera => SimpleRequest(c, CameraToggleRequest, o)
    case ToggleServo => SimpleRequest(c, ServoToggleRequest, o)
    case ToggleFullscreen => Step(c, [])
    case NoAction => Step(c, [])
  }

  /** A key release: releasing a movement key is the page's `stopMovement`. */
  function KeyUp(c: Controller, key: string, o: Outcome): (r: Step)
    ensures KeyUpAction(key) == NoAction ==> r == Step(c, [])
    ensures KeyUpAction(key) == StopMoving ==> r == StopMovement(c, o)
  {
    if KeyUpAction(key) == StopMoving then StopMovement(c, o) else Step(c, [])
  }

  /** Pressing a movement key and releasing it, both answered, leaves the
      robot believed stopped, and the release sent exactly one stop. */
  lemma PressThenRelease(c: Controller, key: string, o: Outcome)
    requires KeyDownAction(key).StartMoving?
    ensures var r1 := KeyDown(c, key, Ok);
      var r2 := KeyUp(r1.next, key, o);
      && r2.sent == [StopRequest]
      && (o == Ok ==> !r2.next.isMoving && r2.next.currentDirection == Stopped)
  {
    KeyUpStopsMovementKeys(key);
  }

  /** The `visibilitychange` handler: hiding the page stops a moving robot. */
  function VisibilityChange(c: Controller, hidden: bool, o: Outcome): (r: Step)
    ensures !hidden || !c.isMoving ==> r == Step(c, [])
    ensures hidden && c.isMoving ==> r.sent == [StopRequest]
    ensures hidden && o == Ok ==> !r.next.isMoving
  {
    if hidden && c.isMoving then StopMovement(c, o) else Step(c, [])
  }

  // ---------------------------------------------------------------------
  // Guards
  // ---------------------------------------------------------------------

  /** Holding a key (auto-repeat) sends one move request: once the first
      succeeds, repeats of the same direction are silent. */
  lemma RepeatedStartIsSilent(c: Controller, d: string, o1: Outcome, o2: Outcome)
    ensures var r1 := StartMovement(c, d, o1);
      o1 == Ok ==> StartMovement(r1.next, d, o2) == Step(r1.next, [])
  {
  }

  /** Stopping twice sends one stop request when the first succeeds. */
  lemma RepeatedStopIsSilent(c: Controller, o1: Outcome, o2: Outcome)
    ensures var r1 := StopMovement(c, o1);
      o1 == Ok ==> StopMovement(r1.next, o2) == Step(r1.next, [])
  {
  }

  /** The slider, toggle and status requests never touch the movement
      belief: the highlighted button stays, and a later start or stop sends
      what it would have sent without them. A successful poll brings the
      indicator back after a dropped connection. */
  lemma SideRequestsKeepMovement(
    c: Controller, req: Request, o: Outcome, o2: Outcome, d: string, buttons: set<string>)
    ensures ActiveButton(SimpleRequest(c, req, o).next, buttons) == ActiveButton(c, buttons)
    ensures ActiveButton(PollStatus(c, o).next, buttons) == ActiveButton(c, buttons)
    ensures StartMovement(SimpleRequest(c, req, o).next, d, o2).sent == StartMovement(c, d, o2).sent
    ensures StopMovement(PollStatus(c, o).next, o2).sent == StopMovement(c, o2).sent
    ensures PollStatus(SimpleRequest(c, req, NetworkError).next, Ok).next.connected
    ensures !SimpleRequest(PollStatus(c, Ok).next, req, NetworkError).next.connected
  {
  }

  /** Hiding the page is the page's own `stopMovement`; once a hide has
      been answered successfully, hiding again sends nothing, and showing
      the page never sends anything. */
  lemma HideStopsOnce(c: Controller, o1: Outcome, o2: Outcome)
    ensures VisibilityChange(c, true, o1) == StopMovement(c, o1)
    ensures var r1 := VisibilityChange(c, true, o1);
      o1 == Ok ==> VisibilityChange(r1.next, true, o2) == Step(r1.next, [])
    ensures VisibilityChange(c, false, o1) == Step(c, [])
  {
  }

  /** A failed request leaves the page's belief about the robot unchanged. */
  lemma FailureKeepsBelief(c: Controller, d: string, o: Outcome)
    requires o != Ok
    ensures StartMovement(c, d, o).next.isMoving == c.isMoving
    ensures StartMovement(c, d, o).next.currentDirection == c.currentDirection
    ensures StopMovement(c, o).next.isMoving == c.isMoving
    ensures StopMovement(c, o).next.currentDirection == c.currentDirection
  {
  }

  /** The highlighted button follows the movement requests: the started
      direction after a successful start, none after a successful stop. */
  lemma HighlightFollowsMovement(c: Controller, d: string, buttons: set<string>)
    requires d != Stopped && d in buttons
    ensures ActiveButton(StartMovement(c, d, Ok).next, buttons) == Some(d)
    ensures ActiveButton(StopMovement(c, Ok).next, buttons) == None || !c.isMoving
  {
  }

  // ---------------------------------------------------------------------
  // Fullscreen
  // ---------------------------------------------------------------------

  /** The `fullscreen` class on the container, the button icon's class and
      the button title. */
  datatype FullscreenView = FullscreenView(fullscreen: bool, icon: string, title: string)

  /** The view `toggleFullscreen` leaves for a given mode. */
  function ViewFor(on: bool): FullscreenView {
    if on then FullscreenView(true, "fas fa-compress", "Exit Fullscreen")
    else FullscreenView(false, "fas fa-expand", "Enter Fullscreen")
  }

  function ToggleFullscreenView(v: FullscreenView): (r: FullscreenView)
    ensures r.fullscreen == !v.fullscreen
  {
    ViewFor(!v.fullscreen)
  }

  /** Toggling twice restores the class state, and restores the whole view
      whenever icon and title already matched the class. */
  lemma ToggleFullscreenTwice(v: FullscreenView)
    ensures ToggleFullscreenView(ToggleFullscreenView(v)).fullscreen == v.fullscreen
    ensures v == ViewFor(v.fullscreen) ==> ToggleFullscreenView(ToggleFullscreenView(v)) == v
  {
  }
}

=== FILE: robot_server.dfy ===
/** The server's robot-state handlers. Two servers exist: main.py keeps a
    simulated x/y position, web-client/backend.py keeps GPS coordinates
    filled in by a background reader. Both share the handlers for stop,
    servo, camera and speed, and both turn the heading in 5-degree steps. */
module RobotServer {
  import opened Common

  /** The fields both servers keep. `currentDirection` is whatever the
      client sent (None when the request had no "direction" key). */
  datatype Core = Core(
    heading: real,
    motorSpeed: int,
    servoAngle: int,
    cameraEnabled: bool,
    isMoving: bool,
    currentDirection: Option<string>)

  const InitialCore := Core(0.0, 50, 0, false, false, Some("stopped"))

  /** What stays true of the shared fields under every handler. */
  predicate CoreInv(c: Core) {
    && 0.0 <= c.heading < 360.0
    && 0 <= c.motorSpeed <= 100
    && (c.servoAngle == 0 || c.servoAngle == 180)
  }

  /** Python's `(heading ± 5) % 360` on a float: the floored remainder. */
  function TurnLeft(h: real): (r: real)
    ensures 0.0 <= r < 360.0
    ensures 5.0 <= h < 365.0 ==> r == h - 5.0
    ensures 0.0 <= h < 5.0 ==> r == h + 355.0
  {
    var r := Mod360(h - 5.0);
    if 0.0 <= h < 365.0 then SameTurn(h - 5.0, r); r else r
  }

  function TurnRight(h: real): (r: real)
    ensures 0.0 <= r < 360.0
    ensures -5.0 <= h < 355.0 ==> r == h + 5.0
    ensures 355.0 <= h < 360.0 ==> r == h - 355.0
  {
    var r := Mod360(h + 5.0);
    if -5.0 <= h < 360.0 then SameTurn(h + 5.0, r); r else r
  }

  /** The remainder differs from an argument in [-360, 720) by 0, ±360. */
  lemma SameTurn(x: real, r: real)
    requires -360.0 <= x < 720.0 && r == Mod360(x)
    ensures 0.0 <= x < 360.0 ==> r == x
    ensures x < 0.0 ==> r == x + 360.0
    ensures 360.0 <= x ==> r == x - 360.0
  {
    var k := (x / 360.0).Floor;
    assert -1 <= k <= 1;
  }

  /** A left turn undoes a right turn and vice versa. */
  lemma TurnsCancel(h: real)
    requires 0.0 <= h < 360.0
    ensures TurnRight(TurnLeft(h)) == h
    ensures TurnLeft(TurnRight(h)) == h
  {
  }

  /** `/api/stop`. */
  function Stop(c: Core): (r: Core)
    ensures !r.isMoving && r.currentDirection == Some("stopped")
    ensures r.heading == c.heading && r.motorSpeed == c.motorSpeed
    ensures r.servoAngle == c.servoAngle && r.cameraEnabled == c.cameraEnabled
  {
    c.(isMoving := false, currentDirection := Some("stopped"))
  }

  /** `/api/servo/toggle`: 0 goes to 180, anything else to 0. */
  function ToggleServo(c: Core): (r: Core)
    ensures c.servoAngle == 0 ==> r.servoAngle == 180
    ensures c.servoAngle != 0 ==> r.servoAngle == 0
    ensures r.(servoAngle := c.servoAngle) == c
  {
    c.(servoAngle := if c.servoAngle == 0 then 180 else 0)
  }

  /** `/api/camera/toggle`. */
  function ToggleCamera(c: Core): (r: Core)
    ensures r.cameraEnabled != c.cameraEnabled
    ensures r.(cameraEnabled := c.cameraEnabled) == c
  {
    c.(cameraEnabled := !c.cameraEnabled)
  }

  /** Toggling twice is the identity for the camera, and for the servo
      whenever the angle is one of the two it toggles between. */
  lemma TogglesAreInvolutions(c: Core)
    ensures ToggleCamera(ToggleCamera(c)) == c
    ensures c.servoAngle == 0 || c.servoAngle == 180 ==> ToggleServo(ToggleServo(c)) == c
  {
  }

  /** The "speed" field of the request body, as `int(...)` sees it. */
  datatype SpeedArg = Missing | IntArg(i: int) | FloatArg(x: real) | Unconvertible

  /** `int(data.get("speed", 50))`: the default applies only when the key
      is absent; floats truncate towards zero; anything `int` rejects
      (a null from `parseInt` of a non-number, a non-numeric string) makes
      the handler raise, which is `None` here. */
  function SpeedValue(a: SpeedArg): Option<int> {
    match a
    case Missing => Some(50)
    case IntArg(i) => Some(i)
    case FloatArg(x) => Some(Trunc(x))
    case Unconvertible => None
  }

  function ClampSpeed(v: int): (r: int)
    ensures 0 <= r <= 100
    ensures 0 <= v <= 100 ==> r == v
    ensures v < 0 ==> r == 0
    ensures v > 100 ==> r == 100
  {
    Max(0, Min(100, v))
  }

  /** `/api/speed`: the stored speed, or None (state unchanged) when the
      handler raises. */
  function SetSpeed(c: Core, a: SpeedArg): (r: Option<Core>)
    ensures r.None? <==> a == Unconvertible
    ensures r.Some? ==> 0 <= r.value.motorSpeed <= 100
    ensures r.Some? ==> r.value.(motorSpeed := c.motorSpeed) == c
  {
    match SpeedValue(a)
    case None => None
    case Some(v) => Some(c.(motorSpeed := ClampSpeed(v)))
  }

  /** Setting a speed is idempotent, keeps a valid speed as sent, and an
      absent field means 50. */
  lemma SpeedFacts(c: Core, v: int)
    ensures SetSpeed(SetSpeed(c, IntArg(v)).value, IntArg(SetSpeed(c, IntArg(v)).value.motorSpeed)) ==
            SetSpeed(c, IntArg(v))
    ensures 0 <= v <= 100 ==> SetSpeed(c, IntArg(v)).value.motorSpeed == v
    ensures SetSpeed(c, Missing).value.motorSpeed == 50
    ensures SetSpeed(c, FloatArg(42.9)).value.motorSpeed == 42
    ensures SetSpeed(c, FloatArg(-0.5)).value.motorSpeed == 0
    ensures SetSpeed(c, IntArg(250)).value.motorSpeed == 100
  {
  }

  /** The shared part of `/api/move`: record the request's direction and
      turn on "left"/"right". */
  function MoveCore(c: Core, direction: Option<string>): (r: Core)
    ensures r.isMoving && r.currentDirection == direction
    ensures direction == Some("left") ==> r.heading == TurnLeft(c.heading)
    ensures direction == Some("right") ==> r.heading == TurnRight(c.heading)
    ensures direction != Some("left") && direction != Some("right") ==> r.heading == c.heading
    ensures r.motorSpeed == c.motorSpeed && r.servoAngle == c.servoAngle
    ensures r.cameraEnabled == c.cameraEnabled
  {
    var c1 := c.(isMoving := true, currentDirection := direction);
    if direction == Some("left") then c1.(heading := TurnLeft(c.heading))
    else if direction == Some("right") then c1.(heading := TurnRight(c.heading))
    else c1
  }

  // ---------------------------------------------------------------------
  // main.py: simulated position
  // ---------------------------------------------------------------------

  datatype SimState = SimState(x: real, y: real, core: Core)

  const InitialSim := SimState(0.0, 0.0, InitialCore)

  /** The distance one move request covers: half a unit at full speed. */
  function StepSize(speed: int): real {
    speed as real / 100.0 * 0.5
  }

  /** `move_robot` in main.py. */
  function SimMove(s: SimState, direction: Option<string>): (r: SimState)
    ensures r.core == MoveCore(s.core, direction)
    ensures direction == Some("forward") ==> r.x == s.x && r.y == s.y + StepSize(s.core.motorSpeed)
    ensures direction == Some("backward") ==> r.x == s.x && r.y == s.y - StepSize(s.core.motorSpeed)
    ensures direction == Some("left") ==> r.y == s.y && r.x == s.x - StepSize(s.core.motorSpeed)
    ensures direction == Some("right") ==> r.y == s.y && r.x == s.x + StepSize(s.core.motorSpeed)
    ensures direction !in {Some("forward"), Some("backward"), Some("left"), Some("right")} ==>
      r.x == s.x && r.y == s.y && r.core.heading == s.core.heading
  {
    var step := StepSize(s.core.motorSpeed);
    var core := MoveCore(s.core, direction);
    if direction == Some("forward") then SimState(s.x, s.y + step, core)
    else if direction == Some("backward") then SimState(s.x, s.y - step, core)
    else if direction == Some("left") then SimState(s.x - step, s.y, core)
    else if direction == Some("right") then SimState(s.x + step, s.y, core)
    else SimState(s.x, s.y, core)
  }

  /** Opposite moves at the same speed return to the starting position
      and heading. */
  lemma OppositeMovesCancel(s: SimState)
    requires CoreInv(s.core)
    ensures var r := SimMove(SimMove(s, Some("left")), Some("right"));
      r.x == s.x && r.y == s.y && r.core.heading == s.core.heading
    ensures var r := SimMove(SimMove(s, Some("forward")), Some("backward"));
      r.x == s.x && r.y == s.y && r.core.heading == s.core.heading
  {
    TurnsCancel(s.core.heading);
  }

  /** Requests to main.py's server, with the body fields the handlers read. */
  datatype Request =
    | MoveReq(direction: Option<string>)
    | StopReq
    | ServoReq
    | CameraReq
    | SpeedReq(speed: SpeedArg)

  /** Any request; a handler that raises leaves the state unchanged. */
  function SimHandle(s: SimState, q: Request): (r: SimState)
    requires CoreInv(s.core)
    ensures CoreInv(r.core)
  {
    match q
    case MoveReq(d) => SimMove(s, d)
    case StopReq => s.(core := Stop(s.core))
    case ServoReq => s.(core := ToggleServo(s.core))
    case CameraReq => s.(core := ToggleCamera(s.core))
    case SpeedReq(a) =>
      match SetSpeed(s.core, a)
      case Some(c) => s.(core := c)
      case None => s
  }

  // ---------------------------------------------------------------------
  // web-client/backend.py: GPS position
  // ---------------------------------------------------------------------

  /** `gps_status`. */
  datatype GpsStatus = Initializing | Connected | Active | NoFix | Failed(reason: string) | Disconnected

  function StatusText(g: GpsStatus): string {
    match g
    case Initializing => "initializing"
    case Connected => "connected"
    case Active => "active"
    case NoFix => "no_fix"
    case Failed(reason) => "error: " + reason
    case Disconnected => "disconnected"
  }

  datatype GpsState = GpsState(latitude: real, longitude: real, gps: GpsStatus, core: Core)

  const InitialGps := GpsState(0.0, 0.0, Initializing, InitialCore)

  /** A TPV field: the string 'n/a' or a coordinate. */
  datatype Field = NotAvailable | Coordinate(value: real)

  /** One report from gpsd: both coordinates present is a fix; otherwise
      the status says so and the last coordinates stay. */
  function GpsReport(s: GpsState, lat: Field, lon: Field): (r: GpsState)
    ensures r.core == s.core
    ensures lat.Coordinate? && lon.Coordinate? ==>
      r.gps == Active && r.latitude == lat.value && r.longitude == lon.value
    ensures !(lat.Coordinate? && lon.Coordinate?) ==>
      r.gps == NoFix && r.latitude == s.latitude && r.longitude == s.longitude
  {
    if lat.Coordinate? && lon.Coordinate? then
      s.(latitude := lat.value, longitude := lon.value, gps := Active)
    else
      s.(gps := NoFix)
  }

  /** The reader connected to gpsd. */
  function GpsConnected(s: GpsState): GpsState { s.(gps := Connected) }

  /** The reader raised: the `except` clause records the error ... */
  function GpsFailed(s: GpsState, reason: string): GpsState { s.(gps := Failed(reason)) }

  /** ... and the `finally` clause then overwrites it. */
  function GpsClosed(s: GpsState): (r: GpsState)
    ensures r.gps == Disconnected && r.latitude == s.latitude && r.longitude == s.longitude
  {
    s.(gps := Disconnected)
  }

  /** The reader's error status is immediately replaced by "disconnected",
      so once the reader has ended the error is no longer visible. */
  lemma ErrorStatusOverwritten(s: GpsState, reason: string)
    ensures StatusText(GpsClosed(GpsFailed(s, reason)).gps) == "disconnected"
  {
  }

  /** `/api/move` in backend.py: only the heading moves; the coordinates
      belong to the GPS reader. */
  function GpsMove(s: GpsState, direction: Option<string>): (r: GpsState)
    ensures r.latitude == s.latitude && r.longitude == s.longitude && r.gps == s.gps
    ensures r.core == MoveCore(s.core, direction)
  {
    s.(core := MoveCore(s.core, direction))
  }

  function GpsHandle(s: GpsState, q: Request): (r: GpsState)
    requires CoreInv(s.core)
    ensures CoreInv(r.core)
    ensures r.latitude == s.latitude && r.longitude == s.longitude && r.gps == s.gps
  {
    match q
    case MoveReq(d) => GpsMove(s, d)
    case StopReq => s.(core := Stop(s.core))
    case ServoReq => s.(core := ToggleServo(s.core))
    case CameraReq => s.(core := ToggleCamera(s.core))
    case SpeedReq(a) =>
      match SetSpeed(s.core, a)
      case Some(c) => s.(core := c)
      case None => s
  }

  /** The two servers agree on every shared field for every request. */
  lemma ServersAgree(sim: SimState, gps: GpsState, q: Request)
    requires sim.core == gps.core && CoreInv(sim.core)
    ensures SimHandle(sim, q).core == GpsHandle(gps, q).core
  {
  }

  /** Starting from the initial state, any request sequence keeps the
      heading in [0, 360), the speed in [0, 100] and the servo at 0 or 180. */
  function SimRun(s: SimState, qs: seq<Request>): (r: SimState)
    requires CoreInv(s.core)
    ensures CoreInv(r.core)
    decreases |qs|
  {
    if |qs| == 0 then s else SimRun(SimHandle(s, qs[0]), qs[1..])
  }

  lemma InitialValid()
    ensures CoreInv(InitialCore)
    ensures CoreInv(SimRun(InitialSim, [MoveReq(Some("left")), SpeedReq(IntArg(120)), ServoReq]).core)
  {
  }
}

=== FILE: session.dfy ===
/** The joystick and the page controller together: each command the
    joystick issues is carried out by the page controller, which is where
    the move and stop requests actually leave the browser.

    One joystick handler runs to completion before any response is read:
    every request it issues leaves the browser before the first `await`
    resumes. So the guard of each command is checked against the page state
    from before the handler (`Sends`), and the responses are applied
    afterwards (`Replies`), in the order they arrive. */
module Session {
  import J = Joystick
  import PC = PageController

  /** The requests one command issues on state `c`, before any `await`:
      `sendMovementCommand` posts its payload unconditionally; a
      `ControllerStop` is the page's `stopMovement`, which only posts while
      `isMoving` holds. */
  function Requests(c: PC.Controller, cmd: J.Command): (rs: seq<PC.Request>)
    ensures cmd.Move? ==> rs == [PC.JoystickMoveRequest(cmd.direction, cmd.intensity, cmd.angle)]
    ensures cmd.ControllerStop? ==> (rs == [PC.StopRequest] <==> c.isMoving) && (rs == [] <==> !c.isMoving)
  {
    match cmd
    case Move(d, i, a) => [PC.JoystickMoveRequest(d, i, a)]
    case ControllerStop => if c.isMoving then [PC.StopRequest] else []
  }

  /** What the response to one command's request does, after the `await`:
      a successful move records the joystick's direction, a successful stop
      records the stop, and a failure only touches the connection
      indicator. */
  function Respond(c: PC.Controller, cmd: J.Command, o: PC.Outcome): (r: PC.Controller)
    ensures o != PC.Ok ==> r == PC.AfterFailure(c, o)
    ensures cmd.Move? && o == PC.Ok ==> r.isMoving && r.currentDirection == cmd.direction
    ensures cmd.ControllerStop? && o == PC.Ok ==> !r.isMoving && r.currentDirection == PC.Stopped
  {
    if o != PC.Ok then PC.AfterFailure(c, o)
    else match cmd
      case Move(d, _, _) => c.(isMoving := true, currentDirection := d)
      case ControllerStop => c.(isMoving := false, currentDirection := PC.Stopped)
  }

  /** One command on its own: its requests, then its response. A stop is
      exactly the page controller's guarded `stopMovement`. */
  function Apply(c: PC.Controller, cmd: J.Command, o: PC.Outcome): (r: PC.Step)
    ensures cmd.Move? ==> r.sent == [PC.JoystickMoveRequest(cmd.direction, cmd.intensity, cmd.angle)]
    ensures cmd.Move? && o == PC.Ok ==> r.next.isMoving && r.next.currentDirection == cmd.direction
    ensures cmd.ControllerStop? ==> r == PC.StopMovement(c, o)
  {
    var rs := Requests(c, cmd);
    PC.Step(if rs == [] then c else Respond(c, cmd, o), rs)
  }

  /** Everything one handler sends: each command's guard sees the state
      from before the handler, `c0`. */
  function Sends(c0: PC.Controller, cmds: seq<J.Command>): seq<PC.Request>
    decreases |cmds|
  {
    if |cmds| == 0 then [] else Requests(c0, cmds[0]) + Sends(c0, cmds[1..])
  }

  /** The responses, one outcome per command, applied to `c` in order;
      a command that sent nothing has no response. */
  function Replies(c0: PC.Controller, c: PC.Controller, cmds: seq<J.Command>, os: seq<PC.Outcome>): PC.Controller
    requires |os| == |cmds|
    decreases |cmds|
  {
    if |cmds| == 0 then c
    else
      var c1 := if Requests(c0, cmds[0]) == [] then c else Respond(c, cmds[0], os[0]);
      Replies(c0, c1, cmds[1..], os[1..])
  }

  /** A whole handler: what it sends, and the page state once every
      response is in. */
  function Handler(c: PC.Controller, cmds: seq<J.Command>, os: seq<PC.Outcome>): PC.Step
    requires |os| == |cmds|
  {
    PC.Step(Replies(c, c, cmds, os), Sends(c, cmds))
  }

  /** A handler that issues one command is that command on its own. */
  lemma SingleCommand(c: PC.Controller, cmd: J.Command, o: PC.Outcome)
    ensures Handler(c, [cmd], [o]) == Apply(c, cmd, o)
  {
    assert [cmd][1..] == [] && [o][1..] == [];
    var c1 := if Requests(c, cmd) == [] then c else Respond(c, cmd, o);
    assert Replies(c, c1, [], []) == c1;
    assert Replies(c, c, [cmd], [o]) == c1;
    assert Sends(c, [cmd]) == Requests(c, cmd) + [];
  }

  /** `n` calls of the page's `stopMovement` in one handler. */
  function Stops(n: nat): seq<J.Command> {
    seq(n, _ => J.ControllerStop)
  }

  /** Every stop call of a handler posts while the page believed it was
      moving when the handler began, and none posts otherwise. */
  lemma {:induction false} StopSends(c0: PC.Controller, n: nat)
    ensures Sends(c0, Stops(n)) == if c0.isMoving then seq(n, _ => PC.StopRequest) else []
    decreases n
  {
    if n > 0 {
      assert Stops(n)[1..] == Stops(n - 1);
      StopSends(c0, n - 1);
    }
  }

  /** After the responses to a handler's stop calls, the page believes it
      is moving exactly when it did before and no response succeeded; one
      success is enough to record the stop. Nothing changes when no stop
      was posted. */
  lemma {:induction false} StopReplies(c0: PC.Controller, c: PC.Controller, os: seq<PC.Outcome>)
    ensures !c0.isMoving ==> Replies(c0, c, Stops(|os|), os) == c
    ensures c0.isMoving ==>
      && Replies(c0, c, Stops(|os|), os).isMoving == (c.isMoving && PC.Ok !in os)
      && Replies(c0, c, Stops(|os|), os).currentDirection ==
           (if PC.Ok in os then PC.Stopped else c.currentDirection)
    decreases |os|
  {
    if |os| > 0 {
      assert Stops(|os|)[1..] == Stops(|os| - 1);
      assert Stops(|os|)[0] == J.ControllerStop;
      var c1 := if c0.isMoving then Respond(c, J.ControllerStop, os[0]) else c;
      StopReplies(c0, c1, os[1..]);
      assert PC.Ok in os <==> os[0] == PC.Ok || PC.Ok in os[1..] by {
        assert os == [os[0]] + os[1..];
      }
    }
  }

  /** `emergencyStop` calls the page's `stopMovement` three times before
      any response arrives: all three stop requests leave the browser when
      the page believed it was moving, none when it did not. The page
      records the stop once any of the three succeeds, whatever order the
      responses arrive in. */
  lemma EmergencyStopRequests(s: J.State, c: PC.Controller, o1: PC.Outcome, o2: PC.Outcome, o3: PC.Outcome)
    requires J.Inv(s)
    ensures var r := Handler(c, J.EmergencyStop(s).sent, [o1, o2, o3]);
      && (!c.isMoving ==> r.sent == [] && r.next == c)
      && (c.isMoving ==> r.sent == [PC.StopRequest, PC.StopRequest, PC.StopRequest])
      && (c.isMoving ==> (r.next.isMoving <==> o1 != PC.Ok && o2 != PC.Ok && o3 != PC.Ok))
      && (c.isMoving && (o1 == PC.Ok || o2 == PC.Ok || o3 == PC.Ok) ==> r.next.currentDirection == PC.Stopped)
  {
    J.EmergencyStopEffect(s);
    var os := [o1, o2, o3];
    assert J.EmergencyStop(s).sent == Stops(|os|);
    StopSends(c, 3);
    StopReplies(c, c, os);
    assert PC.Ok in os <==> o1 == PC.Ok || o2 == PC.Ok || o3 == PC.Ok;
    assert seq(3, _ => PC.StopRequest) == [PC.StopRequest, PC.StopRequest, PC.StopRequest];
  }

  /** `toggleControlMode` stops twice in the same way: two stop requests
      while the page believed it was moving, none otherwise. */
  lemma ToggleModeRequests(s: J.State, c: PC.Controller, o1: PC.Outcome, o2: PC.Outcome)
    requires J.Inv(s)
    ensures var r := Handler(c, J.ToggleControlMode(s).sent, [o1, o2]);
      && (!c.isMoving ==> r.sent == [] && r.next == c)
      && (c.isMoving ==> r.sent == [PC.StopRequest, PC.StopRequest])
      && (c.isMoving ==> (r.next.isMoving <==> o1 != PC.Ok && o2 != PC.Ok))
  {
    var os := [o1, o2];
    assert J.ToggleControlMode(s).sent == Stops(|os|);
    StopSends(c, 2);
    StopReplies(c, c, os);
    assert PC.Ok in os <==> o1 == PC.Ok || o2 == PC.Ok;
    assert seq(2, _ => PC.StopRequest) == [PC.StopRequest, PC.StopRequest];
  }

  /** A timer firing followed by a successful response leaves the page
      controller moving in the joystick's compass direction. */
  lemma TickMarksMoving(s: J.State, c: PC.Controller)
    requires J.Inv(s) && s.timer == J.Running
    ensures var r := Handler(c, J.Tick(s).sent, [PC.Ok]);
      r.next.isMoving && r.next.currentDirection == s.direction.value.name
  {
    J.TickAlwaysMoves(s);
    SingleCommand(c, J.Tick(s).sent[0], PC.Ok);
  }
}
